=== FILE: README.md ===
# SellerApi stock-consistency core, modelled in Dafny

SellerApi is an Amazon FBA seller back office. Its core keeps one number
consistent with many operations: the units of each SKU that are available
in the warehouse. This project models that core as pure Dafny functions
over immutable values and proves what the code promises about them.

- **Stock ledger** (`Inventory`). One record per SKU. It holds an available
  quantity and a faulty quantity, schema bounds that every save enforces,
  a relative adjust and an absolute set, a soft delete, a case-insensitive
  lookup, a low-stock listing and a bulk upsert. The collection is a map
  keyed by the upper-cased SKU.
- **Shipment aggregate** (`Shipments`). An ordered list of boxes holding
  item lines. It also holds a status and cached totals that the pre-save
  hook recomputes. The schema methods are here: add a box, merge an item
  into a box, finalize, mark as shipped. So is the `SHP{year}-{nnnn}`
  identifier hook.
- **Shipment workflow** (`ShipmentService`). These are the service
  operations that touch the ledger:
  - Adding lines checks them against the active records but reserves nothing.
  - Finalizing deducts every line's units with an unchecked `$inc`. This
    happens *before* the shipment's own status check.
  - Cancelling a ready shipment gives the same units back.
  - Duplicate, update and delete are also modelled.
- **Distribution engine** (`PackGroups`, `PackGroupRequests`). A shipment
  is seen as a SKU × box quantity matrix. The projection lists each
  upper-cased SKU once, in order of first appearance. The build turns a
  matrix back into a draft shipment. The edit overwrites or removes single
  cells. The controller's request checks sit in front of these.
- **Satellites.** Defect reports, which move faulty stock (`Defects`). The
  standalone box record (`Boxes`). A finance transaction's derived totals
  and identifier (`Finance`). The two route guards (`Roles`).

Each Mongoose `save()` is modelled as schema validation followed by the
pre-save hooks. A refused save reports one error. For the stock record,
the box record, defect reports and transactions that error names the
first violated path. For shipments it is a single `shipment` validation
error that names no path.

The identifier hooks (`SHP…` for shipments, `DEF…` for defect reports)
only act when the identifier is missing, so the model applies them once,
at creation:
- A shipment built from a pack group gets its identifier after the totals
  hook.
- A defect report gets its identifier after the loss hook.

The source declares the identifier hook first. The order makes no
difference, because the identifier hook and the totals or loss hook write
different fields and neither reads what the other writes. Finance
transactions apply both hooks in declaration order.

Database calls become operations on maps. Clocks, the current year, the
document count and user ids are parameters.

**Finalize does not check stock.** Lines are checked against available
stock only when they are added (services/shipmentService.js:141-161). At
finalize the service deducts every line with `$inc`, which runs no
validator (services/shipmentService.js:218-225). So two drafts of 5 and 8
units of a SKU with 10 available both finalize, and the record ends at −3:
- `ShipmentService.DraftsCanOvercommit` proves the −3 outcome for two drafts.
- `ShipmentService.OneDraftOverdraws` proves the same for two boxes added
  to one draft.
- `ShipmentService.RefinalizeDeductsAgain` shows that the deduction stands
  even when finalize refuses.

**A schema gap the model keeps.** The box record's line `unitWeight` has no
lower bound, and the weight hook runs after validation. A box whose line
has a negative unit weight is therefore saved with a negative weight, and
saving it again is refused. `Boxes.NegativeUnitWeightSlipsThrough` exhibits
this. `Boxes.SavedBoxValid` states the re-save guarantee under the
condition that rules it out.

## Model

| member | source | states |
|---|---|---|
| Ids.DecimalRoundTrip | models/Shipment.js:195 | `String(n)` read back as a decimal gives `n`: the counter is rendered without loss |
| Ids.SequenceDenotesCount | models/Shipment.js:195 | the padded sequence part is all digits, at least four long, exactly as long as the number when that is longer, and denotes count + 1 |
| Ids.FormatIdParts | models/Shipment.js:191-198 | an identifier splits back into the prefix, the year and '-', and a sequence part denoting count + 1 |
| Ids.FormatIdInjective | models/Shipment.js:191-198 | for one prefix and year, different document counts never give the same identifier |
| Inventory.SaveUnit | models/Inventory.js:5-107 | a stock record is saved exactly when its required fields are present, every `min: 0` bound holds (quantities, weight, purchase and selling price, threshold) and `condition` and `prepType` are absent or one of their listed values; a save changes nothing else |
| Inventory.TotalQty | models/Inventory.js:128-130 | on a stored record the total quantity is at least each of the available and the faulty quantity, both non-negative |
| Inventory.UpdateUnit | models/Inventory.js:147-154 | the absolute set stores the given available quantity; it takes the faulty quantity only when one is given, stamps the restock time, and is refused for any negative quantity |
| Inventory.AdjustUnit | models/Inventory.js:157-167 | the relative adjust moves exactly the chosen quantity by the change, so the total moves by the change; the restock time moves only on a positive change; a negative result is refused, and on a persistable record an adjustment that keeps the chosen quantity non-negative always succeeds |
| Inventory.LowStockAfterAdjust | models/Inventory.js:133-135 | how `IsLowStock` (available at or under the threshold, the threshold itself counting as low) moves with an adjustment: a faulty adjustment never changes it; after an available one it compares the new quantity with the unchanged threshold, so removing units never clears it and adding units never sets it |
| Inventory.UpdateStock | services/inventoryService.js:123-138 | an unknown record is "not found"; otherwise only that record changes, to the given quantities; a valid record with non-negative inputs always succeeds |
| Inventory.AdjustStock | services/inventoryService.js:143-166 | an unknown record is not found; the service refuses a negative available quantity with its own error after either side is adjusted, so a faulty-side adjustment of a record already below zero is refused too; the schema refuses a negative faulty result; on a persistable record an adjustment keeping the adjusted side non-negative succeeds; on success only that record moves, by the change, and it stays persistable |
| Inventory.GetBySku | services/inventoryService.js:98-103 | a record is found under any casing of its SKU exactly when it exists and is active |
| Inventory.DeleteItem | services/inventoryService.js:171-181 | the soft delete clears `isActive` on that record only and keeps it in the collection; an unknown id returns nothing |
| Inventory.DeletedIsHidden | services/inventoryService.js:171-181 | after a soft delete the SKU lookup no longer finds the record, yet its stock is unchanged |
| Inventory.FindLowStock | models/Inventory.js:170-175 | the listing holds exactly the active records at or under their threshold; the threshold itself counts as low |
| Inventory.ImportOne | services/inventoryService.js:235-257 | a row updates an existing SKU (active or not) or creates a missing one; every field the row supplies is stored (ASIN and FNSKU upper-cased), every field it omits keeps the stored value or the schema default; an unlisted condition or prep type, or a negative quantity or price, fails the row and leaves the ledger untouched; a valid ledger stays valid; against a valid ledger a row fails exactly when it is not acceptable (no SKU, an unlisted enumeration value, an empty supplied name, no name for a new SKU, a negative number), and an acceptable row is reported updated when its SKU was stored and created otherwise |
| Inventory.SaveImported | models/Inventory.js:41-50 | an imported record is saved exactly when it passes the schema and every condition or prep type the row supplies is a listed value, an explicitly empty one included |
| Inventory.ImportReactivates | services/inventoryService.js:237-242 | a row `{sku, isActive: true}` on a soft-deleted record reports it updated, makes the SKU lookup find it again, and keeps its stock |
| Inventory.ImportRefusesUnlistedCondition | models/Inventory.js:41-45 | a row for a stored, valid SKU with condition "Refurbished" fails and stores nothing |
| Inventory.BulkImport | services/inventoryService.js:227-261 | one outcome per row in row order, each row handled as `ImportOne` handles it; no SKU is lost and none appears that no row names; a valid ledger stays valid |
| Inventory.ReportPartitions | services/inventoryService.js:228-257 | every row lands in exactly one of the success and failure lists |
| Inventory.BulkImportReportsPresence | services/inventoryService.js:235-250 | with distinct SKUs, a row that does not fail is reported updated exactly when its SKU was stored (and created otherwise), and against a valid ledger a row fails exactly when it is not acceptable on its own |
| Shipments.RecomputeTotals | models/Shipment.js:201-233 | after the totals hook, the box count, the units, the distinct upper-cased SKU count and the total weight agree with the box list; box weights are derived only where they were 0 |
| Shipments.RecomputeIdempotent | models/Shipment.js:201-233 | the totals hook applied to its own result changes nothing |
| Shipments.RecomputedBoxesCounts | models/Shipment.js:210-226 | the hook keeps every SKU's units, the unit total and the SKU set of the boxes |
| Shipments.SkuSetIsAllKeys | models/Shipment.js:214-218 | the set the hook accumulates is exactly the set of upper-cased SKUs on some line of some box |
| Shipments.Recompute | models/Shipment.js:201-233 | the hook keeps the number of boxes and recomputes each box in place; the box count and unit total agree with the boxes, and every SKU keeps its units |
| Shipments.SaveKeepsValid | models/Shipment.js:37-90 | a saved shipment passes validation again and is a fixed point of the hook: derived weights never break the `min: 0` bounds |
| Shipments.Save | models/Shipment.js:37-90 | validation is the only way a save fails; a stored shipment passes validation again, is left unchanged by a second hook run, and keeps its status and number of boxes |
| Shipments.RecomputeKeepsValid | models/Shipment.js:201-233 | the hook keeps a valid shipment valid and reaches a fixed point in one run |
| Shipments.NormalizedCounts | models/Shipment.js:4-25 | the upper-case setters on SKU, ASIN and FNSKU change no SKU's units and no unit total |
| Shipments.FindKey | models/Shipment.js:255-258 | finds the first line whose SKU matches case-insensitively, or -1 exactly when no line does |
| Shipments.AddBoxTo | models/Shipment.js:236-243 | a non-draft is refused with its own message; a draft takes the box exactly when the shipment and the box are both valid (the setters make no box valid or invalid), and a stored result keeps the earlier boxes as the hook leaves them (unchanged when they were stored), appends the given box with its setters and hook applied, adds exactly its units, and is unchanged by another save |
| Shipments.MergeItemEffect | models/Shipment.js:255-267 | adding a line either raises the matching line's quantity and adds no line, or appends exactly one line; no other line changes and only that SKU gains units |
| Shipments.AddItemTo | models/Shipment.js:246-270 | a non-draft, then an out-of-range index, is refused with its own message; on a valid draft with a valid index the line is taken exactly when the merge is accepted (a merged line keeps a quantity of at least 1, an appended line is valid); on success only the chosen box's lines change, to the merged lines, every other box is kept as the hook leaves it, and another save changes nothing |
| Shipments.Finalize | models/Shipment.js:273-284 | only a draft with at least one box becomes ready; anything else is refused with its own error |
| Shipments.MarkAsShipped | models/Shipment.js:287-298 | only a ready shipment ships; the date defaults to now; the tracking number and carrier are replaced only by non-empty values |
| Shipments.AssignShipmentId | models/Shipment.js:191-198 | only the identifier changes; an existing identifier is kept and an absent one becomes an `SHP`-prefixed identifier, whose year and sequence parts `Ids.FormatIdParts` reads back |
| ShipmentService.LineProblem | services/shipmentService.js:145-157 | a line is a problem exactly when its SKU has no active record (unknown SKU) or too few available units (insufficient stock) |
| ShipmentService.CheckLine | services/shipmentService.js:181-198 | a line passes exactly when stocked; a passing line keeps its SKU and quantity and takes the record's name and weight only where its own are empty or 0 |
| ShipmentService.CheckLines | services/shipmentService.js:141-161 | the lines pass exactly when all are stocked; otherwise the error reported is the first failing line's |
| ShipmentService.CheckCopies | services/shipmentService.js:366-381 | the copy's lines pass exactly when all are stocked; otherwise the first failing line's error is reported |
| ShipmentService.CheckedLinesKeepCounts | services/shipmentService.js:159-160 | filling in names and weights changes no SKU's units |
| ShipmentService.ShiftItems | services/shipmentService.js:219-224 | the per-line `$inc` loop moves each record's available units by exactly the line units of its SKU, and touches nothing else |
| ShipmentService.Shift | services/shipmentService.js:218-225 | the box/line loop moves each record by exactly the shipment's units of its SKU; SKUs without a record are skipped |
| ShipmentService.ShiftDependsOnCounts | services/shipmentService.js:218-225 | box lists with the same per-SKU units move the ledger identically, whatever the line order |
| ShipmentService.SaveTwice | models/Shipment.js:201-233 | saving a saved shipment again gives the same result |
| ShipmentService.AddBox | services/shipmentService.js:133-168 | the ledger check comes first, then the draft check; against a valid ledger a draft takes the box exactly when the shipment and the box header are valid and every line is stocked and valid apart from the name and weight the ledger fills in; on success the earlier boxes are kept (exactly, on a stored shipment) and one box is appended last with the given number, name and measures and with the checked lines: SKUs upper-cased, quantities kept, names and weights filled in as the check does; every SKU gains exactly the box's units; the ledger is only read |
| ShipmentService.AddItemToBox | services/shipmentService.js:173-205 | the ledger check comes before the status and index checks; for a stocked line against a valid ledger, a valid draft with a valid index takes the line exactly when the merge is accepted (a merged line keeps a quantity of at least 1, an appended line is valid apart from what the ledger fills in); on success the box count is unchanged, every box other than the chosen one is kept (exactly, on a stored shipment), the line's SKU gains exactly its quantity, and no other SKU changes |
| ShipmentService.MergedShipmentCounts | models/Shipment.js:246-270 | merging a line into a box and saving raises that SKU's units by the line's quantity and nothing else |
| ShipmentService.FinalizeShipment | services/shipmentService.js:210-232 | every record loses the shipment's units of its SKU, unchecked and even when the status check then fails; only a non-empty draft becomes ready, its units unchanged |
| ShipmentService.FinalizedSaves | services/shipmentService.js:227-228 | the service's save after `finalize` accepts the finalized shipment unchanged |
| ShipmentService.ShipShipment | services/shipmentService.js:237-249 | only a ready shipment ships; a valid ready one always does; the boxes' units are kept |
| ShipmentService.CancelShipment | services/shipmentService.js:254-282 | shipped and delivered shipments are refused with the ledger untouched; a ready one gives its units back; draft and cancelled ones are cancelled without moving stock |
| ShipmentService.CopyOf | services/shipmentService.js:344-363 | the copy keeps the source box's lines; its number defaults to `BOX{count+1}`, its weight to the source's unless one is given, and its name, measures and notes to the source's unless non-empty ones are given |
| ShipmentService.DuplicateBox | services/shipmentService.js:325-388 | draft only, with a valid index, and the copied lines must still be stocked; a valid draft whose copied lines are stocked succeeds exactly when the override weight is non-negative and the override measures are valid; the earlier boxes are kept (exactly, on a stored shipment); the copy is appended last with the copy's number, name, measures and notes and the source box's lines by SKU and quantity, equal to the source lines when those are stored and already upper-case; the source box's units are counted once more |
| ShipmentService.CopiedBox | services/shipmentService.js:344-385 | the appended copy after the setters and the hook keeps the copy's fields and lines by SKU and quantity, and equals the source box's lines when those are stored and upper-case |
| ShipmentService.UpdateShipment | services/shipmentService.js:112-128 | a non-draft shipment cannot take a box list; otherwise the update succeeds exactly when the patched destination is non-empty and every box of the patched list is valid, whatever the status it sets; the status is copied as given; without a box list no SKU's units change |
| ShipmentService.DeleteShipment | services/shipmentService.js:307-320 | an unknown shipment is "not found" and a non-draft one is refused; a draft is removed and nothing else changes |
| ShipmentService.WorkflowRespected | services/shipmentService.js:210-282 | finalize, ship and cancel move the status only along draft→ready→shipped, or to cancelled from draft or ready |
| ShipmentService.EditsStayDraft | services/shipmentService.js:133-388 | adding a box, adding an item and duplicating a box succeed only on a draft and leave it a draft |
| ShipmentService.UpdateSkipsWorkflow | services/shipmentService.js:119-126 | the generic update can move a draft straight to delivered: the workflow is not enforced there |
| ShipmentService.FrozenOutsideDraft | services/shipmentService.js:119-121 | outside draft, no operation adds, changes or removes a box, and the shipment cannot be deleted |
| ShipmentService.FinalizeThenCancelRestores | services/shipmentService.js:218-275 | cancelling a shipment that finalize made ready gives back exactly the stock finalize took, record by record |
| ShipmentService.ShiftRoundTrip | services/shipmentService.js:218-275 | deducting one box list and restoring another with the same per-SKU units leaves the ledger as it was |
| ShipmentService.FinalizeKeepsNonNegative | services/shipmentService.js:218-225 | when every record covers the shipment's units, finalize leaves no record negative |
| ShipmentService.RefinalizeDeductsAgain | services/shipmentService.js:217-227 | finalizing a ready shipment again deducts its units a second time and still reports an error |
| ShipmentService.DraftsCanOvercommit | services/shipmentService.js:141-225 | two drafts of 5 and 8 units both pass against 10 available, and finalizing both leaves −3 |
| ShipmentService.OneDraftOverdraws | services/shipmentService.js:133-232 | boxes of 5 and then 8 units added to one draft both pass against 10 available, and finalizing leaves −3 |
| ShipmentService.AddLineBox | services/shipmentService.js:133-168 | a one-line box of a stocked SKU is accepted into a valid draft, which stays valid and gains exactly that line's units |
| PackGroups.ProjectSkus | services/packGroupService.js:18-47 | one row per upper-cased SKU in order of first appearance; one cell per box holding that box's units; expected and boxed quantity both equal the sum of the cells, which is the SKU's units |
| PackGroups.ProjectionListsEachSkuOnce | services/packGroupService.js:20-36 | no SKU gets two rows, and a SKU has a row exactly when some line carries it |
| PackGroups.TallyBoxesTabulates | services/packGroupService.js:20-42 | the map loop over boxes and lines builds exactly the matrix of per-box units |
| PackGroups.ProjectBoxes | services/packGroupService.js:50-57 | one detail per box, in order; the name falls back to the number and missing measures to 0 |
| PackGroups.Project | services/packGroupService.js:59-68 | the header keeps the shipment's fields, and the pack group defaults to "1" |
| PackGroups.ProjectHeaderTotals | services/packGroupService.js:59-67 | on a saved shipment the header's SKU count equals the number of rows, and its units and box count agree with the boxes |
| PackGroups.ResolveRow | services/packGroupService.js:82-95 | a row resolves exactly when its upper-cased SKU is stored; the record's weight and catalogue fields win, and the row's fill the gaps |
| PackGroups.ResolvedMetaValid | services/packGroupService.js:82-95 | a resolved row's condition and prep type are listed values when the stored record's and the row's are |
| PackGroups.ResolveAll | services/packGroupService.js:80-97 | all rows resolve exactly when every SKU is stored; otherwise an unknown-SKU error names a missing SKU |
| PackGroups.FindResolved | services/packGroupService.js:117-119 | the lookup finds a result of that SKU exactly when one exists |
| PackGroups.PositiveRows | services/packGroupService.js:114-116 | every kept row has a positive cell for the box and comes from the rows, and every row with a positive cell is kept |
| PackGroups.PositiveIndices | services/packGroupService.js:114-116 | the positions kept are strictly increasing and each holds a row with a positive cell for the box |
| PackGroups.PositiveIndicesComplete | services/packGroupService.js:114-116 | every position whose row has a positive cell for the box is kept |
| PackGroups.PositiveRowsIndexed | services/packGroupService.js:114-116 | the kept rows are exactly the rows at the kept positions, in order and once each, so the filter keeps row order and repetition |
| PackGroups.BoxLines | services/packGroupService.js:112-134 | one line per row with a positive cell; each SKU gets exactly the units the rows ask for; a row whose lookup is missing fails |
| PackGroups.BuildBox | services/packGroupService.js:136-147 | the box number defaults to `BOX{i+1}` and the name to `P{group}-B{i+1}`; the lines are upper-cased |
| PackGroups.BuildBoxes | services/packGroupService.js:111-148 | one box per requested box, each with its lines, exactly when every positive cell's lookup is found |
| PackGroups.CreateFromPackGroup | services/packGroupService.js:76-152 | any unknown SKU fails the build; a success is a saved, valid draft with the next identifier, one box per requested box, and box i holding exactly the units the rows ask of it |
| PackGroups.ProjectThenCreate | services/packGroupService.js:18-134 | whenever the build from a valid shipment's projection succeeds (against any ledger), every box gets the same units of every SKU |
| PackGroups.TallyBoxesSavable | services/packGroupService.js:20-36 | every row the map loop starts takes the SKU, product name and listed catalogue values of a valid line |
| PackGroups.ProjectedRequestSavable | services/packGroupService.js:18-68 | the projection of a valid shipment, sent back unchanged, is a request the schema accepts: destination present, rows from valid lines, box weights and measures non-negative |
| PackGroups.ProjectRebuilds | services/packGroupService.js:18-152 | against a valid ledger storing every SKU of a valid shipment, building from its projection always succeeds and gives every box the same units of every SKU |
| PackGroups.ResolvedAreFound | services/packGroupService.js:117-124 | with the ledger keyed by its records' SKUs, a resolved row's lookup result is always found |
| PackGroups.CreateSucceeds | services/packGroupService.js:80-150 | against a valid ledger, a savable request (whose rows carry listed condition and prep values) is built and saved exactly when every SKU it names is in the inventory |
| PackGroups.ApplyCell | services/packGroupService.js:172-191 | a positive quantity fails exactly when the box has no line of the SKU, and otherwise overwrites only the first matching line's quantity; any other quantity removes exactly the first matching line, shifting the later ones, or changes nothing; the box's other fields and the other boxes are untouched |
| PackGroups.ApplyCellCounts | services/packGroupService.js:177-191 | on a box with one line per SKU, a successful cell leaves max(q, 0) units of the SKU, keeps the lines distinct, and changes no other SKU |
| PackGroups.EntryErrors | services/packGroupService.js:171-193 | an entry fails exactly when some positive quantity targets a box without a line of its SKU |
| PackGroups.EntryCounts | services/packGroupService.js:171-193 | a successful entry sets each listed box's units of its SKU to max(q, 0), and changes nothing else |
| PackGroups.ApplyAllCounts | services/packGroupService.js:170-194 | after all entries, each cell holds what the last entry reaching it asked for; untouched cells keep their units |
| PackGroups.ApplyAllValid | services/packGroupService.js:170-194 | the cell edits keep every box valid: an overwrite writes a positive quantity and a removal only drops a line |
| PackGroups.UpdateDistribution | services/packGroupService.js:158-199 | only a draft may be edited; a failing cell fails the edit, and on a valid draft the edit succeeds exactly when every cell applies; the result is a saved, valid draft with the same boxes, identifier and destination; no stock moves |
| PackGroups.UpdateDistributionCounts | services/packGroupService.js:165-197 | after a successful edit of a draft with one line per SKU per box, every cell holds the last value asked for it (negative read as 0), and the others are unchanged |
| PackGroupRequests.CheckSkuEntry | controllers/packGroupController.js:47-57 | an entry passes exactly when it has a SKU, a product name and one quantity per box; missing names are reported before a width mismatch |
| PackGroupRequests.CheckSkuEntries | controllers/packGroupController.js:47-58 | the entries pass exactly when all do; otherwise the first failing entry's message answers |
| PackGroupRequests.ValidateCreate | controllers/packGroupController.js:30-66 | the required fields, then the two non-empty arrays, then each entry, in that order; an accepted body becomes a request with the posted boxes and rows, and the pack group defaults to "1" |
| PackGroupRequests.HandleCreate | controllers/packGroupController.js:68-77 | a rejected body or a failed build is answered 400 and a built shipment 201 |
| PackGroupRequests.AcceptedBodyOutcome | controllers/packGroupController.js:30-77 | against a valid ledger, an accepted body with non-negative box measures and listed condition and prep values is answered 201 exactly when every SKU it names is stored |
| PackGroupRequests.ValidateDistribution | controllers/packGroupController.js:89-102 | the body is accepted exactly when it is an array whose entries all have a SKU and a quantity array; entries are kept in order |
| PackGroupRequests.HandleDistribution | controllers/packGroupController.js:104-113 | 200 exactly when the edit succeeds, which needs a draft; everything else is answered 400 |
| Defects.SaveDefect | models/Defect.js:129-132 | a report is saved exactly when valid, and the stored loss is then quantity × unit cost, never negative |
| Defects.AssignDefectId | models/Defect.js:119-126 | a report without an identifier gets a "DEF" one; an existing identifier is kept |
| Defects.DefectIdsDistinct | models/Defect.js:119-126 | reports numbered in one year from different counts get different identifiers |
| Defects.SaveDefectIdempotent | models/Defect.js:129-132 | a saved report is accepted again unchanged |
| Defects.Filled | services/defectService.js:15-27 | the SKU is upper-cased and the reporter set; name, unit cost and supplier come from the stock record only where the body leaves them empty |
| Defects.CreateDefect | services/defectService.js:7-41 | an unknown SKU is refused with nothing stored; a created report raises the record's faulty quantity by its defective quantity; the report is stored before the stock save |
| Defects.CreateDefectOutcome | services/defectService.js:9-38 | against a valid ledger a report is created exactly when its SKU is stored and the filled-in report is valid, and the ledger stays valid |
| Defects.DeleteDefect | services/defectService.js:207-223 | deleting a report lowers its SKU's faulty quantity by the defective quantity, floored at 0, and changes no other record |
| Defects.DeleteKeepsValid | services/defectService.js:214-219 | deleting a report always succeeds on a valid ledger and keeps it valid |
| Defects.CreateThenDelete | services/defectService.js:214-219 | deleting a report just created gives back the ledger as it was before the create |
| Defects.ResolveDefect | services/defectService.js:170-183 | a resolved report is refused; otherwise only the status, resolution, resolver and date change |
| Defects.ResolveOnce | services/defectService.js:177-179 | resolving the result of a resolve is refused |
| Defects.UpdateDefect | services/defectService.js:148-165 | an edit never changes the SKU, the defective quantity or the reporter, and the loss is recomputed |
| Defects.UpdateKeepsStockLink | services/defectService.js:155-160 | whatever an edit says, deleting the edited report restores the same faulty stock as deleting the original |
| Defects.UpdateSupplierClaim | services/defectService.js:188-202 | the claim amount and status are replaced only by truthy values, the notified flag by any defined value; nothing else changes; a valid report takes the claim exactly when its amount is non-negative |
| Defects.ClaimIdempotent | services/defectService.js:195-197 | recording the same claim twice is the same as recording it once |
| Boxes.WeightHook | models/Box.js:91-98 | a zero weight on a box with lines becomes Σ qty × unitWeight; any other box is untouched |
| Boxes.WeightHookIdempotent | models/Box.js:91-98 | the weight hook applied to its own result changes nothing |
| Boxes.SaveBox | models/Box.js:30-98 | a box is saved exactly when it passes validation, and the saved box is the weight hook's result |
| Boxes.SavedBoxValid | models/Box.js:91-98 | a saved box whose lines have non-negative unit weights passes validation again |
| Boxes.NegativeUnitWeightSlipsThrough | models/Box.js:24-27 | a line with unit weight −1 passes validation, gives a stored weight of −1, and the stored box is then refused |
| Boxes.Volume | models/Box.js:101-106 | the product of the three measures when all are non-zero, otherwise 0 |
| Boxes.VolumePositive | models/Box.js:48-66 | for a valid box the volume is never negative, and it is positive exactly when all three measures are |
| Boxes.CreateBox | models/Box.js:9-37 | the number and every line's SKU are stored upper-cased; a number already taken, in any casing, is refused; other boxes are untouched |
| Boxes.UpperSkus | models/Box.js:9-13 | the upper-case setter on a box line changes only its SKU, line by line |
| Boxes.CreateKeepsNormalized | models/Box.js:32-37 | creating keeps every box under its own upper-case number, and the new box is found under any casing |
| Boxes.NumbersUniqueUpToCase | models/Box.js:32-37 | two numbers differing only in letter case cannot both be created |
| Finance.NetAmount | models/Finance.js:247-249 | the amount for income, its negation for every other type |
| Finance.TotalsHook | models/Finance.js:206-236 | total cost is the sum of the cost parts; income profit + cost + fees = amount, with margin = profit/amount × 100 when the amount is positive; expense profit is −amount with margin 0; refunds and adjustments keep profit and margin |
| Finance.TotalsHookIdempotent | models/Finance.js:206-236 | the totals hook applied to its own result changes nothing |
| Finance.IncomeMarginAtMostHundred | models/Finance.js:223-229 | with non-negative costs and fees, an income's profit is at most its amount and its margin at most 100 |
| Finance.AssignTransactionId | models/Finance.js:195-203 | a transaction without an identifier gets one starting with its type's prefix (INC, EXP or TXN); an existing one is kept |
| Finance.IncomeAndExpenseIdsDiffer | models/Finance.js:199-200 | an income's and an expense's generated identifiers never coincide |
| Finance.SaveTransaction | models/Finance.js:195-236 | a transaction is saved exactly when valid; a saved one has an identifier and its derived totals, and an expense's profit equals its net amount |
| Roles.RequireRole | middleware/roleMiddleware.js:7-23 | no user gives 401; otherwise the user passes exactly when their role is listed, with no exception for admins, else 403 |
| Roles.RequirePermission | middleware/roleMiddleware.js:29-55 | no user gives 401; an admin always passes; anyone else passes exactly when they hold every required permission, else 403 |
| Roles.EmptyRequirementAdmits | middleware/roleMiddleware.js:41-43 | an empty permission list admits every authenticated user |
| Roles.PermissionMonotone | middleware/roleMiddleware.js:41-43 | more held permissions, or fewer required, never turn an admission into a refusal |
| Roles.PermissionDependsOnSet | middleware/roleMiddleware.js:41-43 | only the set of held permissions matters, not their order or repetition |
| Roles.GuardsIndependent | middleware/roleMiddleware.js:13-43 | passing the role guard says nothing about permissions, and an admin is refused by a role guard that does not list admin |

## Left out

- Database I/O, connection handling and concurrent requests are not modelled. Each operation is one atomic step on immutable values, so the race between two finalizes or between count and insert in the identifier hooks is not modelled.
- Lookups by document id that fail with "not found" before the modelled logic starts are represented by the caller passing the record. Only the not-found branches of the ledger and store operations are modelled.
- `String.prototype.trim` is not modelled. `toUpperCase` is modelled on ASCII letters only, because Unicode case mapping has no counterpart here.
- Clocks, the current year, document counts and user ids are parameters, not reads of the environment.
- JavaScript number semantics are not modelled: floating-point rounding of weights, money and margins (reals are used), non-integer or string quantities, and `NaN`.
- The enumerated fields with behaviour (shipment and box status, box length unit, transaction type and category, defect status, type, severity and stage) are datatypes, so their invalid-enum error cannot arise. `condition` and `prepType` stay strings and are checked against their listed values. The shipment's `type` field has no behaviour in the core and is not modelled.
- Inventory.ImportOne: neither the stock record nor the import row has the free-text fields `barcode`, `whoPrepUnits`, `whoLabelUnits`, `category` and `description`, or the audit fields (`createdBy`, `updatedBy`). They have no validator beyond trimming and no behaviour in the core, so an import stores them in the source but not in the model.
- Mongoose reports every failing path, while the model reports the first (for shipments, a single error naming no path). The outcome (accepted or refused) is the same.
- Aggregations, statistics, pagination, search, `financeService`, `createShipment`, `createInventoryItem` and `updateInventoryItem` are outside the core and not modelled.
- HTTP wiring, authentication (token parsing), routes and response helpers are not modelled. Only the decisions of the two guards and of the pack-group controller are.
- The box record's `shipment`, `createdBy` and barcode references and its status changes are stored fields with no behaviour, and are not modelled. The same goes for the finance record's category details, currency and attachments.
- `getPackGroupData`'s not-found error for a missing shipment is not modelled; the projection takes the shipment.
- PackGroups.ResolveAll: `Promise.all` rejects with whichever lookup fails first in time. The contract says only that the error names some missing SKU (the model picks the first in row order).
- PackGroups.CreateFromPackGroup: the error kind is stated only for an unknown SKU. The other failures (a missing lookup result, a refused save) are proved impossible for a valid ledger and a savable request by PackGroups.CreateSucceeds.
- PackGroups.BuildBox: when both the stock record and the row leave a catalogue field empty, the schema default is not re-applied.
- PackGroups.UpdateDistribution: the identifier hook is not re-run, because the edited shipment already has an identifier.
- ShipmentService.UpdateShipment: `Object.assign` copies any field of the body. The patch covers destination, pack group, FBA shipment id, status, box list, carrier and tracking number; other fields carry no behaviour in the core.
- Defects.UpdateDefect: the patch covers the struck fields (SKU, defective quantity, reporter) and product name, unit cost, supplier, status, severity and remarks; other fields carry no behaviour in the core.
- Inventory.BulkImport: a failed row carries the model's validation error, not Mongoose's message text.

=== FILE: boxes.dfy ===
/**
 * The standalone box record: numbered boxes holding item lines, a weight
 * that a save fills in from the lines when it is left at zero, and a volume
 * derived from the three measures. Box numbers are stored upper-cased and are
 * unique across the collection.
 */
module Boxes {
  import opened Common

  datatype BoxItem = BoxItem(sku: string, productName: string, qty: int, unitWeight: real)

  datatype LengthUnit = Cm | Inch
  datatype BoxStatus = Packed | Sealed | Shipped | Delivered

  /** The measures; an absent measure is 0, which the volume treats like a missing one. */
  datatype Dimensions = Dimensions(length: real, width: real, height: real, unit: LengthUnit)

  datatype BoxRecord = BoxRecord(
    boxNumber: string,
    items: seq<BoxItem>,
    weight: real,
    dimensions: Dimensions,
    barcode: string,
    status: BoxStatus,
    notes: string)

  /** The boxes collection, keyed by the stored (upper-cased) box number. */
  type BoxStore = map<string, BoxRecord>

  predicate ItemValid(it: BoxItem)
  {
    it.sku != "" && it.productName != "" && it.qty >= 1
  }

  /** The schema's required fields and lower bounds. */
  predicate BoxValid(b: BoxRecord)
  {
    && b.boxNumber != ""
    && (forall j :: 0 <= j < |b.items| ==> ItemValid(b.items[j]))
    && b.weight >= 0.0
    && b.dimensions.length >= 0.0 && b.dimensions.width >= 0.0 && b.dimensions.height >= 0.0
  }

  /** Σ qty × unitWeight over the lines, the `reduce` of the weight hook. */
  function ItemsWeight(items: seq<BoxItem>): real
  {
    if |items| == 0 then 0.0 else ItemsWeight(items[..|items| - 1]) + items[|items| - 1].qty as real * items[|items| - 1].unitWeight
  }

  /** Lines with non-negative quantities and unit weights weigh at least nothing. */
  lemma {:induction false} ItemsWeightNonNegative(items: seq<BoxItem>)
    requires forall j :: 0 <= j < |items| ==> items[j].qty >= 0 && items[j].unitWeight >= 0.0
    ensures ItemsWeight(items) >= 0.0
    decreases |items|
  {
    if |items| > 0 {
      ItemsWeightNonNegative(items[..|items| - 1]);
    }
  }

  /** The weight hook: a zero weight on a box with lines becomes the lines' total. */
  function WeightHook(b: BoxRecord): (r: BoxRecord)
    ensures b.weight != 0.0 || |b.items| == 0 ==> r == b
    ensures b.weight == 0.0 && |b.items| > 0 ==> r.weight == ItemsWeight(b.items)
    ensures r.(weight := b.weight) == b
  {
    if b.weight == 0.0 && |b.items| > 0 then b.(weight := ItemsWeight(b.items)) else b
  }

  /** Running the hook on its own result changes nothing. */
  lemma WeightHookIdempotent(b: BoxRecord)
    ensures WeightHook(WeightHook(b)) == WeightHook(b)
  {
  }

  /** `save()`: validation first, then the weight hook. */
  function SaveBox(b: BoxRecord): (r: Result<BoxRecord>)
    ensures r.Ok? <==> BoxValid(b)
    ensures r.Ok? ==> r.value == WeightHook(b)
  {
    if b.boxNumber == "" then Err(Validation("boxNumber"))
    else if exists j :: 0 <= j < |b.items| && !ItemValid(b.items[j]) then Err(Validation("items"))
    else if b.weight < 0.0 then Err(Validation("weight"))
    else if b.dimensions.length < 0.0 || b.dimensions.width < 0.0 || b.dimensions.height < 0.0 then Err(Validation("dimensions"))
    else Ok(WeightHook(b))
  }

  /**
   * A saved box passes validation again whenever its lines carry
   * non-negative unit weights (the schema puts no bound on a line's unit
   * weight, and the hook runs after validation).
   */
  lemma SavedBoxValid(b: BoxRecord)
    requires SaveBox(b).Ok?
    requires forall j :: 0 <= j < |b.items| ==> b.items[j].unitWeight >= 0.0
    ensures BoxValid(SaveBox(b).value)
  {
    ItemsWeightNonNegative(b.items);
  }

  /** A line with a negative unit weight passes validation and leaves a box whose stored weight breaks the bound. */
  lemma NegativeUnitWeightSlipsThrough()
    ensures var b := BoxRecord("B1", [BoxItem("SKU", "P", 1, -1.0)], 0.0, Dimensions(0.0, 0.0, 0.0, Cm), "", Packed, "");
      SaveBox(b).Ok? && SaveBox(b).value.weight == -1.0 && SaveBox(SaveBox(b).value).Err?
  {
    var b := BoxRecord("B1", [BoxItem("SKU", "P", 1, -1.0)], 0.0, Dimensions(0.0, 0.0, 0.0, Cm), "", Packed, "");
    assert ItemValid(b.items[0]);
    assert ItemsWeight(b.items) == ItemsWeight(b.items[..0]) + 1.0 * -1.0;
  }

  /** Virtual `volume`: the product of the measures when all three are non-zero, otherwise 0. */
  function Volume(d: Dimensions): (v: real)
    ensures d.length == 0.0 || d.width == 0.0 || d.height == 0.0 ==> v == 0.0
    ensures d.length != 0.0 && d.width != 0.0 && d.height != 0.0 ==> v == d.length * d.width * d.height
  {
    if d.length != 0.0 && d.width != 0.0 && d.height != 0.0 then d.length * d.width * d.height else 0.0
  }

  /** For a box that passed validation, the volume is positive exactly when every measure is given. */
  lemma VolumePositive(b: BoxRecord)
    requires BoxValid(b)
    ensures Volume(b.dimensions) >= 0.0
    ensures Volume(b.dimensions) > 0.0 <==> b.dimensions.length > 0.0 && b.dimensions.width > 0.0 && b.dimensions.height > 0.0
  {
    var d := b.dimensions;
    if d.length > 0.0 && d.width > 0.0 && d.height > 0.0 {
      assert d.length * d.width > 0.0;
    }
  }

  // ---------------------------------------------------------------------------
  // The collection: upper-cased, unique box numbers
  // ---------------------------------------------------------------------------

  /** Every stored box sits under its own box number, which is upper-case. */
  predicate StoreNormalized(s: BoxStore)
  {
    forall k :: k in s ==> s[k].boxNumber == k && IsUpper(k)
  }

  /** The `uppercase` setter on each line's SKU. */
  function UpperSkus(items: seq<BoxItem>): (r: seq<BoxItem>)
    ensures |r| == |items|
    ensures forall j :: 0 <= j < |items| ==> r[j] == items[j].(sku := Upper(items[j].sku))
  {
    seq(|items|, j requires 0 <= j < |items| => items[j].(sku := Upper(items[j].sku)))
  }

  /** Creating a box: number and line SKUs are upper-cased, the box saved, and a number already taken is refused. */
  function CreateBox(s: BoxStore, b: BoxRecord): (r: Result<BoxStore>)
    ensures r.Ok? <==> BoxValid(b) && Upper(b.boxNumber) !in s
    ensures BoxValid(b) && Upper(b.boxNumber) in s ==> r == Err(DuplicateKey(Upper(b.boxNumber)))
    ensures r.Ok? ==> r.value.Keys == s.Keys + {Upper(b.boxNumber)}
    ensures r.Ok? ==> forall k :: k in s ==> r.value[k] == s[k]
    ensures r.Ok? ==> r.value[Upper(b.boxNumber)] == WeightHook(b.(boxNumber := Upper(b.boxNumber), items := UpperSkus(b.items)))
    ensures r.Ok? ==> forall j :: 0 <= j < |b.items| ==> IsUpper(r.value[Upper(b.boxNumber)].items[j].sku)
  {
    var key := Upper(b.boxNumber);
    UpperEmpty(b.boxNumber);
    var items := UpperSkus(b.items);
    forall j | 0 <= j < |b.items|
      ensures ItemValid(items[j]) <==> ItemValid(b.items[j])
      ensures IsUpper(items[j].sku)
    {
      UpperEmpty(b.items[j].sku);
      UpperIdempotent(b.items[j].sku);
    }
    var saved :- SaveBox(b.(boxNumber := key, items := items));
    if key in s then Err(DuplicateKey(key)) else Ok(s[key := saved])
  }

  /** Creating keeps the store normalised, and the new box is found under any casing of its number. */
  lemma CreateKeepsNormalized(s: BoxStore, b: BoxRecord, number: string)
    requires StoreNormalized(s) && CreateBox(s, b).Ok?
    requires Upper(number) == Upper(b.boxNumber)
    ensures StoreNormalized(CreateBox(s, b).value)
    ensures Upper(number) in CreateBox(s, b).value
    ensures CreateBox(s, b).value[Upper(number)].boxNumber == Upper(b.boxNumber)
  {
    UpperIdempotent(b.boxNumber);
  }

  /** Two numbers differing only in letter case cannot both be created. */
  lemma NumbersUniqueUpToCase(s: BoxStore, b: BoxRecord, c: BoxRecord)
    requires CreateBox(s, b).Ok? && Upper(c.boxNumber) == Upper(b.boxNumber)
    ensures CreateBox(CreateBox(s, b).value, c).Err?
  {
  }
}

=== FILE: common.dfy ===
/**
 * Shared vocabulary of the stock-consistency model: optional values, results
 * carrying the error kinds the services throw, ASCII upper-casing (the
 * normalisation every SKU goes through) and integer/real sums.
 */
module Common {

  datatype Option<+T> = None | Some(value: T)

  /** The error kinds thrown by the services and reported by the validators. */
  datatype Error =
    | NotFound(entity: string)
    | UnknownSku(sku: string)
    | InsufficientStock(sku: string, available: int, required: int)
    | NegativeAvailable
    | Validation(path: string)
    | IllegalTransition(message: string)
    | InvalidBoxIndex
    | EmptyShipment
    | UnknownBoxSku(sku: string, boxIndex: int)
    | AlreadyResolved
    | BadRequest(message: string)
    | DuplicateKey(key: string)
    | UndefinedLookup(sku: string)

  /** A value or the error that stopped the computation; usable with `:-`. */
  datatype Result<+T> = Ok(value: T) | Err(error: Error) {
    predicate IsFailure() {
      Err?
    }

    function PropagateFailure<U>(): Result<U>
      requires Err?
    {
      Err(error)
    }

    function Extract(): T
      requires Ok?
    {
      value
    }
  }

  /** Outcome of a check that produces no value. */
  datatype Outcome = Pass | Fail(error: Error) {
    predicate IsFailure() {
      Fail?
    }

    function PropagateFailure<U>(): Result<U>
      requires Fail?
    {
      Err(error)
    }
  }

  function Need(condition: bool, error: Error): Outcome
  {
    if condition then Pass else Fail(error)
  }

  // ---------------------------------------------------------------------------
  // Case normalisation
  // ---------------------------------------------------------------------------

  function UpperChar(c: char): char
  {
    if 'a' <= c <= 'z' then (c as int - 32) as char else c
  }

  /** `toUpperCase()` restricted to ASCII letters. */
  function Upper(s: string): string
  {
    seq(|s|, i requires 0 <= i < |s| => UpperChar(s[i]))
  }

  predicate IsUpper(s: string)
  {
    Upper(s) == s
  }

  lemma UpperIdempotent(s: string)
    ensures IsUpper(Upper(s))
  {
  }

  lemma UpperEmpty(s: string)
    ensures Upper(s) == "" <==> s == ""
  {
    if s != "" {
      assert |Upper(s)| == |s|;
    }
  }

  // ---------------------------------------------------------------------------
  // JavaScript truthiness of the field kinds the model uses
  // ---------------------------------------------------------------------------

  /** `s || fallback` for a string field ("" is falsy). */
  function OrString(s: string, fallback: string): string
  {
    if s != "" then s else fallback
  }

  /** `x || fallback` for a numeric field (0 is falsy). */
  function OrReal(x: real, fallback: real): real
  {
    if x != 0.0 then x else fallback
  }

  function Max(a: int, b: int): int
  {
    if a >= b then a else b
  }

  // ---------------------------------------------------------------------------
  // The catalogue enumerations shared by the stock record and the item line
  // ---------------------------------------------------------------------------

  const Conditions: seq<string> := ["NewItem", "UsedLikeNew", "UsedVeryGood", "UsedGood", "UsedAcceptable"]
  const PrepTypes: seq<string> := ["NONE", "Polybagging", "Bubble wrap", "Taping", "Labeling", "Black shrink wrap"]

  /** The `enum` validator of `condition`: an absent value ("") or one of the listed values. */
  predicate ConditionOk(c: string)
  {
    c == "" || c in Conditions
  }

  /** The `enum` validator of `prepType`: an absent value ("") or one of the listed values. */
  predicate PrepTypeOk(p: string)
  {
    p == "" || p in PrepTypes
  }

  // ---------------------------------------------------------------------------
  // Sums
  // ---------------------------------------------------------------------------

  function Sum(s: seq<int>): int
  {
    if |s| == 0 then 0 else Sum(s[..|s| - 1]) + s[|s| - 1]
  }

  lemma {:induction false} SumBump(s: seq<int>, i: nat, d: int)
    requires i < |s|
    ensures Sum(s[i := s[i] + d]) == Sum(s) + d
    decreases |s|
  {
    var t := s[i := s[i] + d];
    if i == |s| - 1 {
      assert t[..|t| - 1] == s[..|s| - 1];
    } else {
      assert t[..|t| - 1] == s[..|s| - 1][i := s[i] + d];
      SumBump(s[..|s| - 1], i, d);
    }
  }

  lemma SumZeros(n: nat)
    ensures Sum(seq(n, _ => 0)) == 0
  {
    if n > 0 {
      assert seq(n, _ => 0)[..n - 1] == seq(n - 1, _ => 0);
      SumZeros(n - 1);
    }
  }
}

=== FILE: defects.dfy ===
/**
 * Defect reports and their link to the faulty stock: reporting a defect
 * adds its quantity to the SKU's faulty quantity, deleting the report takes
 * it back out (never below zero); resolving, editing and recording a supplier
 * claim change the report alone.
 */
module Defects {
  import opened Common
  import Ids
  import Inventory

  datatype DefectStatus = Reported | Investigating | Resolved | WrittenOff | SupplierClaim
  datatype ClaimStatus = NoClaim | Pending | Approved | Rejected | Paid
  datatype DefectType = Damaged | MissingParts | WrongItem | QualityIssue | PackagingIssue | OtherType
  datatype Severity = Low | Medium | High | Critical
  datatype DetectedAt = Receiving | QualityCheck | Packing | CustomerReturn | FbaReturn

  /** A defect report; an absent text field is "", an absent date is `None`. */
  datatype Defect = Defect(
    defectId: string,
    sku: string,
    productName: string,
    defectiveQty: int,
    defectType: DefectType,
    severity: Severity,
    remarks: string,
    detectedAt: DetectedAt,
    supplier: string,
    unitCost: real,
    totalLoss: real,
    status: DefectStatus,
    resolution: string,
    supplierNotified: bool,
    claimAmount: real,
    claimStatus: ClaimStatus,
    reportedBy: string,
    resolvedBy: string,
    resolvedAt: Option<nat>)

  /** The schema's required fields and lower bounds. */
  predicate DefectValid(d: Defect)
  {
    && d.sku != ""
    && d.productName != ""
    && d.defectiveQty >= 1
    && d.unitCost >= 0.0
    && d.claimAmount >= 0.0
    && d.reportedBy != ""
  }

  /** The stored loss is the quantity times the unit cost. */
  predicate LossConsistent(d: Defect)
  {
    d.totalLoss == d.defectiveQty as real * d.unitCost
  }

  /** `save()` of a report: validation, then the loss hook. */
  function SaveDefect(d: Defect): (r: Result<Defect>)
    ensures r.Ok? <==> DefectValid(d)
    ensures r.Ok? ==> LossConsistent(r.value) && r.value.(totalLoss := d.totalLoss) == d
    ensures r.Ok? ==> r.value.totalLoss >= 0.0
  {
    if d.sku == "" then Err(Validation("sku"))
    else if d.productName == "" then Err(Validation("productName"))
    else if d.defectiveQty < 1 then Err(Validation("defectiveQty"))
    else if d.unitCost < 0.0 then Err(Validation("unitCost"))
    else if d.claimAmount < 0.0 then Err(Validation("claimAmount"))
    else if d.reportedBy == "" then Err(Validation("reportedBy"))
    else Ok(d.(totalLoss := d.defectiveQty as real * d.unitCost))
  }

  /** The id hook: a report without an id gets the next "DEF" identifier of the year. */
  function AssignDefectId(d: Defect, year: nat, count: nat): (r: Defect)
    ensures d.defectId != "" ==> r == d
    ensures r.(defectId := d.defectId) == d
    ensures d.defectId == "" ==> |r.defectId| > 3 && r.defectId[..3] == "DEF"
  {
    if d.defectId == "" then
      Ids.FormatIdParts("DEF", year, count);
      d.(defectId := Ids.FormatId("DEF", year, count))
    else d
  }

  /** Two reports numbered in one year from different counts get different identifiers. */
  lemma DefectIdsDistinct(d1: Defect, d2: Defect, year: nat, c1: nat, c2: nat)
    requires d1.defectId == "" && d2.defectId == "" && c1 != c2
    ensures AssignDefectId(d1, year, c1).defectId != AssignDefectId(d2, year, c2).defectId
  {
    if Ids.FormatId("DEF", year, c1) == Ids.FormatId("DEF", year, c2) {
      Ids.FormatIdInjective("DEF", year, c1, c2);
    }
  }

  /** A saved report is accepted again and is a fixed point of the loss hook. */
  lemma SaveDefectIdempotent(d: Defect)
    requires SaveDefect(d).Ok?
    ensures SaveDefect(SaveDefect(d).value) == SaveDefect(d)
  {
  }

  // ---------------------------------------------------------------------------
  // createDefect / deleteDefect: the faulty-stock link
  // ---------------------------------------------------------------------------

  /** What a create leaves behind: the ledger, the stored report (if any) and the answer. */
  datatype Created = Created(ledger: Inventory.Ledger, stored: Option<Defect>, answer: Result<Defect>)

  /**
   * The posted report after the fill-ins: the SKU upper-cased, the product
   * name, unit cost and supplier taken from the stock record when the body
   * leaves them empty, and the reporter set.
   */
  function Filled(u: Inventory.StockUnit, data: Defect, reporter: string): (d: Defect)
    ensures d.productName == (if data.productName != "" then data.productName else u.name)
    ensures d.unitCost == (if data.unitCost != 0.0 then data.unitCost else u.purchasePrice)
    ensures d.supplier == (if data.supplier != "" then data.supplier else u.supplier)
    ensures d.sku == Upper(data.sku) && d.reportedBy == reporter
    ensures d.(productName := data.productName, unitCost := data.unitCost, supplier := data.supplier,
               sku := data.sku, reportedBy := data.reportedBy) == data
  {
    data.(sku := Upper(data.sku),
          productName := OrString(data.productName, u.name),
          unitCost := OrReal(data.unitCost, u.purchasePrice),
          supplier := OrString(data.supplier, u.supplier),
          reportedBy := reporter)
  }

  /**
   * `createDefect(data, userId)`: the SKU must have a stock record (active or
   * not); the report is saved, then the record's faulty quantity grows by the
   * defective quantity and the record is saved in turn. The two saves are
   * separate, so a refused second save leaves the report stored.
   */
  function CreateDefect(l: Inventory.Ledger, data: Defect, reporter: string, year: nat, count: nat): (c: Created)
    ensures Upper(data.sku) !in l ==> c == Created(l, None, Err(UnknownSku(data.sku)))
    ensures c.stored.None? ==> c.ledger == l && c.answer.Err?
    ensures c.answer.Ok? ==> c.stored == Some(c.answer.value)
    ensures c.answer.Ok? ==>
      var k := Upper(data.sku);
      && k in l && c.ledger == l[k := l[k].(faultyQty := l[k].faultyQty + data.defectiveQty)]
      && c.answer.value.sku == k && c.answer.value.defectiveQty == data.defectiveQty
      && DefectValid(c.answer.value) && LossConsistent(c.answer.value) && c.answer.value.defectId != ""
  {
    var k := Upper(data.sku);
    if k !in l then Created(l, None, Err(UnknownSku(data.sku)))
    else
      var u := l[k];
      match SaveDefect(Filled(u, data, reporter))
      case Err(e) => Created(l, None, Err(e))
      case Ok(saved) =>
        var d := AssignDefectId(saved, year, count);
        match Inventory.SaveUnit(u.(faultyQty := u.faultyQty + d.defectiveQty))
        case Err(e) => Created(l, Some(d), Err(e))
        case Ok(u') => Created(l[k := u'], Some(d), Ok(d))
  }

  /**
   * Against a valid ledger the stock save cannot fail: a report is created
   * exactly when its SKU has a record and the filled-in report passes
   * validation, and the ledger stays valid.
   */
  lemma CreateDefectOutcome(l: Inventory.Ledger, data: Defect, reporter: string, year: nat, count: nat)
    requires Inventory.LedgerValid(l)
    ensures var c := CreateDefect(l, data, reporter, year, count);
      && (c.answer.Ok? <==> Upper(data.sku) in l && DefectValid(Filled(l[Upper(data.sku)], data, reporter)))
      && (c.stored.Some? ==> c.answer.Ok?)
      && Inventory.LedgerValid(c.ledger)
  {
    var c := CreateDefect(l, data, reporter, year, count);
    var k := Upper(data.sku);
    if k in l && c.stored.Some? {
      var u := l[k];
      assert Inventory.Persistable(u.(faultyQty := u.faultyQty + data.defectiveQty));
    }
  }

  /**
   * `deleteDefect(id)`: the record under the report's SKU, if any, gets its
   * faulty quantity reduced by the defective quantity, floored at zero; the
   * report goes only once that save succeeded.
   */
  function DeleteDefect(l: Inventory.Ledger, d: Defect): (r: Result<Inventory.Ledger>)
    ensures d.sku !in l ==> r == Ok(l)
    ensures r.Ok? ==> r.value.Keys == l.Keys
    ensures r.Ok? ==> forall k :: k in l && k != d.sku ==> r.value[k] == l[k]
    ensures r.Ok? && d.sku in l ==>
      && r.value[d.sku].faultyQty == Max(0, l[d.sku].faultyQty - d.defectiveQty)
      && r.value[d.sku].(faultyQty := l[d.sku].faultyQty) == l[d.sku]
    ensures d.sku in l && Inventory.Persistable(l[d.sku]) ==> r.Ok?
  {
    if d.sku !in l then Ok(l)
    else
      var u := l[d.sku];
      var u' :- Inventory.SaveUnit(u.(faultyQty := Max(0, u.faultyQty - d.defectiveQty)));
      Ok(l[d.sku := u'])
  }

  /** Deleting a report leaves a valid ledger valid. */
  lemma DeleteKeepsValid(l: Inventory.Ledger, d: Defect)
    requires Inventory.LedgerValid(l)
    ensures DeleteDefect(l, d).Ok? && Inventory.LedgerValid(DeleteDefect(l, d).value)
  {
  }

  /** Deleting a report just created gives back the ledger as it was before the create. */
  lemma CreateThenDelete(l: Inventory.Ledger, data: Defect, reporter: string, year: nat, count: nat)
    requires Inventory.LedgerValid(l)
    requires CreateDefect(l, data, reporter, year, count).answer.Ok?
    ensures var c := CreateDefect(l, data, reporter, year, count);
      DeleteDefect(c.ledger, c.answer.value) == Ok(l)
  {
    var c := CreateDefect(l, data, reporter, year, count);
    var k := Upper(data.sku);
    var d := c.answer.value;
    CreateDefectOutcome(l, data, reporter, year, count);
    assert d.sku == k && k in c.ledger;
    var u := l[k];
    assert c.ledger[k] == u.(faultyQty := u.faultyQty + d.defectiveQty);
    assert Max(0, u.faultyQty + d.defectiveQty - d.defectiveQty) == u.faultyQty;
    assert c.ledger[k].(faultyQty := u.faultyQty) == u;
    assert c.ledger[k := u] == l;
  }

  // ---------------------------------------------------------------------------
  // resolveDefect / updateDefect / updateSupplierClaim
  // ---------------------------------------------------------------------------

  /** `resolveDefect`: a resolved report is refused; otherwise `resolve()` marks and saves it. */
  function ResolveDefect(d: Defect, resolution: string, resolver: string, now: nat): (r: Result<Defect>)
    ensures d.status == Resolved ==> r == Err(AlreadyResolved)
    ensures r.Ok? <==> d.status != Resolved && DefectValid(d)
    ensures r.Ok? ==>
      && r.value.status == Resolved && r.value.resolution == resolution
      && r.value.resolvedBy == resolver && r.value.resolvedAt == Some(now)
      && LossConsistent(r.value)
    ensures r.Ok? ==> r.value.(status := d.status, resolution := d.resolution, resolvedBy := d.resolvedBy,
                               resolvedAt := d.resolvedAt, totalLoss := d.totalLoss) == d
  {
    if d.status == Resolved then Err(AlreadyResolved)
    else SaveDefect(d.(status := Resolved, resolution := resolution, resolvedBy := resolver, resolvedAt := Some(now)))
  }

  /** A report is resolved at most once: resolving the result again is refused. */
  lemma ResolveOnce(d: Defect, resolution: string, resolver: string, now: nat, resolution': string, resolver': string, now': nat)
    requires ResolveDefect(d, resolution, resolver, now).Ok?
    ensures ResolveDefect(ResolveDefect(d, resolution, resolver, now).value, resolution', resolver', now') == Err(AlreadyResolved)
  {
  }

  /** The fields an edit may carry; `None` leaves a field alone. */
  datatype DefectPatch = DefectPatch(
    sku: Option<string>,
    defectiveQty: Option<int>,
    reportedBy: Option<string>,
    productName: Option<string>,
    unitCost: Option<real>,
    status: Option<DefectStatus>,
    severity: Option<Severity>,
    remarks: Option<string>,
    supplier: Option<string>)

  function Pick<T>(o: Option<T>, current: T): T
  {
    if o.Some? then o.value else current
  }

  /**
   * `updateDefect`: the SKU, the defective quantity and the reporter are
   * struck from the patch, the rest is copied over and the report saved.
   */
  function UpdateDefect(d: Defect, p: DefectPatch): (r: Result<Defect>)
    ensures r.Ok? ==> r.value.sku == d.sku && r.value.defectiveQty == d.defectiveQty && r.value.reportedBy == d.reportedBy
    ensures r.Ok? ==> LossConsistent(r.value) && r.value.unitCost == (if p.unitCost.Some? then p.unitCost.value else d.unitCost)
    ensures r.Ok? ==>
      && r.value.productName == (if p.productName.Some? then p.productName.value else d.productName)
      && r.value.status == (if p.status.Some? then p.status.value else d.status)
    ensures r.Ok? <==> DefectValid(d.(productName := Pick(p.productName, d.productName), unitCost := Pick(p.unitCost, d.unitCost)))
  {
    var kept := p.(sku := None, defectiveQty := None, reportedBy := None);
    SaveDefect(d.(
      productName := Pick(kept.productName, d.productName),
      unitCost := Pick(kept.unitCost, d.unitCost),
      status := Pick(kept.status, d.status),
      severity := Pick(kept.severity, d.severity),
      remarks := Pick(kept.remarks, d.remarks),
      supplier := Pick(kept.supplier, d.supplier)))
  }

  /** An edit cannot move stock: whatever the patch says, the quantity and SKU stay, so deleting the edited report restores the same faulty stock. */
  lemma UpdateKeepsStockLink(l: Inventory.Ledger, d: Defect, p: DefectPatch)
    requires UpdateDefect(d, p).Ok?
    ensures DeleteDefect(l, UpdateDefect(d, p).value) == DeleteDefect(l, d)
  {
  }

  /** The claim fields of a request: 0 or `None` where the body leaves a field out (or gives a falsy one). */
  datatype ClaimPatch = ClaimPatch(claimAmount: real, claimStatus: Option<ClaimStatus>, supplierNotified: Option<bool>)

  /**
   * `updateSupplierClaim`: amount and status are replaced only by truthy
   * values, the notified flag by any defined value; the report is saved.
   */
  function UpdateSupplierClaim(d: Defect, c: ClaimPatch): (r: Result<Defect>)
    ensures c.claimAmount != 0.0 ==> (r.Ok? ==> r.value.claimAmount == c.claimAmount)
    ensures c.claimAmount == 0.0 ==> (r.Ok? ==> r.value.claimAmount == d.claimAmount)
    ensures c.claimStatus.Some? ==> (r.Ok? ==> r.value.claimStatus == c.claimStatus.value)
    ensures c.claimStatus.None? ==> (r.Ok? ==> r.value.claimStatus == d.claimStatus)
    ensures c.supplierNotified.Some? ==> (r.Ok? ==> r.value.supplierNotified == c.supplierNotified.value)
    ensures c.supplierNotified.None? ==> (r.Ok? ==> r.value.supplierNotified == d.supplierNotified)
    ensures r.Ok? ==> r.value.(claimAmount := d.claimAmount, claimStatus := d.claimStatus,
                               supplierNotified := d.supplierNotified, totalLoss := d.totalLoss) == d
    ensures c.claimAmount < 0.0 ==> r.Err?
    ensures DefectValid(d) ==> (r.Ok? <==> c.claimAmount >= 0.0)
  {
    SaveDefect(d.(
      claimAmount := OrReal(c.claimAmount, d.claimAmount),
      claimStatus := Pick(c.claimStatus, d.claimStatus),
      supplierNotified := Pick(c.supplierNotified, d.supplierNotified)))
  }

  /** Recording the same claim twice is the same as recording it once. */
  lemma ClaimIdempotent(d: Defect, c: ClaimPatch)
    requires UpdateSupplierClaim(d, c).Ok?
    ensures UpdateSupplierClaim(UpdateSupplierClaim(d, c).value, c) == UpdateSupplierClaim(d, c)
  {
    var e := UpdateSupplierClaim(d, c).value;
    var e' := e.(
      claimAmount := OrReal(c.claimAmount, e.claimAmount),
      claimStatus := Pick(c.claimStatus, e.claimStatus),
      supplierNotified := Pick(c.supplierNotified, e.supplierNotified));
    assert e' == e;
    assert SaveDefect(e) == Ok(e);
  }
}

=== FILE: finance.dfy ===
/**
 * A finance transaction and what a save derives from it: the total cost of
 * the four cost parts, the profit and margin of an income or expense, the
 * signed net amount, and an identifier whose prefix follows the type.
 */
module Finance {
  import opened Common
  import Ids

  datatype TxType = Income | Expense | Refund | Adjustment

  datatype Category =
    | AmazonPayment | ProductPurchase | ShippingCost | PackagingCost | AmazonFees
    | Advertising | StorageFees | MiscExpense | RefundCategory | AdjustmentCategory | OtherCategory

  /** Amazon's settlement breakdown; an absent part is 0. */
  datatype Breakdown = Breakdown(
    productSales: real,
    shippingCredits: real,
    giftWrapCredits: real,
    promotionalRebates: real,
    amazonFees: real,
    fbaFees: real,
    commissionFees: real,
    storageFees: real,
    otherFees: real)

  /** The cost parts; an absent part is 0. */
  datatype Costs = Costs(purchaseCost: real, shippingCost: real, packagingCost: real, miscCost: real)

  datatype Transaction = Transaction(
    transactionId: string,
    txType: TxType,
    category: Category,
    amount: real,
    currency: string,
    sku: string,
    breakdown: Breakdown,
    costs: Costs,
    totalCost: real,
    profit: real,
    profitMargin: real,
    transactionDate: Option<nat>,
    createdBy: string)

  /** The schema's required fields and the amount's lower bound (type and category are typed). */
  predicate TransactionValid(t: Transaction)
  {
    t.amount >= 0.0 && t.transactionDate.Some? && t.createdBy != ""
  }

  function CostSum(c: Costs): real
  {
    c.purchaseCost + c.shippingCost + c.packagingCost + c.miscCost
  }

  /** The five fee parts of the breakdown; sales and credits are not fees. */
  function FeeSum(b: Breakdown): real
  {
    b.amazonFees + b.fbaFees + b.commissionFees + b.storageFees + b.otherFees
  }

  /** Virtual `netAmount`: the amount for income, its negation for every other type. */
  function NetAmount(t: Transaction): (n: real)
    ensures t.txType == Income ==> n == t.amount
    ensures t.txType != Income ==> n == -t.amount
  {
    if t.txType == Income then t.amount else -t.amount
  }

  /**
   * The totals hook: the total cost always; the profit and margin for an
   * income (the margin only for a positive amount) or an expense; a refund or
   * adjustment keeps its profit and margin.
   */
  function TotalsHook(t: Transaction): (r: Transaction)
    ensures r.totalCost == CostSum(t.costs)
    ensures t.txType == Income ==> r.profit + r.totalCost + FeeSum(t.breakdown) == t.amount
    ensures t.txType == Income && t.amount > 0.0 ==> r.profitMargin * t.amount == r.profit * 100.0
    ensures t.txType == Income && t.amount <= 0.0 ==> r.profitMargin == t.profitMargin
    ensures t.txType == Expense ==> r.profit == NetAmount(t) && r.profitMargin == 0.0
    ensures t.txType == Refund || t.txType == Adjustment ==> r.profit == t.profit && r.profitMargin == t.profitMargin
    ensures r.(totalCost := t.totalCost, profit := t.profit, profitMargin := t.profitMargin) == t
  {
    var total := CostSum(t.costs);
    var fees := FeeSum(t.breakdown);
    match t.txType
    case Income =>
      var profit := t.amount - total - fees;
      t.(totalCost := total, profit := profit,
         profitMargin := if t.amount > 0.0 then profit / t.amount * 100.0 else t.profitMargin)
    case Expense => t.(totalCost := total, profit := -t.amount, profitMargin := 0.0)
    case _ => t.(totalCost := total)
  }

  /** The derived fields depend only on the inputs, so a second save derives the same. */
  lemma TotalsHookIdempotent(t: Transaction)
    ensures TotalsHook(TotalsHook(t)) == TotalsHook(t)
  {
  }

  /**
   * An income whose cost and fee parts are all non-negative never earns more
   * than it takes in: its profit is at most the amount and its margin at most
   * 100 percent.
   */
  lemma IncomeMarginAtMostHundred(t: Transaction)
    requires t.txType == Income && t.amount > 0.0
    requires t.costs.purchaseCost >= 0.0 && t.costs.shippingCost >= 0.0 && t.costs.packagingCost >= 0.0 && t.costs.miscCost >= 0.0
    requires t.breakdown.amazonFees >= 0.0 && t.breakdown.fbaFees >= 0.0 && t.breakdown.commissionFees >= 0.0
    requires t.breakdown.storageFees >= 0.0 && t.breakdown.otherFees >= 0.0
    ensures TotalsHook(t).profit <= t.amount
    ensures TotalsHook(t).profitMargin <= 100.0
  {
    var r := TotalsHook(t);
    assert r.profit <= t.amount;
    assert r.profitMargin * t.amount <= 100.0 * t.amount;
  }

  /** The identifier prefix: INC for income, EXP for expense, TXN otherwise. */
  function Prefix(k: TxType): (p: string)
    ensures |p| == 3
  {
    match k
    case Income => "INC"
    case Expense => "EXP"
    case _ => "TXN"
  }

  /** The id hook: a transaction without an id gets the next identifier of its type's prefix. */
  function AssignTransactionId(t: Transaction, year: nat, count: nat): (r: Transaction)
    ensures t.transactionId != "" ==> r == t
    ensures r.(transactionId := t.transactionId) == t
    ensures t.transactionId == "" ==> |r.transactionId| > 3 && r.transactionId[..3] == Prefix(t.txType)
  {
    if t.transactionId == "" then
      Ids.FormatIdParts(Prefix(t.txType), year, count);
      t.(transactionId := Ids.FormatId(Prefix(t.txType), year, count))
    else t
  }

  /** Identifiers given to an income and to an expense never coincide, whatever the counts. */
  lemma IncomeAndExpenseIdsDiffer(a: Transaction, b: Transaction, year: nat, c1: nat, c2: nat)
    requires a.transactionId == "" && b.transactionId == ""
    requires a.txType == Income && b.txType == Expense
    ensures AssignTransactionId(a, year, c1).transactionId != AssignTransactionId(b, year, c2).transactionId
  {
    var x := AssignTransactionId(a, year, c1).transactionId;
    var y := AssignTransactionId(b, year, c2).transactionId;
    assert x[..3] == "INC" && y[..3] == "EXP";
    assert x[0] != y[0];
  }

  /** `save()`: validation, then the id hook, then the totals hook. */
  function SaveTransaction(t: Transaction, year: nat, count: nat): (r: Result<Transaction>)
    ensures r.Ok? <==> TransactionValid(t)
    ensures r.Ok? ==> r.value.transactionId != "" && r.value.totalCost == CostSum(t.costs)
    ensures r.Ok? ==> r.value.amount == t.amount && r.value.txType == t.txType
    ensures r.Ok? && t.txType == Expense ==> r.value.profit == NetAmount(r.value)
  {
    if t.amount < 0.0 then Err(Validation("amount"))
    else if t.transactionDate.None? then Err(Validation("transactionDate"))
    else if t.createdBy == "" then Err(Validation("createdBy"))
    else Ok(TotalsHook(AssignTransactionId(t, year, count)))
  }
}

=== FILE: ids.dfy ===
/**
 * Human-readable sequential identifiers: prefix, four-digit year, '-', and
 * the document count plus one left-padded with zeros to four digits
 * (`String(count + 1).padStart(4, '0')`). Longer counts are not truncated.
 */
module Ids {

  function DigitChar(d: nat): char
    requires d < 10
  {
    ('0' as int + d) as char
  }

  predicate IsDigit(c: char)
  {
    '0' <= c <= '9'
  }

  predicate AllDigits(s: string)
  {
    forall i :: 0 <= i < |s| ==> IsDigit(s[i])
  }

  /** `String(n)` for a natural number. */
  function Decimal(n: nat): (r: string)
    ensures |r| >= 1
    ensures AllDigits(r)
    decreases n
  {
    if n < 10 then [DigitChar(n)] else Decimal(n / 10) + [DigitChar(n % 10)]
  }

  /** The number a string of decimal digits denotes. */
  function DecimalValue(s: string): nat
    requires AllDigits(s)
  {
    if |s| == 0 then 0 else DecimalValue(s[..|s| - 1]) * 10 + (s[|s| - 1] as int - '0' as int)
  }

  /** `s.padStart(width, fill)`. */
  function PadStart(s: string, width: nat, fill: char): string
  {
    if |s| >= width then s else seq(width - |s|, _ => fill) + s
  }

  /** The zero-padded sequence part of an identifier. */
  function Sequence(count: nat): string
  {
    PadStart(Decimal(count + 1), 4, '0')
  }

  /** `${prefix}${year}-${String(count + 1).padStart(4, '0')}` */
  function FormatId(prefix: string, year: nat, count: nat): string
  {
    prefix + Decimal(year) + "-" + Sequence(count)
  }

  lemma {:induction false} DecimalRoundTrip(n: nat)
    ensures DecimalValue(Decimal(n)) == n
    decreases n
  {
    if n >= 10 {
      var d := Decimal(n / 10) + [DigitChar(n % 10)];
      assert d[..|d| - 1] == Decimal(n / 10);
      DecimalRoundTrip(n / 10);
    }
  }

  lemma {:induction false} LeadingZerosIgnored(k: nat, s: string)
    requires AllDigits(s)
    ensures AllDigits(seq(k, _ => '0') + s)
    ensures DecimalValue(seq(k, _ => '0') + s) == DecimalValue(s)
    decreases |s|
  {
    var z := seq(k, _ => '0');
    if |s| == 0 {
      assert z + s == z;
      ZerosValue(k);
    } else {
      var p := s[..|s| - 1];
      assert (z + s)[..|z + s| - 1] == z + p;
      LeadingZerosIgnored(k, p);
    }
  }

  lemma {:induction false} ZerosValue(k: nat)
    ensures AllDigits(seq(k, _ => '0'))
    ensures DecimalValue(seq(k, _ => '0')) == 0
    decreases k
  {
    if k > 0 {
      assert seq(k, _ => '0')[..k - 1] == seq(k - 1, _ => '0');
      ZerosValue(k - 1);
    }
  }

  /**
   * The sequence part of an identifier is all digits, at least four long,
   * and denotes exactly `count + 1`: padding loses nothing.
   */
  lemma SequenceDenotesCount(count: nat)
    ensures |Sequence(count)| >= 4
    ensures |Sequence(count)| == if |Decimal(count + 1)| >= 4 then |Decimal(count + 1)| else 4
    ensures AllDigits(Sequence(count))
    ensures DecimalValue(Sequence(count)) == count + 1
  {
    var d := Decimal(count + 1);
    DecimalRoundTrip(count + 1);
    if |d| < 4 {
      LeadingZerosIgnored(4 - |d|, d);
    }
  }

  /**
   * An identifier splits back into its prefix, year and count: the part
   * after `prefix + year + "-"` denotes `count + 1`.
   */
  lemma FormatIdParts(prefix: string, year: nat, count: nat)
    ensures var id := FormatId(prefix, year, count);
      var head := |prefix| + |Decimal(year)| + 1;
      && |id| >= head + 4
      && id[..|prefix|] == prefix
      && id[|prefix|..head - 1] == Decimal(year)
      && id[head - 1] == '-'
      && AllDigits(id[head..])
      && DecimalValue(id[head..]) == count + 1
  {
    var y := Decimal(year);
    var q := Sequence(count);
    SequenceDenotesCount(count);
    var a := prefix + y + "-";
    assert FormatId(prefix, year, count) == a + q;
    SplitAt(a, q);
    assert a[..|prefix|] == prefix;
    assert a[|prefix|..|a| - 1] == y;
  }

  lemma SplitAt(a: string, q: string)
    ensures (a + q)[|a|..] == q
    ensures (a + q)[..|a|] == a
  {
  }

  /** Distinct counts give distinct identifiers for one prefix and year. */
  lemma FormatIdInjective(prefix: string, year: nat, c1: nat, c2: nat)
    requires FormatId(prefix, year, c1) == FormatId(prefix, year, c2)
    ensures c1 == c2
  {
    FormatIdParts(prefix, year, c1);
    FormatIdParts(prefix, year, c2);
  }
}

=== FILE: inventory.dfy ===
/**
 * The stock ledger: one record per SKU with an available and a faulty
 * quantity, the schema bounds a save enforces, and the inventory service's
 * operations (relative adjust, absolute set, soft delete, case-insensitive
 * lookup, low-stock listing and bulk upsert).
 *
 * The collection is a map keyed by the upper-cased SKU; the SKU is unique,
 * so the service's lookups by record id become lookups by that key.
 */
module Inventory {
  import opened Common

  datatype StockUnit = StockUnit(
    sku: string,
    name: string,
    productId: string,
    asin: string,
    fnsku: string,
    condition: string,
    prepType: string,
    availableQty: int,
    faultyQty: int,
    unitWeight: real,
    purchasePrice: real,
    sellingPrice: real,
    supplier: string,
    lowStockThreshold: int,
    isActive: bool,
    lastRestocked: Option<nat>)

  type Ledger = map<string, StockUnit>

  /** Required fields present, every `min: 0` bound met and both enumerations respected: what a save accepts. */
  predicate Persistable(u: StockUnit)
  {
    && u.sku != ""
    && u.name != ""
    && u.availableQty >= 0
    && u.faultyQty >= 0
    && u.unitWeight >= 0.0
    && u.purchasePrice >= 0.0
    && u.sellingPrice >= 0.0
    && u.lowStockThreshold >= 0
    && ConditionOk(u.condition)
    && PrepTypeOk(u.prepType)
  }

  /** Every record sits under its own upper-cased SKU. */
  predicate KeysNormalized(l: Ledger)
  {
    forall k :: k in l ==> l[k].sku == k && IsUpper(k)
  }

  /** Every stored record is one a save accepted. */
  predicate LedgerValid(l: Ledger)
  {
    KeysNormalized(l) && forall k :: k in l ==> Persistable(l[k])
  }

  /** Schema validation on save: the first violated path is reported. */
  function SaveUnit(u: StockUnit): (r: Result<StockUnit>)
    ensures r.Ok? <==> Persistable(u)
    ensures r.Ok? ==> r.value == u
  {
    if u.sku == "" then Err(Validation("sku"))
    else if u.name == "" then Err(Validation("name"))
    else if u.availableQty < 0 then Err(Validation("availableQty"))
    else if u.faultyQty < 0 then Err(Validation("faultyQty"))
    else if u.unitWeight < 0.0 then Err(Validation("unitWeight"))
    else if u.purchasePrice < 0.0 then Err(Validation("purchasePrice"))
    else if u.sellingPrice < 0.0 then Err(Validation("sellingPrice"))
    else if u.lowStockThreshold < 0 then Err(Validation("lowStockThreshold"))
    else if !ConditionOk(u.condition) then Err(Validation("condition"))
    else if !PrepTypeOk(u.prepType) then Err(Validation("prepType"))
    else Ok(u)
  }

  /** Virtual `totalQty`: on a stored record it bounds each of its two quantities. */
  function TotalQty(u: StockUnit): (t: int)
    ensures Persistable(u) ==> t >= u.availableQty >= 0 && t >= u.faultyQty >= 0
  {
    u.availableQty + u.faultyQty
  }

  /** Virtual `isLowStock`: the threshold itself counts as low. */
  predicate IsLowStock(u: StockUnit)
  {
    u.availableQty <= u.lowStockThreshold
  }

  // ---------------------------------------------------------------------------
  // Record methods (models/Inventory.js)
  // ---------------------------------------------------------------------------

  /** `updateStock(availableQty, faultyQty = null)` on one record. */
  function UpdateUnit(u: StockUnit, availableQty: int, faultyQty: Option<int>, now: nat): (r: Result<StockUnit>)
    ensures r.Ok? ==> r.value.availableQty == availableQty
    ensures r.Ok? && faultyQty.None? ==> r.value.faultyQty == u.faultyQty
    ensures r.Ok? && faultyQty.Some? ==> r.value.faultyQty == faultyQty.value
    ensures r.Ok? ==> r.value.lastRestocked == Some(now)
    ensures r.Ok? ==> r.value.(availableQty := u.availableQty, faultyQty := u.faultyQty, lastRestocked := u.lastRestocked) == u
    ensures availableQty < 0 ==> r.Err?
    ensures faultyQty.Some? && faultyQty.value < 0 ==> r.Err?
    ensures faultyQty.None? && u.faultyQty < 0 ==> r.Err?
  {
    var faulty := if faultyQty.Some? then faultyQty.value else u.faultyQty;
    SaveUnit(u.(availableQty := availableQty, faultyQty := faulty, lastRestocked := Some(now)))
  }

  /** The record after adding `change` to the selected quantity, before validation. */
  function Adjusted(u: StockUnit, change: int, isFaulty: bool, now: nat): StockUnit
  {
    var v := if isFaulty then u.(faultyQty := u.faultyQty + change) else u.(availableQty := u.availableQty + change);
    if change > 0 then v.(lastRestocked := Some(now)) else v
  }

  /** `adjustStock(qtyChange, isFaulty = false)` on one record: the save enforces both bounds. */
  function AdjustUnit(u: StockUnit, change: int, isFaulty: bool, now: nat): (r: Result<StockUnit>)
    ensures r.Ok? && isFaulty ==> r.value.faultyQty == u.faultyQty + change && r.value.availableQty == u.availableQty
    ensures r.Ok? && !isFaulty ==> r.value.availableQty == u.availableQty + change && r.value.faultyQty == u.faultyQty
    ensures r.Ok? ==> TotalQty(r.value) == TotalQty(u) + change
    ensures r.Ok? ==> r.value.lastRestocked == (if change > 0 then Some(now) else u.lastRestocked)
    ensures isFaulty && u.faultyQty + change < 0 ==> r.Err?
    ensures !isFaulty && u.availableQty + change < 0 ==> r.Err?
    ensures Persistable(u) && (if isFaulty then u.faultyQty + change >= 0 else u.availableQty + change >= 0) ==> r.Ok?
  {
    SaveUnit(Adjusted(u, change, isFaulty, now))
  }

  /**
   * How an adjustment moves the `isLowStock` flag: a faulty adjustment never
   * changes it, removing available units never clears it, adding them never
   * sets it, and after an available adjustment the flag compares the new
   * quantity with the unchanged threshold.
   */
  lemma LowStockAfterAdjust(u: StockUnit, change: int, isFaulty: bool, now: nat)
    requires AdjustUnit(u, change, isFaulty, now).Ok?
    ensures var v := AdjustUnit(u, change, isFaulty, now).value;
      && (isFaulty ==> (IsLowStock(v) <==> IsLowStock(u)))
      && (!isFaulty ==> (IsLowStock(v) <==> u.availableQty + change <= u.lowStockThreshold))
      && (change <= 0 && IsLowStock(u) ==> IsLowStock(v))
      && (change >= 0 && !IsLowStock(u) ==> !IsLowStock(v))
  {
  }

  // ---------------------------------------------------------------------------
  // Service operations (services/inventoryService.js)
  // ---------------------------------------------------------------------------

  /** `updateStock(id, availableQty, faultyQty)`: absolute set of the quantities. */
  function UpdateStock(l: Ledger, key: string, availableQty: int, faultyQty: Option<int>, now: nat): (r: Result<Ledger>)
    ensures key !in l ==> r == Err(NotFound("Inventory item"))
    ensures r.Ok? ==> key in l && r.value.Keys == l.Keys
    ensures r.Ok? ==> forall k :: k in l && k != key ==> r.value[k] == l[k]
    ensures r.Ok? ==> r.value[key].availableQty == availableQty
    ensures r.Ok? ==> r.value[key].faultyQty == (if faultyQty.Some? then faultyQty.value else l[key].faultyQty)
    ensures r.Ok? ==> Persistable(r.value[key])
    ensures key in l && Persistable(l[key]) && availableQty >= 0 && (faultyQty.Some? ==> faultyQty.value >= 0) ==> r.Ok?
  {
    if key !in l then Err(NotFound("Inventory item"))
    else
      var u :- UpdateUnit(l[key], availableQty, faultyQty, now);
      Ok(l[key := u])
  }

  /**
   * `adjustStock(id, qtyChange, isFaulty)`: the service refuses a negative
   * available quantity itself, whichever side was adjusted; a negative
   * faulty quantity is refused by the save's schema bound. On a stored
   * record the adjustment succeeds whenever the adjusted side stays
   * non-negative.
   */
  function AdjustStock(l: Ledger, key: string, change: int, isFaulty: bool, now: nat): (r: Result<Ledger>)
    ensures key !in l ==> r == Err(NotFound("Inventory item"))
    ensures key in l && !isFaulty && l[key].availableQty + change < 0 ==> r == Err(NegativeAvailable)
    ensures key in l && isFaulty && l[key].availableQty < 0 ==> r == Err(NegativeAvailable)
    ensures key in l && isFaulty && l[key].faultyQty + change < 0 ==> r.Err?
    ensures key in l && Persistable(l[key]) && (if isFaulty then l[key].faultyQty + change >= 0 else l[key].availableQty + change >= 0) ==> r.Ok?
    ensures r.Ok? ==> key in l && r.value.Keys == l.Keys
    ensures r.Ok? ==> forall k :: k in l && k != key ==> r.value[k] == l[k]
    ensures r.Ok? && isFaulty ==>
      r.value[key].faultyQty == l[key].faultyQty + change && r.value[key].availableQty == l[key].availableQty
    ensures r.Ok? && !isFaulty ==>
      r.value[key].availableQty == l[key].availableQty + change && r.value[key].faultyQty == l[key].faultyQty
    ensures r.Ok? ==> Persistable(r.value[key])
  {
    if key !in l then Err(NotFound("Inventory item"))
    else
      var v := Adjusted(l[key], change, isFaulty, now);
      if v.availableQty < 0 then Err(NegativeAvailable)
      else
        var u :- SaveUnit(v);
        Ok(l[key := u])
  }

  /** `getInventoryBySKU(sku)`: case-insensitive, active records only. */
  function GetBySku(l: Ledger, sku: string): (r: Option<StockUnit>)
    ensures r.Some? <==> Upper(sku) in l && l[Upper(sku)].isActive
    ensures r.Some? ==> r.value == l[Upper(sku)]
  {
    var key := Upper(sku);
    if key in l && l[key].isActive then Some(l[key]) else None
  }

  /** `deleteInventoryItem(id)`: a soft delete that clears `isActive` and nothing else. */
  function DeleteItem(l: Ledger, key: string): (r: (Ledger, Option<StockUnit>))
    ensures key !in l ==> r == (l, None)
    ensures r.0.Keys == l.Keys
    ensures forall k :: k in l && k != key ==> r.0[k] == l[k]
    ensures key in l ==> r.1 == Some(r.0[key]) && !r.0[key].isActive
    ensures key in l ==> r.0[key].(isActive := l[key].isActive) == l[key]
  {
    if key !in l then (l, None)
    else
      var u := l[key].(isActive := false);
      (l[key := u], Some(u))
  }

  /** After a soft delete the record is no longer found by SKU, yet its quantities remain. */
  lemma DeletedIsHidden(l: Ledger, sku: string)
    requires Upper(sku) in l
    ensures GetBySku(DeleteItem(l, Upper(sku)).0, sku) == None
    ensures TotalQty(DeleteItem(l, Upper(sku)).0[Upper(sku)]) == TotalQty(l[Upper(sku)])
  {
  }

  /** `findLowStock()`: every active record at or under its threshold. */
  method FindLowStock(l: Ledger) returns (low: set<string>)
    ensures forall k :: k in low <==> k in l && l[k].isActive && IsLowStock(l[k])
  {
    low := {};
    var todo := l.Keys;
    while todo != {}
      invariant todo <= l.Keys
      invariant forall k :: k in low <==> k in l && k !in todo && l[k].isActive && IsLowStock(l[k])
      decreases |todo|
    {
      var k :| k in todo;
      if l[k].isActive && l[k].availableQty <= l[k].lowStockThreshold {
        low := low + {k};
      }
      todo := todo - {k};
    }
  }

  // ---------------------------------------------------------------------------
  // Bulk import
  // ---------------------------------------------------------------------------

  /** One row of a bulk import: the SKU plus every stored field the row may supply (`None` when absent). */
  datatype ImportItem = ImportItem(
    sku: string,
    name: Option<string>,
    productId: Option<string>,
    asin: Option<string>,
    fnsku: Option<string>,
    condition: Option<string>,
    prepType: Option<string>,
    availableQty: Option<int>,
    faultyQty: Option<int>,
    unitWeight: Option<real>,
    purchasePrice: Option<real>,
    sellingPrice: Option<real>,
    supplier: Option<string>,
    lowStockThreshold: Option<int>,
    isActive: Option<bool>,
    lastRestocked: Option<nat>)

  datatype ImportOutcome =
    | Created(sku: string)
    | Updated(sku: string)
    | Failed(sku: string, error: Error)

  function Pick<T>(o: Option<T>, current: T): T
  {
    if o.Some? then o.value else current
  }

  /** A supplied string through the `uppercase` setter. */
  function PickUpper(o: Option<string>, current: string): string
  {
    if o.Some? then Upper(o.value) else current
  }

  /** `Object.assign(existing, itemData)`: supplied fields overwrite, the SKU, ASIN and FNSKU setters upper-case. */
  function Merge(u: StockUnit, it: ImportItem): StockUnit
  {
    u.(sku := Upper(it.sku),
       name := Pick(it.name, u.name),
       productId := Pick(it.productId, u.productId),
       asin := PickUpper(it.asin, u.asin),
       fnsku := PickUpper(it.fnsku, u.fnsku),
       condition := Pick(it.condition, u.condition),
       prepType := Pick(it.prepType, u.prepType),
       availableQty := Pick(it.availableQty, u.availableQty),
       faultyQty := Pick(it.faultyQty, u.faultyQty),
       unitWeight := Pick(it.unitWeight, u.unitWeight),
       purchasePrice := Pick(it.purchasePrice, u.purchasePrice),
       sellingPrice := Pick(it.sellingPrice, u.sellingPrice),
       supplier := Pick(it.supplier, u.supplier),
       lowStockThreshold := Pick(it.lowStockThreshold, u.lowStockThreshold),
       isActive := Pick(it.isActive, u.isActive),
       lastRestocked := if it.lastRestocked.Some? then it.lastRestocked else u.lastRestocked)
  }

  /** `Inventory.create(itemData)`: schema defaults for every field the row omits. */
  function NewUnit(it: ImportItem): StockUnit
  {
    StockUnit(
      sku := Upper(it.sku),
      name := Pick(it.name, ""),
      productId := Pick(it.productId, ""),
      asin := PickUpper(it.asin, ""),
      fnsku := PickUpper(it.fnsku, ""),
      condition := Pick(it.condition, "NewItem"),
      prepType := Pick(it.prepType, "NONE"),
      availableQty := Pick(it.availableQty, 0),
      faultyQty := Pick(it.faultyQty, 0),
      unitWeight := Pick(it.unitWeight, 0.0),
      purchasePrice := Pick(it.purchasePrice, 0.0),
      sellingPrice := Pick(it.sellingPrice, 0.0),
      supplier := Pick(it.supplier, ""),
      lowStockThreshold := Pick(it.lowStockThreshold, 10),
      isActive := Pick(it.isActive, true),
      lastRestocked := it.lastRestocked)
  }

  /**
   * Save of an imported record. A supplied `condition` or `prepType` must be
   * a listed value: the enum validator refuses an explicitly empty string,
   * which the stored record cannot tell apart from an absent one.
   */
  function SaveImported(u: StockUnit, it: ImportItem): (r: Result<StockUnit>)
    ensures r.Ok? <==> Persistable(u) && SuppliedListed(it)
    ensures r.Ok? ==> r.value == u
  {
    if it.condition.Some? && it.condition.value !in Conditions then Err(Validation("condition"))
    else if it.prepType.Some? && it.prepType.value !in PrepTypes then Err(Validation("prepType"))
    else SaveUnit(u)
  }

  /** Every enumerated field the row supplies holds a listed value. */
  predicate SuppliedListed(it: ImportItem)
  {
    (it.condition.Some? ==> it.condition.value in Conditions) && (it.prepType.Some? ==> it.prepType.value in PrepTypes)
  }

  /**
   * One iteration of the import loop: update when the SKU exists (active or
   * not), create otherwise. Every field the row supplies is stored, and the
   * row fails, leaving the ledger as it was, when a supplied value breaks a
   * schema rule.
   */
  function ImportOne(l: Ledger, it: ImportItem): (r: (Ledger, ImportOutcome))
    ensures r.1.sku == it.sku
    ensures r.1.Updated? ==> Upper(it.sku) in l
    ensures r.1.Created? ==> Upper(it.sku) !in l
    ensures r.1.Failed? ==> r.0 == l
    ensures !r.1.Failed? ==> Upper(it.sku) in r.0 && r.0 == l[Upper(it.sku) := r.0[Upper(it.sku)]]
    ensures !r.1.Failed? ==> Persistable(r.0[Upper(it.sku)]) && r.0[Upper(it.sku)].sku == Upper(it.sku)
    ensures LedgerValid(l) ==> LedgerValid(r.0)
    ensures !SuppliedListed(it) ==> r.1.Failed?
    ensures it.sellingPrice.Some? && it.sellingPrice.value < 0.0 ==> r.1.Failed?
    ensures it.availableQty.Some? && it.availableQty.value < 0 ==> r.1.Failed?
    ensures !r.1.Failed? ==> Supplied(it, r.0[Upper(it.sku)])
    ensures r.1.Updated? ==> Kept(it, l[Upper(it.sku)], r.0[Upper(it.sku)])
    ensures r.1.Created? ==> Kept(it, NewUnit(BareRow(it.sku)), r.0[Upper(it.sku)])
    ensures LedgerValid(l) ==> (r.1.Failed? <==> !RowAcceptable(l, it))
    ensures LedgerValid(l) && RowAcceptable(l, it) ==> r.1 == (if Upper(it.sku) in l then Updated(it.sku) else Created(it.sku))
  {
    var key := Upper(it.sku);
    UpperIdempotent(it.sku);
    var v := Candidate(l, it);
    match SaveImported(v, it)
    case Ok(u) => (l[key := u], if key in l then Updated(it.sku) else Created(it.sku))
    case Err(e) => (l, Failed(it.sku, e))
  }

  /** The record a row would store: the stored one merged with the row, or a new one. */
  function Candidate(l: Ledger, it: ImportItem): (v: StockUnit)
    ensures v.sku == Upper(it.sku) && Supplied(it, v)
    ensures Upper(it.sku) in l ==> Kept(it, l[Upper(it.sku)], v)
    ensures Upper(it.sku) !in l ==> Kept(it, NewUnit(BareRow(it.sku)), v)
    ensures LedgerValid(l) ==> (Persistable(v) && SuppliedListed(it) <==> RowAcceptable(l, it))
  {
    MergeStores(it);
    NewUnitStores(it);
    MergeAcceptable(l, it);
    NewUnitAcceptable(l, it);
    if Upper(it.sku) in l then Merge(l[Upper(it.sku)], it) else NewUnit(it)
  }

  /**
   * What a row must satisfy to be stored against a valid ledger: a SKU,
   * listed enumeration values, a non-empty name where one is supplied (and
   * one supplied when the SKU is new), and no negative number.
   */
  predicate RowAcceptable(l: Ledger, it: ImportItem)
  {
    && it.sku != ""
    && SuppliedListed(it)
    && (it.name.Some? ==> it.name.value != "")
    && (Upper(it.sku) !in l ==> it.name.Some?)
    && (it.availableQty.Some? ==> it.availableQty.value >= 0)
    && (it.faultyQty.Some? ==> it.faultyQty.value >= 0)
    && (it.unitWeight.Some? ==> it.unitWeight.value >= 0.0)
    && (it.purchasePrice.Some? ==> it.purchasePrice.value >= 0.0)
    && (it.sellingPrice.Some? ==> it.sellingPrice.value >= 0.0)
    && (it.lowStockThreshold.Some? ==> it.lowStockThreshold.value >= 0)
  }

  /** Merging into a stored record yields a savable record exactly for an acceptable row. */
  lemma MergeAcceptable(l: Ledger, it: ImportItem)
    ensures LedgerValid(l) && Upper(it.sku) in l ==>
      (Persistable(Merge(l[Upper(it.sku)], it)) && SuppliedListed(it) <==> RowAcceptable(l, it))
  {
    UpperEmpty(it.sku);
    if LedgerValid(l) && Upper(it.sku) in l {
      assert Persistable(l[Upper(it.sku)]);
    }
  }

  /** A created record is savable exactly for an acceptable row. */
  lemma NewUnitAcceptable(l: Ledger, it: ImportItem)
    ensures Upper(it.sku) !in l ==> (Persistable(NewUnit(it)) && SuppliedListed(it) <==> RowAcceptable(l, it))
  {
    UpperEmpty(it.sku);
    assert ConditionOk("NewItem") && PrepTypeOk("NONE");
  }

  /** A row that names only its SKU. */
  function BareRow(sku: string): ImportItem
  {
    ImportItem(sku, None, None, None, None, None, None, None, None, None, None, None, None, None, None, None)
  }

  lemma MergeStores(it: ImportItem)
    ensures forall u :: Supplied(it, Merge(u, it)) && Kept(it, u, Merge(u, it))
  {
  }

  lemma NewUnitStores(it: ImportItem)
    ensures Supplied(it, NewUnit(it)) && Kept(it, NewUnit(BareRow(it.sku)), NewUnit(it))
  {
    var u, b := NewUnit(it), NewUnit(BareRow(it.sku));
    assert b.asin == "" && b.fnsku == "" && b.condition == "NewItem" && b.prepType == "NONE";
    assert Supplied(it, u);
  }

  /** The stored record holds every value the row supplies (ASIN and FNSKU upper-cased). */
  predicate Supplied(it: ImportItem, u: StockUnit)
  {
    && (it.name.Some? ==> u.name == it.name.value)
    && (it.productId.Some? ==> u.productId == it.productId.value)
    && (it.asin.Some? ==> u.asin == Upper(it.asin.value))
    && (it.fnsku.Some? ==> u.fnsku == Upper(it.fnsku.value))
    && (it.condition.Some? ==> u.condition == it.condition.value)
    && (it.prepType.Some? ==> u.prepType == it.prepType.value)
    && (it.availableQty.Some? ==> u.availableQty == it.availableQty.value)
    && (it.faultyQty.Some? ==> u.faultyQty == it.faultyQty.value)
    && (it.unitWeight.Some? ==> u.unitWeight == it.unitWeight.value)
    && (it.purchasePrice.Some? ==> u.purchasePrice == it.purchasePrice.value)
    && (it.sellingPrice.Some? ==> u.sellingPrice == it.sellingPrice.value)
    && (it.supplier.Some? ==> u.supplier == it.supplier.value)
    && (it.lowStockThreshold.Some? ==> u.lowStockThreshold == it.lowStockThreshold.value)
    && (it.isActive.Some? ==> u.isActive == it.isActive.value)
    && (it.lastRestocked.Some? ==> u.lastRestocked == it.lastRestocked)
  }

  /** Every field the row leaves out keeps its value in `base`. */
  predicate Kept(it: ImportItem, base: StockUnit, u: StockUnit)
  {
    && (it.name.None? ==> u.name == base.name)
    && (it.productId.None? ==> u.productId == base.productId)
    && (it.asin.None? ==> u.asin == base.asin)
    && (it.fnsku.None? ==> u.fnsku == base.fnsku)
    && (it.condition.None? ==> u.condition == base.condition)
    && (it.prepType.None? ==> u.prepType == base.prepType)
    && (it.availableQty.None? ==> u.availableQty == base.availableQty)
    && (it.faultyQty.None? ==> u.faultyQty == base.faultyQty)
    && (it.unitWeight.None? ==> u.unitWeight == base.unitWeight)
    && (it.purchasePrice.None? ==> u.purchasePrice == base.purchasePrice)
    && (it.sellingPrice.None? ==> u.sellingPrice == base.sellingPrice)
    && (it.supplier.None? ==> u.supplier == base.supplier)
    && (it.lowStockThreshold.None? ==> u.lowStockThreshold == base.lowStockThreshold)
    && (it.isActive.None? ==> u.isActive == base.isActive)
    && (it.lastRestocked.None? ==> u.lastRestocked == base.lastRestocked)
  }

  /**
   * An import row naming a soft-deleted SKU with `isActive: true` brings the
   * record back: the SKU lookup finds it again, with its stock unchanged
   * when the row supplies no quantities.
   */
  lemma ImportReactivates(l: Ledger, sku: string)
    requires LedgerValid(l) && Upper(sku) in l && !l[Upper(sku)].isActive
    ensures var it := BareRow(sku).(isActive := Some(true));
      var r := ImportOne(l, it);
      && r.1 == Updated(sku)
      && GetBySku(r.0, sku) == Some(r.0[Upper(sku)])
      && TotalQty(r.0[Upper(sku)]) == TotalQty(l[Upper(sku)])
  {
    UpperIdempotent(sku);
  }

  /** A row whose `condition` is not a listed value fails and stores nothing, even for a valid stored SKU. */
  lemma ImportRefusesUnlistedCondition(l: Ledger)
    requires LedgerValid(l) && "A1" in l
    ensures var it := BareRow("a1").(condition := Some("Refurbished"));
      var r := ImportOne(l, it);
      r.1.Failed? && r.0 == l
  {
  }

  /** The upper-cased SKUs of the rows. */
  function ImportKeys(items: seq<ImportItem>): set<string>
  {
    if |items| == 0 then {} else ImportKeys(items[..|items| - 1]) + {Upper(items[|items| - 1].sku)}
  }

  lemma {:induction false} NotInImportKeys(items: seq<ImportItem>, key: string)
    requires forall i :: 0 <= i < |items| ==> Upper(items[i].sku) != key
    ensures key !in ImportKeys(items)
    decreases |items|
  {
    if |items| > 0 {
      NotInImportKeys(items[..|items| - 1], key);
    }
  }

  /** `bulkImportInventory(items)`: one outcome per row, in row order. */
  function BulkImport(l: Ledger, items: seq<ImportItem>): (r: (Ledger, seq<ImportOutcome>))
    ensures |r.1| == |items|
    ensures forall i :: 0 <= i < |items| ==> r.1[i].sku == items[i].sku
    ensures l.Keys <= r.0.Keys <= l.Keys + ImportKeys(items)
    ensures LedgerValid(l) ==> LedgerValid(r.0)
    decreases |items|
  {
    if |items| == 0 then (l, [])
    else
      var n := |items| - 1;
      var p := BulkImport(l, items[..n]);
      var q := ImportOne(p.0, items[n]);
      BulkImportStep(l, items, p, q);
      (q.0, p.1 + [q.1])
  }

  /** The import's contract carries over from the rows before the last to all rows. */
  lemma {:induction false} BulkImportStep(l: Ledger, items: seq<ImportItem>, p: (Ledger, seq<ImportOutcome>), q: (Ledger, ImportOutcome))
    requires |items| > 0
    requires |p.1| == |items| - 1 && forall i :: 0 <= i < |items| - 1 ==> p.1[i].sku == items[i].sku
    requires l.Keys <= p.0.Keys <= l.Keys + ImportKeys(items[..|items| - 1])
    requires q.1.sku == items[|items| - 1].sku
    requires p.0.Keys <= q.0.Keys <= p.0.Keys + {Upper(items[|items| - 1].sku)}
    ensures var r := p.1 + [q.1];
      && |r| == |items| && (forall i :: 0 <= i < |items| ==> r[i].sku == items[i].sku)
      && l.Keys <= q.0.Keys <= l.Keys + ImportKeys(items)
  {
    var r := p.1 + [q.1];
    forall i | 0 <= i < |items|
      ensures r[i].sku == items[i].sku
    {
      if i < |items| - 1 {
        assert r[i] == p.1[i];
      }
    }
  }

  function Successes(os: seq<ImportOutcome>): seq<ImportOutcome>
  {
    if |os| == 0 then []
    else Successes(os[..|os| - 1]) + (if os[|os| - 1].Failed? then [] else [os[|os| - 1]])
  }

  function Failures(os: seq<ImportOutcome>): seq<ImportOutcome>
  {
    if |os| == 0 then []
    else Failures(os[..|os| - 1]) + (if os[|os| - 1].Failed? then [os[|os| - 1]] else [])
  }

  /** Every row lands in exactly one of the two report lists. */
  lemma {:induction false} ReportPartitions(os: seq<ImportOutcome>)
    ensures |Successes(os)| + |Failures(os)| == |os|
    ensures forall o :: o in Successes(os) ==> o in os && !o.Failed?
    ensures forall o :: o in Failures(os) ==> o in os && o.Failed?
    decreases |os|
  {
    if |os| > 0 {
      ReportPartitions(os[..|os| - 1]);
    }
  }

  /**
   * With pairwise distinct SKUs (up to case) a row that does not fail is
   * reported 'updated' exactly when its SKU was already stored, and
   * 'created' exactly when it was not; against a valid ledger a row fails
   * exactly when it is not acceptable on its own.
   */
  lemma {:induction false} BulkImportReportsPresence(l: Ledger, items: seq<ImportItem>)
    requires forall i, j :: 0 <= i < j < |items| ==> Upper(items[i].sku) != Upper(items[j].sku)
    ensures forall i :: 0 <= i < |items| && !BulkImport(l, items).1[i].Failed? ==>
      (BulkImport(l, items).1[i].Updated? <==> Upper(items[i].sku) in l)
    ensures LedgerValid(l) ==> forall i :: 0 <= i < |items| ==>
      (BulkImport(l, items).1[i].Failed? <==> !RowAcceptable(l, items[i]))
    decreases |items|
  {
    if |items| > 0 {
      var n := |items| - 1;
      var prefix := items[..n];
      BulkImportReportsPresence(l, prefix);
      var (l1, os) := BulkImport(l, prefix);
      var key := Upper(items[n].sku);
      NotInImportKeys(prefix, key);
      assert key in l1 <==> key in l;
      assert RowAcceptable(l1, items[n]) <==> RowAcceptable(l, items[n]);
      var r := BulkImport(l, items);
      forall i | 0 <= i < n
        ensures r.1[i] == os[i]
      {
      }
    }
  }
}

=== FILE: packgroup_controller.dfy ===
/**
 * The request checks in front of the distribution engine: the body of a
 * pack-group create and of a distribution edit is checked field by field,
 * in order, and the first failure is answered with 400 and its message;
 * what passes reaches the service with its defaults filled in.
 */
module PackGroupRequests {
  import opened Common
  import opened Shipments
  import PackGroups
  import Inventory

  /** A body field that should hold an array: absent (or falsy), present but not an array, or an array. */
  datatype Field<T> = Missing | NotArray | Array(elems: seq<T>)

  /** One SKU entry of a create body, as posted. */
  datatype RawSku = RawSku(sku: string, productName: string, meta: ItemMeta, expectedQty: int, boxQuantities: Field<int>)

  /** The create body; an absent text field is "". */
  datatype CreateBody = CreateBody(
    packGroup: string,
    fbaShipmentId: string,
    destination: string,
    boxes: Field<PackGroups.BoxSpec>,
    skus: Field<RawSku>)

  /** One entry of `distributionData`, as posted. */
  datatype RawDist = RawDist(sku: string, boxQuantities: Field<int>)

  const MissingFields := "Missing required fields: destination, boxes, and skus are required"
  const BoxesNotArray := "Boxes must be a non-empty array"
  const SkusNotArray := "SKUs must be a non-empty array"
  const SkuFieldsMissing := "Each SKU must have sku and productName"
  const DistNotArray := "distributionData must be an array"
  const DistEntryInvalid := "Each distribution entry must have sku and boxQuantities array"

  function WidthMismatch(sku: string): string
  {
    "SKU " + sku + ": boxQuantities array length must match boxes count"
  }

  predicate NonEmptyArray<T>(f: Field<T>)
  {
    f.Array? && |f.elems| > 0
  }

  /** An entry passes when it names a SKU and a product and has one quantity per box. */
  predicate SkuEntryOk(e: RawSku, boxCount: nat)
  {
    e.sku != "" && e.productName != "" && e.boxQuantities.Array? && |e.boxQuantities.elems| == boxCount
  }

  /** The entry check for one SKU: names first, then the quantity array. */
  function CheckSkuEntry(e: RawSku, boxCount: nat): (r: Outcome)
    ensures r.Pass? <==> SkuEntryOk(e, boxCount)
    ensures e.sku == "" || e.productName == "" ==> r == Fail(BadRequest(SkuFieldsMissing))
    ensures e.sku != "" && e.productName != "" && r.Fail? ==> r == Fail(BadRequest(WidthMismatch(e.sku)))
  {
    if e.sku == "" || e.productName == "" then Fail(BadRequest(SkuFieldsMissing))
    else if !e.boxQuantities.Array? || |e.boxQuantities.elems| != boxCount then Fail(BadRequest(WidthMismatch(e.sku)))
    else Pass
  }

  /** Entry `j` is the first one the check rejects. */
  predicate FirstFailing(es: seq<RawSku>, boxCount: nat, j: int)
  {
    0 <= j < |es| && !SkuEntryOk(es[j], boxCount) && forall j' :: 0 <= j' < j ==> SkuEntryOk(es[j'], boxCount)
  }

  /** The `for … of` loop over the SKU entries: the first failing entry answers. */
  function CheckSkuEntries(es: seq<RawSku>, boxCount: nat): (r: Outcome)
    ensures r.Pass? <==> forall j :: 0 <= j < |es| ==> SkuEntryOk(es[j], boxCount)
    ensures r.Fail? ==> exists j :: FirstFailing(es, boxCount, j) && r == CheckSkuEntry(es[j], boxCount)
    decreases |es|
  {
    if |es| == 0 then Pass
    else
      var n := |es| - 1;
      var p := CheckSkuEntries(es[..n], boxCount);
      assert forall j :: 0 <= j < n ==> es[..n][j] == es[j];
      if p.Fail? then p else CheckSkuEntry(es[n], boxCount)
  }

  function RowOf(e: RawSku): PackGroups.SkuRow
    requires e.boxQuantities.Array?
  {
    PackGroups.SkuRow(e.sku, e.productName, e.meta, e.expectedQty, 0, e.boxQuantities.elems)
  }

  /** Every entry turned into a row with its quantity array. */
  function RowsOf(es: seq<RawSku>): (rows: seq<PackGroups.SkuRow>)
    requires forall j :: 0 <= j < |es| ==> es[j].boxQuantities.Array?
    ensures |rows| == |es|
    ensures forall j :: 0 <= j < |es| ==> rows[j] == RowOf(es[j])
  {
    seq(|es|, j requires 0 <= j < |es| => RowOf(es[j]))
  }

  /**
   * `createFromPackGroup`'s checks: the three required fields, then the two
   * arrays, then each SKU entry; an accepted body becomes a request whose
   * pack group defaults to "1".
   */
  function ValidateCreate(body: CreateBody): (r: Result<PackGroups.Request>)
    ensures body.destination == "" || body.boxes.Missing? || body.skus.Missing? ==> r == Err(BadRequest(MissingFields))
    ensures body.destination != "" && !body.boxes.Missing? && !body.skus.Missing? && !NonEmptyArray(body.boxes) ==>
      r == Err(BadRequest(BoxesNotArray))
    ensures body.destination != "" && NonEmptyArray(body.boxes) && !body.skus.Missing? && !NonEmptyArray(body.skus) ==>
      r == Err(BadRequest(SkusNotArray))
    ensures r.Ok? <==>
      && body.destination != "" && NonEmptyArray(body.boxes) && NonEmptyArray(body.skus)
      && forall j :: 0 <= j < |body.skus.elems| ==> SkuEntryOk(body.skus.elems[j], |body.boxes.elems|)
    ensures r.Ok? ==>
      && r.value.packGroup == (if body.packGroup != "" then body.packGroup else "1")
      && r.value.fbaShipmentId == body.fbaShipmentId && r.value.destination == body.destination
      && r.value.boxes == body.boxes.elems && |r.value.skus| == |body.skus.elems|
      && forall j :: 0 <= j < |r.value.skus| ==>
           && r.value.skus[j].sku == body.skus.elems[j].sku && r.value.skus[j].productName == body.skus.elems[j].productName
           && r.value.skus[j].boxQuantities == body.skus.elems[j].boxQuantities.elems
  {
    if body.destination == "" || body.boxes.Missing? || body.skus.Missing? then Err(BadRequest(MissingFields))
    else if !NonEmptyArray(body.boxes) then Err(BadRequest(BoxesNotArray))
    else if !NonEmptyArray(body.skus) then Err(BadRequest(SkusNotArray))
    else
      var n := |body.boxes.elems|;
      match CheckSkuEntries(body.skus.elems, n)
      case Fail(e) => Err(e)
      case Pass =>
        Ok(PackGroups.Request(OrString(body.packGroup, "1"), OrString(body.fbaShipmentId, ""), body.destination,
                              body.boxes.elems, RowsOf(body.skus.elems)))
  }

  /** The HTTP answer of the create route: 400 for a rejected body or a failed build, 201 otherwise. */
  function HandleCreate(l: Inventory.Ledger, body: CreateBody, year: nat, count: nat): (r: (int, Result<Shipment>))
    ensures ValidateCreate(body).Err? ==> r == (400, Err(ValidateCreate(body).error))
    ensures r.0 == 201 <==> r.1.Ok?
    ensures r.0 == 201 || r.0 == 400
  {
    match ValidateCreate(body)
    case Err(e) => (400, Err(e))
    case Ok(req) =>
      var s := PackGroups.CreateFromPackGroup(l, req, year, count);
      (if s.Ok? then 201 else 400, s)
  }

  /**
   * Against a valid ledger, a body the checks accept, with non-negative box
   * weights and measures and listed condition and prep values, is answered
   * 201 exactly when every SKU it names is in the inventory.
   */
  lemma AcceptedBodyOutcome(l: Inventory.Ledger, body: CreateBody, year: nat, count: nat)
    requires Inventory.LedgerValid(l) && ValidateCreate(body).Ok?
    requires forall i :: 0 <= i < |body.boxes.elems| ==> PackGroups.BoxSpecSavable(body.boxes.elems[i])
    requires forall j :: 0 <= j < |body.skus.elems| ==> MetaValid(body.skus.elems[j].meta)
    ensures HandleCreate(l, body, year, count).0 == 201 <==>
      forall j :: 0 <= j < |body.skus.elems| ==> Upper(body.skus.elems[j].sku) in l
  {
    var req := ValidateCreate(body).value;
    AcceptedRequest(body);
    PackGroups.CreateSucceeds(l, req, year, count);
  }

  /** An accepted body with non-negative box measures and listed catalogue values is a savable request whose rows keep the posted SKUs. */
  lemma AcceptedRequest(body: CreateBody)
    requires ValidateCreate(body).Ok?
    requires forall i :: 0 <= i < |body.boxes.elems| ==> PackGroups.BoxSpecSavable(body.boxes.elems[i])
    requires forall j :: 0 <= j < |body.skus.elems| ==> MetaValid(body.skus.elems[j].meta)
    ensures PackGroups.RequestSavable(ValidateCreate(body).value)
    ensures var req := ValidateCreate(body).value;
      |req.skus| == |body.skus.elems| &&
      forall j :: 0 <= j < |req.skus| ==> PackGroups.RowKey(req.skus[j]) == Upper(body.skus.elems[j].sku)
  {
  }

  // ---------------------------------------------------------------------------
  // The distribution edit
  // ---------------------------------------------------------------------------

  predicate DistEntryOk(e: RawDist)
  {
    e.sku != "" && e.boxQuantities.Array?
  }

  /** `updateBoxDistribution`'s checks: an array, each entry with a SKU and a quantity array. */
  function ValidateDistribution(body: Field<RawDist>): (r: Result<seq<PackGroups.Dist>>)
    ensures !body.Array? ==> r == Err(BadRequest(DistNotArray))
    ensures body.Array? && r.Err? ==> r == Err(BadRequest(DistEntryInvalid))
    ensures r.Ok? <==> body.Array? && forall j :: 0 <= j < |body.elems| ==> DistEntryOk(body.elems[j])
    ensures r.Ok? ==> |r.value| == |body.elems|
    ensures r.Ok? ==> forall j :: 0 <= j < |body.elems| ==>
      r.value[j].sku == body.elems[j].sku && r.value[j].boxQuantities == body.elems[j].boxQuantities.elems
  {
    if !body.Array? then Err(BadRequest(DistNotArray))
    else if exists j :: 0 <= j < |body.elems| && !DistEntryOk(body.elems[j]) then Err(BadRequest(DistEntryInvalid))
    else
      Ok(seq(|body.elems|, j requires 0 <= j < |body.elems| && DistEntryOk(body.elems[j]) =>
        PackGroups.Dist(body.elems[j].sku, body.elems[j].boxQuantities.elems)))
  }

  /** The HTTP answer of the distribution route: 400 for a rejected body or a refused edit, 200 otherwise. */
  function HandleDistribution(s: Shipment, body: Field<RawDist>): (r: (int, Result<Shipment>))
    ensures ValidateDistribution(body).Err? ==> r == (400, Err(ValidateDistribution(body).error))
    ensures r.0 == 200 <==> r.1.Ok?
    ensures r.0 == 200 ==> s.status == Draft && r.1.value.status == Draft
  {
    match ValidateDistribution(body)
    case Err(e) => (400, Err(e))
    case Ok(ds) =>
      var u := PackGroups.UpdateDistribution(s, ds);
      (if u.Ok? then 200 else 400, u)
  }
}

=== FILE: packgroups.dfy ===
/**
 * The distribution engine: a shipment seen as a SKU × box quantity matrix.
 * The projection lists every upper-cased SKU once, in order of first
 * appearance, with one cell per box; the build turns such a matrix back
 * into boxes of item lines; the edit overwrites or removes single cells.
 */
module PackGroups {
  import opened Common
  import opened Shipments
  import Inventory
  import Ids

  /** One row of the matrix, with the catalogue fields of the SKU's first line. */
  datatype SkuRow = SkuRow(
    sku: string,
    productName: string,
    meta: ItemMeta,
    expectedQty: int,
    boxedQty: int,
    boxQuantities: seq<int>)

  /** Per-box fields of the projection, with the defaults filled in. */
  datatype BoxDetail = BoxDetail(boxNo: string, boxName: string, boxWeight: real, length: real, width: real, height: real)

  datatype PackGroupData = PackGroupData(
    packGroup: string,
    fbaShipmentId: string,
    destination: string,
    totalSKUs: int,
    totalItems: int,
    totalBoxes: int,
    skus: seq<SkuRow>,
    boxes: seq<BoxDetail>)

  /** Rows are keyed by the upper-cased SKU. */
  function RowKey(row: SkuRow): string
  {
    Upper(row.sku)
  }

  function RowKeys(rows: seq<SkuRow>): seq<string>
  {
    seq(|rows|, r requires 0 <= r < |rows| => RowKey(rows[r]))
  }

  predicate Width(rows: seq<SkuRow>, n: nat)
  {
    forall r :: 0 <= r < |rows| ==> |rows[r].boxQuantities| == n
  }

  predicate Distinct(ks: seq<string>)
  {
    forall a, b :: 0 <= a < b < |ks| ==> ks[a] != ks[b]
  }

  // ---------------------------------------------------------------------------
  // Reference: SKU keys in order of first appearance, and cells
  // ---------------------------------------------------------------------------

  function ItemKeySeq(items: seq<Item>): seq<string>
  {
    seq(|items|, j requires 0 <= j < |items| => Key(items[j]))
  }

  /** Keys of every line of every box, box by box, line by line. */
  function FlatKeys(boxes: seq<Box>): seq<string>
  {
    if |boxes| == 0 then [] else FlatKeys(boxes[..|boxes| - 1]) + ItemKeySeq(boxes[|boxes| - 1].items)
  }

  /** The keys of `ks` in order of first appearance, each once. */
  function Dedup(ks: seq<string>): seq<string>
  {
    if |ks| == 0 then []
    else
      var d := Dedup(ks[..|ks| - 1]);
      if ks[|ks| - 1] in d then d else d + [ks[|ks| - 1]]
  }

  lemma {:induction false} DedupFacts(ks: seq<string>)
    ensures Distinct(Dedup(ks))
    ensures forall x :: x in Dedup(ks) <==> x in ks
    decreases |ks|
  {
    if |ks| > 0 {
      DedupFacts(ks[..|ks| - 1]);
      assert ks == ks[..|ks| - 1] + [ks[|ks| - 1]];
    }
  }

  /** The units of SKU `k` that box `i` holds, or 0 past the last box. */
  function Cell(boxes: seq<Box>, i: nat, k: string): int
  {
    if i < |boxes| then QtyIn(boxes[i].items, k) else 0
  }

  lemma {:induction false} FlatKeysMembers(boxes: seq<Box>, k: string)
    ensures k in FlatKeys(boxes) <==> exists i, j :: 0 <= i < |boxes| && 0 <= j < |boxes[i].items| && Key(boxes[i].items[j]) == k
    decreases |boxes|
  {
    if |boxes| > 0 {
      var n := |boxes| - 1;
      FlatKeysMembers(boxes[..n], k);
      if k in FlatKeys(boxes[..n]) {
        var i, j :| 0 <= i < n && 0 <= j < |boxes[..n][i].items| && Key(boxes[..n][i].items[j]) == k;
        assert boxes[i] == boxes[..n][i];
      } else if k in ItemKeySeq(boxes[n].items) {
        var j :| 0 <= j < |boxes[n].items| && ItemKeySeq(boxes[n].items)[j] == k;
        assert Key(boxes[n].items[j]) == k;
      } else {
        forall i, j | 0 <= i < |boxes| && 0 <= j < |boxes[i].items|
          ensures Key(boxes[i].items[j]) != k
        {
          if i < n {
            assert boxes[..n][i] == boxes[i];
          } else {
            assert ItemKeySeq(boxes[n].items)[j] == Key(boxes[i].items[j]);
          }
        }
      }
    }
  }

  /** A key that never occurs contributes nothing to any box. */
  lemma AbsentKeyCells(boxes: seq<Box>, k: string)
    requires k !in FlatKeys(boxes)
    ensures forall i :: 0 <= i < |boxes| ==> QtyIn(boxes[i].items, k) == 0
    ensures QtyOf(boxes, k) == 0
  {
    FlatKeysMembers(boxes, k);
    forall i | 0 <= i < |boxes|
      ensures QtyIn(boxes[i].items, k) == 0
    {
      QtyInAbsent(boxes[i].items, k);
    }
    AbsentKeyTotal(boxes, k);
  }

  lemma {:induction false} AbsentKeyTotal(boxes: seq<Box>, k: string)
    requires forall i :: 0 <= i < |boxes| ==> QtyIn(boxes[i].items, k) == 0
    ensures QtyOf(boxes, k) == 0
    decreases |boxes|
  {
    if |boxes| > 0 {
      AbsentKeyTotal(boxes[..|boxes| - 1], k);
    }
  }

  // ---------------------------------------------------------------------------
  // The projection loop (getPackGroupData)
  // ---------------------------------------------------------------------------

  /** `findIndex` over rows by key, or -1. */
  function FindRow(rows: seq<SkuRow>, k: string): (r: int)
    ensures -1 <= r < |rows|
    ensures r >= 0 ==> RowKey(rows[r]) == k
    ensures r == -1 <==> k !in RowKeys(rows)
    decreases |rows|
  {
    if |rows| == 0 then -1
    else if RowKey(rows[0]) == k then assert RowKeys(rows)[0] == k; 0
    else
      var r := FindRow(rows[1..], k);
      assert RowKeys(rows) == [RowKey(rows[0])] + RowKeys(rows[1..]);
      if r == -1 then -1 else r + 1
  }

  /** The row the map gets for a SKU it has not seen, from that SKU's first line. */
  function NewRow(it: Item, n: nat): SkuRow
  {
    SkuRow(it.sku, it.productName,
           ItemMeta(it.meta.productId, it.meta.asin, it.meta.fnsku,
                    OrString(it.meta.condition, "NewItem"), OrString(it.meta.prepType, "NONE")),
           0, 0, seq(n, _ => 0))
  }

  function Bump(row: SkuRow, i: nat, q: int): SkuRow
    requires i < |row.boxQuantities|
  {
    row.(boxQuantities := row.boxQuantities[i := row.boxQuantities[i] + q], boxedQty := row.boxedQty + q)
  }

  /** One line of box `i` entering the map. */
  function Step(rows: seq<SkuRow>, i: nat, it: Item, n: nat): (r: seq<SkuRow>)
    requires Width(rows, n) && i < n
    ensures Width(r, n)
  {
    var j := FindRow(rows, Key(it));
    if j >= 0 then rows[j := Bump(rows[j], i, it.qty)] else rows + [Bump(NewRow(it, n), i, it.qty)]
  }

  function TallyItems(rows: seq<SkuRow>, i: nat, items: seq<Item>, n: nat): (r: seq<SkuRow>)
    requires Width(rows, n) && i < n
    ensures Width(r, n)
    decreases |items|
  {
    if |items| == 0 then rows
    else Step(TallyItems(rows, i, items[..|items| - 1], n), i, items[|items| - 1], n)
  }

  function TallyBoxes(boxes: seq<Box>, n: nat): (r: seq<SkuRow>)
    requires |boxes| <= n
    ensures Width(r, n)
    decreases |boxes|
  {
    if |boxes| == 0 then []
    else TallyItems(TallyBoxes(boxes[..|boxes| - 1], n), |boxes| - 1, boxes[|boxes| - 1].items, n)
  }

  /**
   * What the map holds after the lines of `boxes` (the last one possibly
   * only partly read) went in: one row per key in order of first
   * appearance, cells equal to the per-box units, and the running total
   * equal both to the key's units and to the sum of its cells.
   */
  predicate Tabulates(rows: seq<SkuRow>, boxes: seq<Box>, n: nat)
  {
    && |boxes| <= n
    && Width(rows, n)
    && RowKeys(rows) == Dedup(FlatKeys(boxes))
    && (forall r :: 0 <= r < |rows| ==> RowMatches(rows[r], boxes, n))
  }

  /** One row agrees with the boxes: cells, running total and sum of cells. */
  predicate RowMatches(row: SkuRow, boxes: seq<Box>, n: nat)
  {
    && |row.boxQuantities| == n
    && (forall c :: 0 <= c < n ==> row.boxQuantities[c] == Cell(boxes, c, RowKey(row)))
    && row.boxedQty == QtyOf(boxes, RowKey(row))
    && row.boxedQty == Sum(row.boxQuantities)
  }

  /** `boxes` with `it` appended to the lines of its last box. */
  function Extend(boxes: seq<Box>, it: Item): seq<Box>
    requires |boxes| > 0
  {
    var i := |boxes| - 1;
    boxes[..i] + [boxes[i].(items := boxes[i].items + [it])]
  }

  lemma ExtendCounts(boxes: seq<Box>, it: Item)
    requires |boxes| > 0
    ensures var e := Extend(boxes, it); var i := |boxes| - 1;
      && |e| == |boxes|
      && FlatKeys(e) == FlatKeys(boxes) + [Key(it)]
      && (forall k, c :: Cell(e, c, k) == Cell(boxes, c, k) + (if c == i && k == Key(it) then it.qty else 0))
      && (forall k :: QtyOf(e, k) == QtyOf(boxes, k) + (if k == Key(it) then it.qty else 0))
  {
    var i := |boxes| - 1;
    var e := Extend(boxes, it);
    var items := boxes[i].items;
    assert e[..i] == boxes[..i];
    assert ItemKeySeq(items + [it]) == ItemKeySeq(items) + [Key(it)];
    QtyInSingle(it);
    forall k ensures QtyIn(items + [it], k) == QtyIn(items, k) + (if k == Key(it) then it.qty else 0) {
      QtyInConcat(items, [it], k);
    }
  }

  lemma StepTabulates(rows: seq<SkuRow>, boxes: seq<Box>, it: Item, n: nat)
    requires |boxes| > 0 && Tabulates(rows, boxes, n)
    ensures Tabulates(Step(rows, |boxes| - 1, it, n), Extend(boxes, it), n)
  {
    DedupFacts(FlatKeys(boxes));
    if FindRow(rows, Key(it)) >= 0 {
      StepSeen(rows, boxes, it, n);
    } else {
      StepUnseen(rows, boxes, it, n);
    }
  }

  /** A line of a SKU the map already has bumps that row's cell and total only. */
  lemma StepSeen(rows: seq<SkuRow>, boxes: seq<Box>, it: Item, n: nat)
    requires |boxes| > 0 && Tabulates(rows, boxes, n)
    requires FindRow(rows, Key(it)) >= 0
    requires Distinct(RowKeys(rows))
    ensures Tabulates(Step(rows, |boxes| - 1, it, n), Extend(boxes, it), n)
  {
    var i := |boxes| - 1;
    var k := Key(it);
    var e := Extend(boxes, it);
    var r := Step(rows, i, it, n);
    var j := FindRow(rows, k);
    ExtendKeys(boxes, it);
    assert k in Dedup(FlatKeys(boxes)) by {
      assert RowKeys(rows)[j] == k;
    }
    assert RowKeys(r) == RowKeys(rows);
    assert Dedup(FlatKeys(e)) == Dedup(FlatKeys(boxes)) by {
      assert FlatKeys(e)[..|FlatKeys(e)| - 1] == FlatKeys(boxes);
    }
    forall x | 0 <= x < |r|
      ensures RowMatches(r[x], e, n)
    {
      if x == j {
        BumpedRowMatches(rows[j], boxes, it, n);
      } else {
        assert RowKeys(rows)[x] != RowKeys(rows)[j];
        KeptRowMatches(rows[x], boxes, it, n);
      }
    }
  }

  /** A line of a new SKU appends a row whose only non-zero cell is this box's. */
  lemma StepUnseen(rows: seq<SkuRow>, boxes: seq<Box>, it: Item, n: nat)
    requires |boxes| > 0 && Tabulates(rows, boxes, n)
    requires FindRow(rows, Key(it)) == -1
    requires forall x :: x in Dedup(FlatKeys(boxes)) <==> x in FlatKeys(boxes)
    ensures Tabulates(Step(rows, |boxes| - 1, it, n), Extend(boxes, it), n)
  {
    var i := |boxes| - 1;
    var k := Key(it);
    var e := Extend(boxes, it);
    var r := Step(rows, i, it, n);
    StepUnseenKeys(rows, boxes, it, n);
    assert r == rows + [Bump(NewRow(it, n), i, it.qty)];
    forall x | 0 <= x < |r|
      ensures RowMatches(r[x], e, n)
    {
      if x == |rows| {
        NewRowMatches(boxes, it, n);
      } else {
        assert RowKeys(rows)[x] != k;
        KeptRowMatches(rows[x], boxes, it, n);
      }
    }
  }

  /** The appended row's key is the new key at the end of the boxes' first-appearance order. */
  lemma StepUnseenKeys(rows: seq<SkuRow>, boxes: seq<Box>, it: Item, n: nat)
    requires |boxes| > 0 && |boxes| <= n && Width(rows, n)
    requires RowKeys(rows) == Dedup(FlatKeys(boxes)) && FindRow(rows, Key(it)) == -1
    requires forall x :: x in Dedup(FlatKeys(boxes)) <==> x in FlatKeys(boxes)
    ensures RowKeys(Step(rows, |boxes| - 1, it, n)) == Dedup(FlatKeys(Extend(boxes, it)))
  {
    var i, k := |boxes| - 1, Key(it);
    var e := Extend(boxes, it);
    var nr := Bump(NewRow(it, n), i, it.qty);
    ExtendKeys(boxes, it);
    assert Step(rows, i, it, n) == rows + [nr];
    assert k !in FlatKeys(boxes);
    UpperIdempotent(it.sku);
    assert RowKey(nr) == k;
    assert RowKeys(rows + [nr]) == RowKeys(rows) + [k];
    assert FlatKeys(e)[..|FlatKeys(e)| - 1] == FlatKeys(boxes);
  }

  lemma ExtendKeys(boxes: seq<Box>, it: Item)
    requires |boxes| > 0
    ensures FlatKeys(Extend(boxes, it)) == FlatKeys(boxes) + [Key(it)]
  {
    ExtendCounts(boxes, it);
  }

  /** A row of another SKU still matches once the line is added. */
  lemma KeptRowMatches(row: SkuRow, boxes: seq<Box>, it: Item, n: nat)
    requires |boxes| > 0 && RowMatches(row, boxes, n) && RowKey(row) != Key(it)
    ensures RowMatches(row, Extend(boxes, it), n)
  {
    ExtendCounts(boxes, it);
  }

  /** The row of the line's SKU matches once its cell and total are bumped. */
  lemma {:induction false} BumpedRowMatches(row: SkuRow, boxes: seq<Box>, it: Item, n: nat)
    requires 0 < |boxes| <= n && RowMatches(row, boxes, n) && RowKey(row) == Key(it)
    ensures RowMatches(Bump(row, |boxes| - 1, it.qty), Extend(boxes, it), n)
  {
    var i, k := |boxes| - 1, Key(it);
    BumpedCells(row.boxQuantities, boxes, it, n);
    SumBump(row.boxQuantities, i, it.qty);
    ExtendQty(boxes, it, k);
  }

  /** Bumping the last box's cell of a SKU's column follows its line into that box. */
  lemma {:induction false} BumpedCells(bq: seq<int>, boxes: seq<Box>, it: Item, n: nat)
    requires 0 < |boxes| <= n && |bq| == n
    requires forall c :: 0 <= c < n ==> bq[c] == Cell(boxes, c, Key(it))
    ensures var i := |boxes| - 1;
      forall c :: 0 <= c < n ==> bq[i := bq[i] + it.qty][c] == Cell(Extend(boxes, it), c, Key(it))
  {
    var i := |boxes| - 1;
    forall c | 0 <= c < n
      ensures bq[i := bq[i] + it.qty][c] == Cell(Extend(boxes, it), c, Key(it))
    {
      ExtendCell(boxes, it, c, Key(it));
    }
  }

  lemma {:induction false} ExtendCell(boxes: seq<Box>, it: Item, c: nat, k: string)
    requires |boxes| > 0
    ensures Cell(Extend(boxes, it), c, k) == Cell(boxes, c, k) + (if c == |boxes| - 1 && k == Key(it) then it.qty else 0)
  {
    ExtendCounts(boxes, it);
  }

  lemma {:induction false} ExtendQty(boxes: seq<Box>, it: Item, k: string)
    requires |boxes| > 0
    ensures QtyOf(Extend(boxes, it), k) == QtyOf(boxes, k) + (if k == Key(it) then it.qty else 0)
  {
    ExtendCounts(boxes, it);
  }

  /** A fresh row bumped once holds the line's quantity in one cell and nothing elsewhere. */
  lemma NewRowShape(it: Item, n: nat, i: nat)
    requires i < n
    ensures var nr := Bump(NewRow(it, n), i, it.qty);
      && RowKey(nr) == Key(it)
      && |nr.boxQuantities| == n
      && (forall c :: 0 <= c < n ==> nr.boxQuantities[c] == if c == i then it.qty else 0)
      && nr.boxedQty == it.qty == Sum(nr.boxQuantities)
  {
    SumZeros(n);
    SumBump(seq(n, _ => 0), i, it.qty);
  }

  /** A SKU absent from the boxes has, after its line joins the last box, units in that box only. */
  lemma NewKeyCells(boxes: seq<Box>, it: Item, n: nat)
    requires 0 < |boxes| <= n
    requires Key(it) !in FlatKeys(boxes)
    ensures var e := Extend(boxes, it);
      && (forall c :: 0 <= c < n ==> Cell(e, c, Key(it)) == if c == |boxes| - 1 then it.qty else 0)
      && QtyOf(e, Key(it)) == it.qty
  {
    var k := Key(it);
    var e := Extend(boxes, it);
    ExtendCounts(boxes, it);
    AbsentKeyCells(boxes, k);
    forall c | 0 <= c < n
      ensures Cell(e, c, k) == if c == |boxes| - 1 then it.qty else 0
    {
      assert Cell(e, c, k) == Cell(boxes, c, k) + (if c == |boxes| - 1 then it.qty else 0);
      if c < |boxes| {
        assert QtyIn(boxes[c].items, k) == 0;
      }
    }
  }

  /** The row a new SKU's first line creates matches the extended boxes. */
  lemma {:induction false} NewRowMatches(boxes: seq<Box>, it: Item, n: nat)
    requires 0 < |boxes| <= n
    requires Key(it) !in FlatKeys(boxes)
    ensures RowMatches(Bump(NewRow(it, n), |boxes| - 1, it.qty), Extend(boxes, it), n)
  {
    NewRowShape(it, n, |boxes| - 1);
    NewKeyCells(boxes, it, n);
  }

  lemma NewBoxTabulates(rows: seq<SkuRow>, boxes: seq<Box>, b: Box, n: nat)
    requires Tabulates(rows, boxes, n) && |boxes| < n && b.items == []
    ensures Tabulates(rows, boxes + [b], n)
  {
    var e := boxes + [b];
    assert e[..|boxes|] == boxes;
    assert ItemKeySeq(b.items) == [];
    assert FlatKeys(e) == FlatKeys(boxes);
    assert forall k :: QtyOf(e, k) == QtyOf(boxes, k);
  }

  lemma {:induction false} TallyItemsTabulates(rows: seq<SkuRow>, pre: seq<Box>, b: Box, items: seq<Item>, n: nat)
    requires |pre| < n && Tabulates(rows, pre + [b.(items := [])], n)
    ensures Tabulates(TallyItems(rows, |pre|, items, n), pre + [b.(items := items)], n)
    decreases |items|
  {
    if |items| == 0 {
      assert b.(items := items) == b.(items := []);
    } else {
      var m := |items| - 1;
      TallyItemsTabulates(rows, pre, b, items[..m], n);
      var before := pre + [b.(items := items[..m])];
      StepTabulates(TallyItems(rows, |pre|, items[..m], n), before, items[m], n);
      assert Extend(before, items[m]) == pre + [b.(items := items)] by {
        assert items[..m] + [items[m]] == items;
        assert before[..|pre|] == pre;
      }
    }
  }

  lemma {:induction false} TallyBoxesTabulates(boxes: seq<Box>, n: nat)
    requires |boxes| <= n
    ensures Tabulates(TallyBoxes(boxes, n), boxes, n)
    decreases |boxes|
  {
    if |boxes| > 0 {
      var m := |boxes| - 1;
      var pre := boxes[..m];
      TallyBoxesTabulates(pre, n);
      NewBoxTabulates(TallyBoxes(pre, n), pre, boxes[m].(items := []), n);
      TallyItemsTabulates(TallyBoxes(pre, n), pre, boxes[m], boxes[m].items, n);
      assert pre + [boxes[m].(items := boxes[m].items)] == boxes;
    }
  }

  /**
   * The `skus` of `getPackGroupData`: one row per upper-cased SKU in order
   * of first appearance, a cell per box holding that box's units of the
   * SKU, and `expectedQty = boxedQty` = the sum of the cells = the SKU's
   * units across the shipment.
   */
  function ProjectSkus(s: Shipment): (rows: seq<SkuRow>)
    ensures RowKeys(rows) == Dedup(FlatKeys(s.boxes))
    ensures forall r :: 0 <= r < |rows| ==> |rows[r].boxQuantities| == |s.boxes|
    ensures forall r, i :: 0 <= r < |rows| && 0 <= i < |s.boxes| ==>
      rows[r].boxQuantities[i] == QtyIn(s.boxes[i].items, RowKey(rows[r]))
    ensures forall r :: 0 <= r < |rows| ==>
      rows[r].expectedQty == rows[r].boxedQty == Sum(rows[r].boxQuantities) == QtyOf(s.boxes, RowKey(rows[r]))
  {
    var t := TallyBoxes(s.boxes, |s.boxes|);
    TallyBoxesTabulates(s.boxes, |s.boxes|);
    var rows := seq(|t|, r requires 0 <= r < |t| => t[r].(expectedQty := t[r].boxedQty));
    assert RowKeys(rows) == RowKeys(t);
    rows
  }

  /** Every SKU of the shipment gets exactly one row, and no other row exists. */
  lemma ProjectionListsEachSkuOnce(s: Shipment)
    ensures Distinct(RowKeys(ProjectSkus(s)))
    ensures forall k :: k in RowKeys(ProjectSkus(s)) <==>
      exists i, j :: 0 <= i < |s.boxes| && 0 <= j < |s.boxes[i].items| && Key(s.boxes[i].items[j]) == k
  {
    DedupFacts(FlatKeys(s.boxes));
    forall k ensures k in RowKeys(ProjectSkus(s)) <==>
      exists i, j :: 0 <= i < |s.boxes| && 0 <= j < |s.boxes[i].items| && Key(s.boxes[i].items[j]) == k
    {
      FlatKeysMembers(s.boxes, k);
    }
  }

  /** `box.dimensions?.x || 0` for each measure. */
  function Measure(d: Option<Dimensions>): (real, real, real)
  {
    if d.Some? then (d.value.length, d.value.width, d.value.height) else (0.0, 0.0, 0.0)
  }

  /** One detail per box, in order: the name falls back to the number, missing measures to 0. */
  function ProjectBoxes(boxes: seq<Box>): (r: seq<BoxDetail>)
    ensures |r| == |boxes|
    ensures forall i :: 0 <= i < |boxes| ==> r[i].boxNo == boxes[i].boxNo && r[i].boxWeight == boxes[i].boxWeight
    ensures forall i :: 0 <= i < |boxes| ==> r[i].boxName == (if boxes[i].boxName != "" then boxes[i].boxName else boxes[i].boxNo)
    ensures forall i :: 0 <= i < |boxes| && boxes[i].dimensions.None? ==> r[i].length == r[i].width == r[i].height == 0.0
  {
    seq(|boxes|, i requires 0 <= i < |boxes| =>
      var m := Measure(boxes[i].dimensions);
      BoxDetail(boxes[i].boxNo, OrString(boxes[i].boxName, boxes[i].boxNo), boxes[i].boxWeight, m.0, m.1, m.2))
  }

  /** `getPackGroupData`: the matrix, the box details and the header with its defaults. */
  function Project(s: Shipment): (r: PackGroupData)
    ensures r.packGroup == (if s.packGroup != "" then s.packGroup else "1")
    ensures r.skus == ProjectSkus(s) && r.boxes == ProjectBoxes(s.boxes)
    ensures r.fbaShipmentId == s.fbaShipmentId && r.destination == s.destination
  {
    PackGroupData(OrString(s.packGroup, "1"), s.fbaShipmentId, s.destination, s.totalSKUs, s.totalItems, s.totalBoxes,
                  ProjectSkus(s), ProjectBoxes(s.boxes))
  }

  /** On a saved shipment the header totals agree with the matrix: one SKU count per row, units summed over rows' boxes. */
  lemma ProjectHeaderTotals(s: Shipment)
    requires Persisted(s)
    ensures Project(s).totalSKUs == |Project(s).skus|
    ensures Project(s).totalItems == TotalQty(s.boxes)
    ensures Project(s).totalBoxes == |Project(s).boxes|
  {
    RecomputeTotals(s);
    DedupIsKeySet(s.boxes);
  }

  /** The number of rows is the number of distinct keys, the hook's `totalSKUs`. */
  lemma DedupIsKeySet(boxes: seq<Box>)
    ensures |Dedup(FlatKeys(boxes))| == |AllKeys(boxes)|
  {
    var d := Dedup(FlatKeys(boxes));
    DedupFacts(FlatKeys(boxes));
    forall k ensures k in d <==> k in AllKeys(boxes) {
      FlatKeysMembers(boxes, k);
      if k in AllKeys(boxes) {
        var i, j :| 0 <= i < |boxes| && 0 <= j < |boxes[i].items| && Key(boxes[i].items[j]) == k;
      }
    }
    DistinctCard(d);
    assert AllKeys(boxes) == set x | x in d;
  }

  lemma {:induction false} DistinctCard(ks: seq<string>)
    requires Distinct(ks)
    ensures |set x | x in ks| == |ks|
    decreases |ks|
  {
    if |ks| > 0 {
      var p := ks[..|ks| - 1];
      DistinctCard(p);
      assert (set x | x in ks) == (set x | x in p) + {ks[|ks| - 1]};
      assert ks[|ks| - 1] !in p;
    }
  }

  // ---------------------------------------------------------------------------
  // The build (createFromPackGroup)
  // ---------------------------------------------------------------------------

  /** A box of the request; a missing text is "" and a missing measure 0. */
  datatype BoxSpec = BoxSpec(boxNo: string, boxName: string, boxWeight: real, length: real, width: real, height: real, notes: string)

  /** The pack-group data a shipment is built from, after the controller's defaults. */
  datatype Request = Request(packGroup: string, fbaShipmentId: string, destination: string, boxes: seq<BoxSpec>, skus: seq<SkuRow>)

  /** What the inventory lookup returns for one requested SKU. */
  datatype Resolved = Resolved(sku: string, name: string, meta: ItemMeta, unitWeight: real)

  /** One inventory lookup by upper-cased SKU: the record's catalogue fields win, the row's fill the gaps. */
  function ResolveRow(l: Inventory.Ledger, row: SkuRow): (r: Result<Resolved>)
    ensures r.Ok? <==> RowKey(row) in l
    ensures r.Err? ==> r.error == UnknownSku(row.sku)
    ensures r.Ok? ==> r.value.sku == l[RowKey(row)].sku && r.value.unitWeight == l[RowKey(row)].unitWeight
    ensures r.Ok? && l[RowKey(row)].condition != "" ==> r.value.meta.condition == l[RowKey(row)].condition
    ensures r.Ok? && l[RowKey(row)].condition == "" ==> r.value.meta.condition == row.meta.condition
  {
    var k := RowKey(row);
    if k !in l then Err(UnknownSku(row.sku))
    else
      var u := l[k];
      Ok(Resolved(u.sku, u.name,
                  ItemMeta(OrString(u.productId, row.meta.productId), OrString(u.asin, row.meta.asin),
                           OrString(u.fnsku, row.meta.fnsku), OrString(u.condition, row.meta.condition),
                           OrString(u.prepType, row.meta.prepType)),
                  u.unitWeight))
  }

  /** Every requested SKU looked up; the first one missing stops the build. */
  function ResolveAll(l: Inventory.Ledger, rows: seq<SkuRow>): (r: Result<seq<Resolved>>)
    ensures r.Ok? <==> forall j :: 0 <= j < |rows| ==> RowKey(rows[j]) in l
    ensures r.Ok? ==> |r.value| == |rows| && forall j :: 0 <= j < |rows| ==> r.value[j] == ResolveRow(l, rows[j]).value
    ensures r.Err? ==> exists j :: 0 <= j < |rows| && RowKey(rows[j]) !in l && r.error == UnknownSku(rows[j].sku)
    decreases |rows|
  {
    if |rows| == 0 then Ok([])
    else
      var n := |rows| - 1;
      var p :- ResolveAll(l, rows[..n]);
      var x :- ResolveRow(l, rows[n]);
      Ok(p + [x])
  }

  /** `inventoryValidation.find(inv => inv.sku === key)`: the first lookup result with that SKU. */
  function FindResolved(rs: seq<Resolved>, k: string): (r: Option<Resolved>)
    ensures r.Some? <==> exists j :: 0 <= j < |rs| && rs[j].sku == k
    ensures r.Some? ==> r.value.sku == k && r.value in rs
    decreases |rs|
  {
    if |rs| == 0 then None
    else if rs[0].sku == k then Some(rs[0])
    else
      var r := FindResolved(rs[1..], k);
      assert forall j :: 1 <= j < |rs| ==> rs[j] == rs[1..][j - 1];
      r
  }

  /** The row asks for units in box `i`. */
  predicate Positive(row: SkuRow, i: nat)
  {
    i < |row.boxQuantities| && row.boxQuantities[i] > 0
  }

  /** Reference: units of key `k` the rows ask for in box `i`, counting only positive cells. */
  function RowsQty(rows: seq<SkuRow>, i: nat, k: string): int
  {
    if |rows| == 0 then 0
    else
      var row := rows[|rows| - 1];
      RowsQty(rows[..|rows| - 1], i, k) + (if Positive(row, i) && RowKey(row) == k then row.boxQuantities[i] else 0)
  }

  /** The rows with a positive cell in box `i`, in order. */
  function PositiveRows(rows: seq<SkuRow>, i: nat): (p: seq<SkuRow>)
    ensures forall x :: 0 <= x < |p| ==> Positive(p[x], i) && p[x] in rows
    ensures forall j :: 0 <= j < |rows| && Positive(rows[j], i) ==> rows[j] in p
    ensures |p| <= |rows|
  {
    if |rows| == 0 then []
    else
      var q := PositiveRows(rows[..|rows| - 1], i);
      assert forall j :: 0 <= j < |rows| - 1 ==> rows[j] == rows[..|rows| - 1][j];
      if Positive(rows[|rows| - 1], i) then q + [rows[|rows| - 1]] else q
  }

  /** Positions of the rows with a positive cell in box `i`, strictly increasing. */
  function PositiveIndices(rows: seq<SkuRow>, i: nat): (idx: seq<nat>)
    ensures forall x :: 0 <= x < |idx| ==> idx[x] < |rows| && Positive(rows[idx[x]], i)
    ensures forall x, y :: 0 <= x < y < |idx| ==> idx[x] < idx[y]
  {
    if |rows| == 0 then []
    else
      var n := |rows| - 1;
      var q := PositiveIndices(rows[..n], i);
      assert forall j :: 0 <= j < n ==> rows[j] == rows[..n][j];
      if Positive(rows[n], i) then q + [n] else q
  }

  /** Every position with a positive cell is listed. */
  lemma {:induction false} PositiveIndicesComplete(rows: seq<SkuRow>, i: nat)
    ensures forall j :: 0 <= j < |rows| && Positive(rows[j], i) ==> j in PositiveIndices(rows, i)
    decreases |rows|
  {
    if |rows| > 0 {
      var n := |rows| - 1;
      PositiveIndicesComplete(rows[..n], i);
      assert forall j :: 0 <= j < n ==> rows[j] == rows[..n][j];
    }
  }

  /** `p` lists the rows of `rows` at the positions `idx`, in that order. */
  predicate IndexedBy(p: seq<SkuRow>, rows: seq<SkuRow>, idx: seq<nat>)
  {
    |p| == |idx| && forall x :: 0 <= x < |p| ==> idx[x] < |rows| && p[x] == rows[idx[x]]
  }

  /** Extending the rows keeps an indexing valid, and appending the last row and its position extends it. */
  lemma IndexedSnoc(q: seq<SkuRow>, rows: seq<SkuRow>, qi: seq<nat>)
    requires |rows| > 0 && IndexedBy(q, rows[..|rows| - 1], qi)
    ensures IndexedBy(q, rows, qi)
    ensures IndexedBy(q + [rows[|rows| - 1]], rows, qi + [|rows| - 1])
  {
    var n := |rows| - 1;
    forall x | 0 <= x < |q|
      ensures q[x] == rows[qi[x]]
    {
      assert rows[..n][qi[x]] == rows[qi[x]];
    }
  }

  /**
   * The rows kept for box `i` are exactly the rows at the positive
   * positions, in row order and once each: the filter keeps order and
   * multiplicity, not only membership.
   */
  lemma {:induction false} PositiveRowsIndexed(rows: seq<SkuRow>, i: nat)
    ensures IndexedBy(PositiveRows(rows, i), rows, PositiveIndices(rows, i))
    decreases |rows|
  {
    if |rows| > 0 {
      var n := |rows| - 1;
      PositiveRowsIndexed(rows[..n], i);
      IndexedSnoc(PositiveRows(rows[..n], i), rows, PositiveIndices(rows[..n], i));
    }
  }

  /** The item line built for a row with a positive cell in box `i`. */
  function LineFor(row: SkuRow, inv: Resolved, i: nat): Item
    requires Positive(row, i)
  {
    Item(row.sku, row.productName, inv.meta, row.boxQuantities[i], row.expectedQty, inv.unitWeight, 0.0)
  }

  /** Every row with a positive cell in box `i` has a lookup result to read. */
  predicate Found(rows: seq<SkuRow>, rs: seq<Resolved>, i: nat)
  {
    var p := PositiveRows(rows, i);
    forall x :: 0 <= x < |p| ==> FindResolved(rs, RowKey(p[x])).Some?
  }

  /**
   * The lines of box `i`: one per row with a positive cell, in row order,
   * carrying the looked-up catalogue fields and weight. A row whose lookup
   * result cannot be found fails as reading a field of `undefined` would.
   */
  function BoxLines(rows: seq<SkuRow>, rs: seq<Resolved>, i: nat): (r: Result<seq<Item>>)
    ensures r.Ok? <==> Found(rows, rs, i)
    ensures r.Ok? ==> var p := PositiveRows(rows, i);
      && |r.value| == |p|
      && forall x :: 0 <= x < |p| ==> r.value[x] == LineFor(p[x], FindResolved(rs, RowKey(p[x])).value, i)
    ensures r.Ok? ==> forall k :: QtyIn(r.value, k) == RowsQty(rows, i, k)
    decreases |rows|
  {
    if |rows| == 0 then Ok([])
    else
      var n := |rows| - 1;
      var row := rows[n];
      var p := BoxLines(rows[..n], rs, i);
      if p.Err? then p
      else if !Positive(row, i) then p
      else
        match FindResolved(rs, RowKey(row))
        case None => Err(UndefinedLookup(row.sku))
        case Some(inv) =>
          var line := LineFor(row, inv, i);
          LinesAppend(p.value, line);
          Ok(p.value + [line])
  }

  lemma LinesAppend(p: seq<Item>, line: Item)
    ensures forall k :: QtyIn(p + [line], k) == QtyIn(p, k) + (if Key(line) == k then line.qty else 0)
  {
    QtyInSingle(line);
    forall k ensures QtyIn(p + [line], k) == QtyIn(p, k) + (if Key(line) == k then line.qty else 0) {
      QtyInConcat(p, [line], k);
    }
  }

  /** Box `i` of the request with the defaults filled in: number, name, weight and measures. */
  function BuildBox(req: Request, i: nat, lines: seq<Item>): (b: Box)
    requires i < |req.boxes|
    ensures b.boxNo == (if req.boxes[i].boxNo != "" then req.boxes[i].boxNo else "BOX" + Ids.Decimal(i + 1))
    ensures b.boxName == (if req.boxes[i].boxName != "" then req.boxes[i].boxName else "P" + req.packGroup + "-B" + Ids.Decimal(i + 1))
    ensures b.dimensions.Some? && b.items == NormalizeItems(lines)
  {
    var spec := req.boxes[i];
    NormalizeBox(Box(OrString(spec.boxNo, "BOX" + Ids.Decimal(i + 1)),
                     OrString(spec.boxName, "P" + req.packGroup + "-B" + Ids.Decimal(i + 1)),
                     lines, spec.boxWeight,
                     Some(Dimensions(spec.length, spec.width, spec.height)),
                     spec.notes))
  }

  /** The first `m` boxes of the request, each with its lines. */
  function BuildBoxes(req: Request, rs: seq<Resolved>, m: nat): (r: Result<seq<Box>>)
    requires m <= |req.boxes|
    ensures r.Ok? <==> forall i :: 0 <= i < m ==> Found(req.skus, rs, i)
    ensures r.Ok? ==> |r.value| == m
    ensures r.Ok? ==> forall i :: 0 <= i < m ==> r.value[i] == BuildBox(req, i, BoxLines(req.skus, rs, i).value)
    decreases m
  {
    if m == 0 then Ok([])
    else
      var p := BuildBoxes(req, rs, m - 1);
      var lines := BoxLines(req.skus, rs, m - 1);
      if p.Err? then p
      else if lines.Err? then Err(lines.error)
      else
        var r := p.value + [BuildBox(req, m - 1, lines.value)];
        assert forall i :: 0 <= i < m - 1 ==> r[i] == p.value[i];
        Ok(r)
  }

  /** A built box holds, per SKU, exactly the units the rows ask for in it. */
  lemma BuiltBoxCounts(req: Request, rs: seq<Resolved>, i: nat)
    requires i < |req.boxes| && Found(req.skus, rs, i)
    ensures forall k :: QtyIn(BuildBox(req, i, BoxLines(req.skus, rs, i).value).items, k) == RowsQty(req.skus, i, k)
  {
    NormalizedCounts(BoxLines(req.skus, rs, i).value);
  }

  /** The unsaved draft the build assembles. */
  function Assembled(req: Request, boxes: seq<Box>): Shipment
  {
    Shipment("", req.packGroup, Upper(req.fbaShipmentId), req.destination, Draft, boxes, 0, 0, 0, 0.0, "", "", None)
  }

  /**
   * `createFromPackGroup`: look every SKU up, build one box per requested
   * box with a line for each positive cell, and save the result as a draft
   * with its identifier. No stock moves.
   */
  function CreateFromPackGroup(l: Inventory.Ledger, req: Request, year: nat, count: nat): (r: Result<Shipment>)
    ensures (exists j :: 0 <= j < |req.skus| && RowKey(req.skus[j]) !in l) ==> r.Err? && r.error.UnknownSku?
    ensures r.Ok? ==> r.value.status == Draft && r.value.shipmentId == Ids.FormatId("SHP", year, count)
    ensures r.Ok? ==> Persisted(r.value) && ShipmentValid(r.value)
    ensures r.Ok? ==> |r.value.boxes| == |req.boxes|
    ensures r.Ok? ==> forall i, k :: 0 <= i < |req.boxes| ==> QtyIn(r.value.boxes[i].items, k) == RowsQty(req.skus, i, k)
  {
    var rs :- ResolveAll(l, req.skus);
    var boxes :- BuildBoxes(req, rs, |req.boxes|);
    var saved :- Save(Assembled(req, boxes));
    SaveKeepsValid(Assembled(req, boxes));
    RecomputeKeepsCells(boxes);
    BuiltBoxesCounts(req, rs);
    Ok(AssignShipmentId(saved, year, count))
  }

  lemma BuiltBoxesCounts(req: Request, rs: seq<Resolved>)
    requires BuildBoxes(req, rs, |req.boxes|).Ok?
    ensures var boxes := BuildBoxes(req, rs, |req.boxes|).value;
      forall i, k :: 0 <= i < |boxes| ==> QtyIn(boxes[i].items, k) == RowsQty(req.skus, i, k)
  {
    forall i | 0 <= i < |req.boxes|
      ensures forall k :: QtyIn(BuildBoxes(req, rs, |req.boxes|).value[i].items, k) == RowsQty(req.skus, i, k)
    {
      BuiltBoxCounts(req, rs, i);
    }
  }

  lemma RecomputeKeepsCells(boxes: seq<Box>)
    ensures forall i, k :: 0 <= i < |boxes| ==> QtyIn(RecomputeBoxes(boxes)[i].items, k) == QtyIn(boxes[i].items, k)
  {
    forall i | 0 <= i < |boxes|
      ensures forall k :: QtyIn(RecomputeBoxes(boxes)[i].items, k) == QtyIn(boxes[i].items, k)
    {
      SameCountsQty(boxes[i].items, RecomputeBoxes(boxes)[i].items);
    }
  }

  /** With distinct row keys, box `i` asks for the one row's positive cell of `k`, or nothing. */
  lemma {:induction false} DistinctRowsQty(rows: seq<SkuRow>, i: nat, k: string)
    requires Distinct(RowKeys(rows))
    ensures k !in RowKeys(rows) ==> RowsQty(rows, i, k) == 0
    ensures forall x :: 0 <= x < |rows| && RowKey(rows[x]) == k ==>
      RowsQty(rows, i, k) == if Positive(rows[x], i) then rows[x].boxQuantities[i] else 0
    decreases |rows|
  {
    if |rows| > 0 {
      var n := |rows| - 1;
      var p := rows[..n];
      assert RowKeys(p) == RowKeys(rows)[..n];
      DistinctRowsQty(p, i, k);
      forall x | 0 <= x < n
        ensures p[x] == rows[x] && RowKeys(rows)[x] == RowKey(rows[x])
      {
      }
      if RowKey(rows[n]) == k {
        assert RowKeys(rows)[n] == k;
        assert k !in RowKeys(p);
      }
    }
  }

  /** The request a client sends back after reading the projection, unchanged. */
  function RequestOf(d: PackGroupData): Request
  {
    Request(d.packGroup, d.fbaShipmentId, d.destination,
            seq(|d.boxes|, i requires 0 <= i < |d.boxes| =>
              BoxSpec(d.boxes[i].boxNo, d.boxes[i].boxName, d.boxes[i].boxWeight,
                      d.boxes[i].length, d.boxes[i].width, d.boxes[i].height, "")),
            d.skus)
  }

  /**
   * Projecting a valid shipment and building a shipment from the projection
   * puts the same units of every SKU into every box: the matrix loses
   * nothing about quantities, whatever order the lines had.
   */
  lemma ProjectThenCreate(l: Inventory.Ledger, s: Shipment, year: nat, count: nat)
    requires ShipmentValid(s)
    requires CreateFromPackGroup(l, RequestOf(Project(s)), year, count).Ok?
    ensures var r := CreateFromPackGroup(l, RequestOf(Project(s)), year, count).value;
      && |r.boxes| == |s.boxes|
      && forall i, k :: 0 <= i < |s.boxes| ==> QtyIn(r.boxes[i].items, k) == QtyIn(s.boxes[i].items, k)
  {
    var req := RequestOf(Project(s));
    var r := CreateFromPackGroup(l, req, year, count).value;
    forall i, k | 0 <= i < |s.boxes|
      ensures RowsQty(req.skus, i, k) == QtyIn(s.boxes[i].items, k)
    {
      ProjectedCell(s, i, k);
    }
  }

  /** A row the schema would accept as the source of a line: SKU, name and listed catalogue values. */
  predicate RowSavable(row: SkuRow)
  {
    row.sku != "" && row.productName != "" && MetaValid(row.meta)
  }

  predicate RowsSavable(rows: seq<SkuRow>)
  {
    forall j :: 0 <= j < |rows| ==> RowSavable(rows[j])
  }

  /** A row started from a valid line, or bumped, stays savable. */
  lemma StepSavable(rows: seq<SkuRow>, i: nat, it: Item, n: nat)
    requires Width(rows, n) && i < n && RowsSavable(rows) && ItemValid(it)
    ensures RowsSavable(Step(rows, i, it, n))
  {
    var j := FindRow(rows, Key(it));
    if j < 0 {
      var r := Step(rows, i, it, n);
      assert r[|rows|] == Bump(NewRow(it, n), i, it.qty);
      assert forall x :: 0 <= x < |rows| ==> r[x] == rows[x];
    }
  }

  lemma {:induction false} TallyItemsSavable(rows: seq<SkuRow>, i: nat, items: seq<Item>, n: nat)
    requires Width(rows, n) && i < n && RowsSavable(rows)
    requires forall j :: 0 <= j < |items| ==> ItemValid(items[j])
    ensures RowsSavable(TallyItems(rows, i, items, n))
    decreases |items|
  {
    if |items| > 0 {
      var m := |items| - 1;
      TallyItemsSavable(rows, i, items[..m], n);
      StepSavable(TallyItems(rows, i, items[..m], n), i, items[m], n);
    }
  }

  lemma {:induction false} TallyBoxesSavable(boxes: seq<Box>, n: nat)
    requires |boxes| <= n && forall i :: 0 <= i < |boxes| ==> BoxValid(boxes[i])
    ensures RowsSavable(TallyBoxes(boxes, n))
    decreases |boxes|
  {
    if |boxes| > 0 {
      var m := |boxes| - 1;
      TallyBoxesSavable(boxes[..m], n);
      TallyItemsSavable(TallyBoxes(boxes[..m], n), m, boxes[m].items, n);
    }
  }

  /**
   * The projection of a valid shipment, sent back unchanged, is a request
   * the schema accepts: the destination is present, every row carries the
   * SKU, name and listed catalogue values of a valid line, and every box's
   * weight and measures are non-negative.
   */
  lemma ProjectedRequestSavable(s: Shipment)
    requires ShipmentValid(s)
    ensures RequestSavable(RequestOf(Project(s)))
  {
    var t := TallyBoxes(s.boxes, |s.boxes|);
    TallyBoxesSavable(s.boxes, |s.boxes|);
    var rows := ProjectSkus(s);
    assert rows == seq(|t|, r requires 0 <= r < |t| => t[r].(expectedQty := t[r].boxedQty));
    assert forall j :: 0 <= j < |rows| ==> RowSavable(t[j]) && rows[j] == t[j].(expectedQty := t[j].boxedQty);
    var req := RequestOf(Project(s));
    forall i | 0 <= i < |req.boxes|
      ensures BoxSpecSavable(req.boxes[i])
    {
      assert BoxValid(s.boxes[i]);
    }
  }

  /**
   * The round trip succeeds: against a valid ledger that stores every SKU of
   * a valid shipment, building from the shipment's projection always
   * succeeds, and every box gets the same units of every SKU.
   */
  lemma ProjectRebuilds(l: Inventory.Ledger, s: Shipment, year: nat, count: nat)
    requires ShipmentValid(s) && Inventory.LedgerValid(l)
    requires forall i, j :: 0 <= i < |s.boxes| && 0 <= j < |s.boxes[i].items| ==> Key(s.boxes[i].items[j]) in l
    ensures CreateFromPackGroup(l, RequestOf(Project(s)), year, count).Ok?
    ensures var r := CreateFromPackGroup(l, RequestOf(Project(s)), year, count).value;
      && |r.boxes| == |s.boxes|
      && forall i, k :: 0 <= i < |s.boxes| ==> QtyIn(r.boxes[i].items, k) == QtyIn(s.boxes[i].items, k)
  {
    var req := RequestOf(Project(s));
    ProjectedRequestSavable(s);
    ProjectionListsEachSkuOnce(s);
    forall j | 0 <= j < |req.skus|
      ensures RowKey(req.skus[j]) in l
    {
      var k := RowKey(req.skus[j]);
      assert RowKeys(req.skus)[j] == k;
      assert k in RowKeys(ProjectSkus(s));
      var i, x :| 0 <= i < |s.boxes| && 0 <= x < |s.boxes[i].items| && Key(s.boxes[i].items[x]) == k;
    }
    CreateSucceeds(l, req, year, count);
    ProjectThenCreate(l, s, year, count);
  }

  /** The rows of the projection ask box `i` for exactly its units of `k`. */
  lemma ProjectedCell(s: Shipment, i: nat, k: string)
    requires ShipmentValid(s) && i < |s.boxes|
    ensures RowsQty(ProjectSkus(s), i, k) == QtyIn(s.boxes[i].items, k)
  {
    var rows := ProjectSkus(s);
    DedupFacts(FlatKeys(s.boxes));
    DistinctRowsQty(rows, i, k);
    if k in RowKeys(rows) {
      var x :| 0 <= x < |rows| && RowKeys(rows)[x] == k;
      assert BoxValid(s.boxes[i]);
      QtyInNonNegative(s.boxes[i].items, k);
    } else {
      AbsentKeyCells(s.boxes, k);
    }
  }

  /** With the ledger keyed by its records' SKUs, every looked-up row finds its result again. */
  lemma ResolvedAreFound(l: Inventory.Ledger, rows: seq<SkuRow>, i: nat)
    requires Inventory.KeysNormalized(l) && ResolveAll(l, rows).Ok?
    ensures Found(rows, ResolveAll(l, rows).value, i)
  {
    var rs := ResolveAll(l, rows).value;
    var p := PositiveRows(rows, i);
    forall x | 0 <= x < |p|
      ensures FindResolved(rs, RowKey(p[x])).Some?
    {
      var j :| 0 <= j < |rows| && rows[j] == p[x];
      assert rs[j].sku == RowKey(p[x]);
    }
  }

  /** What the schema will accept of a request, field by field. */
  predicate RequestSavable(req: Request)
  {
    && req.destination != ""
    && (forall j :: 0 <= j < |req.skus| ==> req.skus[j].sku != "" && req.skus[j].productName != "" && MetaValid(req.skus[j].meta))
    && (forall i :: 0 <= i < |req.boxes| ==> BoxSpecSavable(req.boxes[i]))
  }

  predicate BoxSpecSavable(b: BoxSpec)
  {
    b.boxWeight >= 0.0 && b.length >= 0.0 && b.width >= 0.0 && b.height >= 0.0
  }

  /**
   * Against a valid ledger, a savable request fails exactly when one of its
   * SKUs is unknown: the lookup of a built line never comes back empty and
   * the saved draft always passes validation.
   */
  lemma CreateSucceeds(l: Inventory.Ledger, req: Request, year: nat, count: nat)
    requires Inventory.LedgerValid(l) && RequestSavable(req)
    ensures CreateFromPackGroup(l, req, year, count).Ok? <==> forall j :: 0 <= j < |req.skus| ==> RowKey(req.skus[j]) in l
  {
    if forall j :: 0 <= j < |req.skus| ==> RowKey(req.skus[j]) in l {
      var rs := ResolveAll(l, req.skus).value;
      BuiltBoxesValid(l, req);
    }
  }

  /** Once every SKU resolves, every box of a savable request builds and the assembled draft passes validation. */
  lemma BuiltBoxesValid(l: Inventory.Ledger, req: Request)
    requires Inventory.LedgerValid(l) && RequestSavable(req)
    requires ResolveAll(l, req.skus).Ok?
    ensures var b := BuildBoxes(req, ResolveAll(l, req.skus).value, |req.boxes|);
      b.Ok? && ShipmentValid(Assembled(req, b.value))
  {
    var rs := ResolveAll(l, req.skus).value;
    forall i | 0 <= i < |req.boxes|
      ensures Found(req.skus, rs, i)
    {
      ResolvedAreFound(l, req.skus, i);
    }
    var boxes := BuildBoxes(req, rs, |req.boxes|).value;
    forall i | 0 <= i < |boxes|
      ensures BoxValid(boxes[i])
    {
      BuiltBoxValid(l, req, i);
    }
  }

  /** The looked-up catalogue fields pass the enumerations when the record's and the row's do. */
  lemma ResolvedMetaValid(l: Inventory.Ledger, row: SkuRow)
    requires RowKey(row) in l && Inventory.Persistable(l[RowKey(row)]) && MetaValid(row.meta)
    ensures MetaValid(ResolveRow(l, row).value.meta)
  {
  }

  lemma BuiltBoxValid(l: Inventory.Ledger, req: Request, i: nat)
    requires Inventory.LedgerValid(l) && RequestSavable(req) && i < |req.boxes|
    requires ResolveAll(l, req.skus).Ok?
    ensures var rs := ResolveAll(l, req.skus).value;
      BoxLines(req.skus, rs, i).Ok? && BoxValid(BuildBox(req, i, BoxLines(req.skus, rs, i).value))
  {
    var rs := ResolveAll(l, req.skus).value;
    ResolvedAreFound(l, req.skus, i);
    var lines := BoxLines(req.skus, rs, i).value;
    var p := PositiveRows(req.skus, i);
    var b := BuildBox(req, i, lines);
    assert b.boxNo != "" by {
      if req.boxes[i].boxNo == "" {
        assert |"BOX" + Ids.Decimal(i + 1)| > 0;
      }
    }
    forall x | 0 <= x < |b.items|
      ensures ItemValid(b.items[x])
    {
      var row := p[x];
      var inv := FindResolved(rs, RowKey(row)).value;
      var j :| 0 <= j < |req.skus| && req.skus[j] == row;
      var j' :| 0 <= j' < |rs| && rs[j'] == inv;
      assert inv.unitWeight == l[RowKey(req.skus[j'])].unitWeight;
      ResolvedMetaValid(l, req.skus[j']);
      UpperEmpty(row.sku);
    }
  }

  // ---------------------------------------------------------------------------
  // The edit (updateBoxDistribution)
  // ---------------------------------------------------------------------------

  /** One entry of `distributionData`: a SKU and its wanted units per box. */
  datatype Dist = Dist(sku: string, boxQuantities: seq<int>)

  const CannotModify := "Cannot modify a non-draft shipment"

  function CannotAdd(sku: string, i: nat): string
  {
    "Cannot add new SKU " + sku + " to box " + Ids.Decimal(i) + ". Use addItemToBox instead."
  }

  /** No two lines of a box share a SKU, as `addItemToBox` keeps it. */
  predicate UniqueLines(items: seq<Item>)
  {
    forall a, b :: 0 <= a < b < |items| ==> Key(items[a]) != Key(items[b])
  }

  predicate AllUnique(boxes: seq<Box>)
  {
    forall b :: 0 <= b < |boxes| ==> UniqueLines(boxes[b].items)
  }

  /** `items.splice(j, 1)`. */
  function RemoveLine(items: seq<Item>, j: nat): (r: seq<Item>)
    requires j < |items|
    ensures |r| == |items| - 1
  {
    items[..j] + items[j + 1..]
  }

  /**
   * One cell: a positive quantity overwrites the first matching line's
   * quantity, or fails when the box has no line of that SKU; any other
   * quantity removes the first matching line, if there is one.
   */
  function ApplyCell(boxes: seq<Box>, i: nat, sku: string, q: int): (r: Result<seq<Box>>)
    requires i < |boxes|
    ensures r.Err? <==> q > 0 && FindKey(boxes[i].items, Upper(sku)) == -1
    ensures r.Err? ==> r.error == BadRequest(CannotAdd(sku, i))
    ensures r.Ok? ==> |r.value| == |boxes| && forall b :: 0 <= b < |boxes| && b != i ==> r.value[b] == boxes[b]
    ensures r.Ok? ==> r.value[i].(items := boxes[i].items) == boxes[i]
    ensures r.Ok? && q > 0 ==> var items, j := boxes[i].items, FindKey(boxes[i].items, Upper(sku));
      && |r.value[i].items| == |items|
      && r.value[i].items[j] == items[j].(qty := q)
      && forall x :: 0 <= x < |items| && x != j ==> r.value[i].items[x] == items[x]
    ensures q <= 0 && FindKey(boxes[i].items, Upper(sku)) >= 0 ==> var items, j := boxes[i].items, FindKey(boxes[i].items, Upper(sku));
      && r.Ok? && |r.value[i].items| == |items| - 1
      && (forall x :: 0 <= x < j ==> r.value[i].items[x] == items[x])
      && (forall x :: j <= x < |items| - 1 ==> r.value[i].items[x] == items[x + 1])
    ensures q <= 0 && FindKey(boxes[i].items, Upper(sku)) == -1 ==> r == Ok(boxes)
  {
    var items := boxes[i].items;
    var j := FindKey(items, Upper(sku));
    if q > 0 then
      if j >= 0 then Ok(boxes[i := boxes[i].(items := items[j := items[j].(qty := q)])])
      else Err(BadRequest(CannotAdd(sku, i)))
    else if j >= 0 then Ok(boxes[i := boxes[i].(items := RemoveLine(items, j))])
    else Ok(boxes)
  }

  /** One entry: its quantities applied box by box; positions past the last box are ignored. */
  function ApplyEntry(boxes: seq<Box>, sku: string, qs: seq<int>): (r: Result<seq<Box>>)
    ensures r.Ok? ==> |r.value| == |boxes|
    decreases |qs|
  {
    if |qs| == 0 then Ok(boxes)
    else
      var i := |qs| - 1;
      var b := ApplyEntry(boxes, sku, qs[..i]);
      if b.Err? then b
      else if i < |b.value| then ApplyCell(b.value, i, sku, qs[i])
      else b
  }

  /** Every entry in order; the first failing cell stops the edit. */
  function ApplyAll(boxes: seq<Box>, ds: seq<Dist>): (r: Result<seq<Box>>)
    ensures r.Ok? ==> |r.value| == |boxes|
    ensures r.Err? ==> r.error.BadRequest?
    decreases |ds|
  {
    if |ds| == 0 then Ok(boxes)
    else
      var p := ApplyAll(boxes, ds[..|ds| - 1]);
      if p.Err? then p
      else
        var d := ds[|ds| - 1];
        var r := ApplyEntry(p.value, d.sku, d.boxQuantities);
        EntryErrors(p.value, d.sku, d.boxQuantities);
        r
  }

  /**
   * `updateBoxDistribution`: only a draft may be edited; the edited boxes
   * are saved, so weights and totals are refreshed. No stock moves.
   */
  function UpdateDistribution(s: Shipment, ds: seq<Dist>): (r: Result<Shipment>)
    ensures s.status != Draft ==> r == Err(IllegalTransition(CannotModify))
    ensures s.status == Draft && ApplyAll(s.boxes, ds).Err? ==> r == Err(ApplyAll(s.boxes, ds).error)
    ensures r.Ok? ==> r.value.status == Draft && Persisted(r.value) && ShipmentValid(r.value)
    ensures r.Ok? ==> |r.value.boxes| == |s.boxes| && r.value.shipmentId == s.shipmentId && r.value.destination == s.destination
    ensures s.status == Draft && ShipmentValid(s) ==> (r.Ok? <==> ApplyAll(s.boxes, ds).Ok?)
  {
    if s.status != Draft then Err(IllegalTransition(CannotModify))
    else
      var boxes :- ApplyAll(s.boxes, ds);
      ApplyAllValid(s.boxes, ds);
      var saved :- Save(s.(boxes := boxes));
      SaveKeepsValid(s.(boxes := boxes));
      Ok(saved)
  }

  // Facts about the edit

  predicate AllValid(boxes: seq<Box>)
  {
    forall b :: 0 <= b < |boxes| ==> BoxValid(boxes[b])
  }

  /** A cell edit keeps every box valid: an overwrite writes a positive quantity, a removal drops a line. */
  lemma ApplyCellValid(boxes: seq<Box>, i: nat, sku: string, q: int)
    requires i < |boxes| && AllValid(boxes) && ApplyCell(boxes, i, sku, q).Ok?
    ensures AllValid(ApplyCell(boxes, i, sku, q).value)
  {
    var r := ApplyCell(boxes, i, sku, q).value;
    var items, j := boxes[i].items, FindKey(boxes[i].items, Upper(sku));
    assert BoxValid(boxes[i]);
    if q > 0 {
      assert ItemValid(r[i].items[j]);
    } else if j >= 0 {
      assert forall x :: 0 <= x < |r[i].items| ==> ItemValid(r[i].items[x]) by {
        forall x | 0 <= x < |r[i].items|
          ensures ItemValid(r[i].items[x])
        {
          if x >= j {
            assert r[i].items[x] == items[x + 1];
          }
        }
      }
    }
    assert BoxValid(r[i]);
  }

  lemma {:induction false} ApplyEntryValid(boxes: seq<Box>, sku: string, qs: seq<int>)
    requires AllValid(boxes) && ApplyEntry(boxes, sku, qs).Ok?
    ensures AllValid(ApplyEntry(boxes, sku, qs).value)
    decreases |qs|
  {
    if |qs| > 0 {
      var i := |qs| - 1;
      ApplyEntryValid(boxes, sku, qs[..i]);
      var b := ApplyEntry(boxes, sku, qs[..i]).value;
      if i < |b| {
        ApplyCellValid(b, i, sku, qs[i]);
      }
    }
  }

  /** The whole edit keeps every box valid. */
  lemma {:induction false} ApplyAllValid(boxes: seq<Box>, ds: seq<Dist>)
    ensures AllValid(boxes) && ApplyAll(boxes, ds).Ok? ==> AllValid(ApplyAll(boxes, ds).value)
    decreases |ds|
  {
    if |ds| > 0 && AllValid(boxes) && ApplyAll(boxes, ds).Ok? {
      ApplyAllValid(boxes, ds[..|ds| - 1]);
      var p := ApplyAll(boxes, ds[..|ds| - 1]).value;
      var d := ds[|ds| - 1];
      ApplyEntryValid(p, d.sku, d.boxQuantities);
    }
  }

  lemma {:induction false} UniqueLineQty(items: seq<Item>, j: nat)
    requires UniqueLines(items) && j < |items|
    ensures QtyIn(items, Key(items[j])) == items[j].qty
  {
    var k := Key(items[j]);
    assert items == items[..j] + [items[j]] + items[j + 1..];
    QtyInConcat(items[..j] + [items[j]], items[j + 1..], k);
    QtyInConcat(items[..j], [items[j]], k);
    QtyInAbsent(items[..j], k);
    QtyInAbsent(items[j + 1..], k);
    QtyInSingle(items[j]);
  }

  lemma RemoveLineQty(items: seq<Item>, j: nat)
    requires j < |items|
    ensures forall k :: QtyIn(RemoveLine(items, j), k) == QtyIn(items, k) - (if Key(items[j]) == k then items[j].qty else 0)
  {
    assert items == items[..j] + [items[j]] + items[j + 1..];
    QtyInSingle(items[j]);
    forall k ensures QtyIn(RemoveLine(items, j), k) == QtyIn(items, k) - (if Key(items[j]) == k then items[j].qty else 0) {
      QtyInConcat(items[..j] + [items[j]], items[j + 1..], k);
      QtyInConcat(items[..j], [items[j]], k);
      QtyInConcat(items[..j], items[j + 1..], k);
    }
  }

  lemma RemoveLineUnique(items: seq<Item>, j: nat)
    requires j < |items| && UniqueLines(items)
    ensures UniqueLines(RemoveLine(items, j))
  {
    var m := RemoveLine(items, j);
    forall a, b | 0 <= a < b < |m|
      ensures Key(m[a]) != Key(m[b])
    {
      var a' := if a < j then a else a + 1;
      var b' := if b < j then b else b + 1;
      assert m[a] == items[a'] && m[b] == items[b'];
    }
  }

  /**
   * On a box whose lines have distinct SKUs, a successful cell leaves that
   * box holding exactly `max(q, 0)` units of the SKU, keeps the lines
   * distinct, and changes no other SKU.
   */
  lemma ApplyCellCounts(boxes: seq<Box>, i: nat, sku: string, q: int)
    requires i < |boxes| && ApplyCell(boxes, i, sku, q).Ok?
    ensures var r := ApplyCell(boxes, i, sku, q).value;
      && (forall k :: k != Upper(sku) ==> QtyIn(r[i].items, k) == QtyIn(boxes[i].items, k))
      && (UniqueLines(boxes[i].items) ==> UniqueLines(r[i].items) && QtyIn(r[i].items, Upper(sku)) == Max(q, 0))
  {
    if FindKey(boxes[i].items, Upper(sku)) == -1 {
      QtyInAbsent(boxes[i].items, Upper(sku));
    } else if q > 0 {
      CellOverwrite(boxes, i, sku, q);
    } else {
      CellRemove(boxes, i, sku, q);
    }
  }

  lemma CellOverwrite(boxes: seq<Box>, i: nat, sku: string, q: int)
    requires i < |boxes| && q > 0 && FindKey(boxes[i].items, Upper(sku)) >= 0
    ensures var r := ApplyCell(boxes, i, sku, q).value;
      && (forall k :: k != Upper(sku) ==> QtyIn(r[i].items, k) == QtyIn(boxes[i].items, k))
      && (UniqueLines(boxes[i].items) ==> UniqueLines(r[i].items) && QtyIn(r[i].items, Upper(sku)) == Max(q, 0))
  {
    var items := boxes[i].items;
    var j := FindKey(items, Upper(sku));
    assert ApplyCell(boxes, i, sku, q).value[i].items == items[j := items[j].(qty := q)];
    OverwrittenLine(items, j, q);
  }

  lemma CellRemove(boxes: seq<Box>, i: nat, sku: string, q: int)
    requires i < |boxes| && q <= 0 && FindKey(boxes[i].items, Upper(sku)) >= 0
    ensures var r := ApplyCell(boxes, i, sku, q).value;
      && (forall k :: k != Upper(sku) ==> QtyIn(r[i].items, k) == QtyIn(boxes[i].items, k))
      && (UniqueLines(boxes[i].items) ==> UniqueLines(r[i].items) && QtyIn(r[i].items, Upper(sku)) == Max(q, 0))
  {
    var items := boxes[i].items;
    var j := FindKey(items, Upper(sku));
    assert ApplyCell(boxes, i, sku, q).value[i].items == RemoveLine(items, j);
    RemovedLine(items, j);
  }

  /** Overwriting line `j`'s quantity touches only its SKU; with distinct SKUs that SKU then holds `q`. */
  lemma OverwrittenLine(items: seq<Item>, j: nat, q: int)
    requires j < |items|
    ensures var m := items[j := items[j].(qty := q)];
      && (forall k :: k != Key(items[j]) ==> QtyIn(m, k) == QtyIn(items, k))
      && (UniqueLines(items) ==> UniqueLines(m) && QtyIn(m, Key(items[j])) == q)
  {
    var x := items[j].(qty := q);
    var m := items[j := x];
    ReplaceLineQty(items, j, x);
    QtyInSingle(items[j]);
    QtyInSingle(x);
    if UniqueLines(items) {
      assert forall a :: 0 <= a < |m| ==> Key(m[a]) == Key(items[a]);
      UniqueLineQty(m, j);
    }
  }

  /** Removing line `j` touches only its SKU; with distinct SKUs that SKU is then gone. */
  lemma RemovedLine(items: seq<Item>, j: nat)
    requires j < |items|
    ensures var m := RemoveLine(items, j);
      && (forall k :: k != Key(items[j]) ==> QtyIn(m, k) == QtyIn(items, k))
      && (UniqueLines(items) ==> UniqueLines(m) && QtyIn(m, Key(items[j])) == 0)
  {
    RemoveLineQty(items, j);
    if UniqueLines(items) {
      RemoveLineUnique(items, j);
      UniqueLineQty(items, j);
    }
  }

  /** Cell `i` of an entry asks for units in a box that has no line of the SKU. */
  predicate Blocked(boxes: seq<Box>, sku: string, q: int, i: nat)
  {
    i < |boxes| && q > 0 && FindKey(boxes[i].items, Upper(sku)) == -1
  }

  /** An entry fails exactly when a positive quantity targets a box without a line of its SKU. */
  lemma {:induction false} EntryErrors(boxes: seq<Box>, sku: string, qs: seq<int>)
    ensures ApplyEntry(boxes, sku, qs).Err? <==> exists i :: 0 <= i < |qs| && Blocked(boxes, sku, qs[i], i)
    ensures ApplyEntry(boxes, sku, qs).Err? ==> ApplyEntry(boxes, sku, qs).error.BadRequest?
    decreases |qs|
  {
    if |qs| > 0 {
      var i := |qs| - 1;
      EntryErrors(boxes, sku, qs[..i]);
      BlockedPrefix(boxes, sku, qs[..i], qs);
      if ApplyEntry(boxes, sku, qs[..i]).Ok? {
        EntryLastCell(boxes, sku, qs);
      }
    }
  }

  /** A blocked cell of a prefix is a blocked cell of the whole entry at the same position. */
  lemma BlockedPrefix(boxes: seq<Box>, sku: string, pre: seq<int>, qs: seq<int>)
    requires |pre| <= |qs| && pre == qs[..|pre|]
    ensures (exists w :: 0 <= w < |pre| && Blocked(boxes, sku, pre[w], w)) <==>
            (exists w :: 0 <= w < |pre| && Blocked(boxes, sku, qs[w], w))
  {
    assert forall w :: 0 <= w < |pre| ==> pre[w] == qs[w];
  }

  /** After a successful prefix, the entry fails exactly when its last cell is blocked. */
  lemma EntryLastCell(boxes: seq<Box>, sku: string, qs: seq<int>)
    requires |qs| > 0 && ApplyEntry(boxes, sku, qs[..|qs| - 1]).Ok?
    ensures ApplyEntry(boxes, sku, qs).Err? <==> Blocked(boxes, sku, qs[|qs| - 1], |qs| - 1)
    ensures ApplyEntry(boxes, sku, qs).Err? ==> ApplyEntry(boxes, sku, qs).error.BadRequest?
  {
    var i := |qs| - 1;
    EntryKeepsRest(boxes, sku, qs[..i]);
  }

  /** Boxes past the entry's last position are left as they were. */
  lemma {:induction false} EntryKeepsRest(boxes: seq<Box>, sku: string, qs: seq<int>)
    requires ApplyEntry(boxes, sku, qs).Ok?
    ensures forall b :: |qs| <= b < |boxes| ==> ApplyEntry(boxes, sku, qs).value[b] == boxes[b]
    decreases |qs|
  {
    if |qs| > 0 {
      EntryKeepsRest(boxes, sku, qs[..|qs| - 1]);
    }
  }

  /**
   * On boxes whose lines have distinct SKUs, a successful entry sets each
   * listed box's units of the SKU to `max(q, 0)` and changes nothing else.
   */
  lemma {:induction false} EntryCounts(boxes: seq<Box>, sku: string, qs: seq<int>)
    requires AllUnique(boxes) && ApplyEntry(boxes, sku, qs).Ok?
    ensures var r := ApplyEntry(boxes, sku, qs).value;
      && AllUnique(r)
      && forall b, k :: 0 <= b < |boxes| ==>
           QtyIn(r[b].items, k) == if k == Upper(sku) && b < |qs| then Max(qs[b], 0) else QtyIn(boxes[b].items, k)
    decreases |qs|
  {
    if |qs| > 0 {
      var i := |qs| - 1;
      EntryCounts(boxes, sku, qs[..i]);
      var p := ApplyEntry(boxes, sku, qs[..i]).value;
      var r := ApplyEntry(boxes, sku, qs).value;
      if i < |p| {
        assert r == ApplyCell(p, i, sku, qs[i]).value;
        ApplyCellCounts(p, i, sku, qs[i]);
        forall b, k | 0 <= b < |boxes|
          ensures QtyIn(r[b].items, k) == if k == Upper(sku) && b < |qs| then Max(qs[b], 0) else QtyIn(boxes[b].items, k)
        {
          if b != i {
            assert r[b] == p[b];
            if b < i {
              assert qs[..i][b] == qs[b];
            }
          }
        }
      } else {
        assert r == p;
        forall b, k | 0 <= b < |boxes|
          ensures QtyIn(r[b].items, k) == if k == Upper(sku) && b < |qs| then Max(qs[b], 0) else QtyIn(boxes[b].items, k)
        {
          assert qs[..i][b] == qs[b];
        }
      }
    }
  }

  /** The value the last entry naming SKU `k` and reaching box `i` asks for, if any. */
  function LastWrite(ds: seq<Dist>, k: string, i: nat): Option<int>
  {
    if |ds| == 0 then None
    else
      var d := ds[|ds| - 1];
      if Upper(d.sku) == k && i < |d.boxQuantities| then Some(Max(d.boxQuantities[i], 0))
      else LastWrite(ds[..|ds| - 1], k, i)
  }

  /** The edit as a whole: the last entry that reaches a cell decides it; untouched cells keep their units. */
  lemma {:induction false} ApplyAllCounts(boxes: seq<Box>, ds: seq<Dist>)
    requires AllUnique(boxes) && ApplyAll(boxes, ds).Ok?
    ensures var r := ApplyAll(boxes, ds).value;
      && AllUnique(r)
      && forall b, k :: 0 <= b < |boxes| ==>
           QtyIn(r[b].items, k) == if LastWrite(ds, k, b).Some? then LastWrite(ds, k, b).value else QtyIn(boxes[b].items, k)
    decreases |ds|
  {
    if |ds| > 0 {
      var n := |ds| - 1;
      ApplyAllCounts(boxes, ds[..n]);
      var p := ApplyAll(boxes, ds[..n]).value;
      EntryCounts(p, ds[n].sku, ds[n].boxQuantities);
    }
  }

  /**
   * After a successful edit of a draft whose boxes hold one line per SKU,
   * every cell holds what the last entry reaching it asked for (negative
   * asks read as 0), and every other cell is unchanged.
   */
  lemma UpdateDistributionCounts(s: Shipment, ds: seq<Dist>)
    requires AllUnique(s.boxes) && UpdateDistribution(s, ds).Ok?
    ensures var r := UpdateDistribution(s, ds).value;
      forall b, k :: 0 <= b < |s.boxes| ==>
        QtyIn(r.boxes[b].items, k) == if LastWrite(ds, k, b).Some? then LastWrite(ds, k, b).value else QtyIn(s.boxes[b].items, k)
  {
    var boxes := ApplyAll(s.boxes, ds).value;
    ApplyAllCounts(s.boxes, ds);
    RecomputeKeepsCells(boxes);
  }
}

=== FILE: roles.dfy ===
/**
 * The two route guards as allow/deny decisions: a role guard that admits
 * the listed roles only, and a permission guard that admits an admin always
 * and anyone else holding every required permission. A request without a
 * user is refused with 401 before anything else is looked at.
 */
module Roles {
  import opened Common

  datatype User = User(role: string, permissions: seq<string>)

  datatype Decision = Allow | Deny(status: int, message: string)

  const NotAuthenticated := "User not authenticated"
  const RoleDenied := "You do not have permission to perform this action"
  const PermissionDenied := "You do not have the required permissions for this action"
  const Admin := "admin"

  /** `requireRole(...roles)`: membership of the user's role, with no exception for an admin. */
  function RequireRole(roles: seq<string>, user: Option<User>): (d: Decision)
    ensures user.None? ==> d == Deny(401, NotAuthenticated)
    ensures user.Some? ==> (d.Allow? <==> user.value.role in roles)
    ensures user.Some? && d.Deny? ==> d == Deny(403, RoleDenied)
  {
    if user.None? then Deny(401, NotAuthenticated)
    else if user.value.role !in roles then Deny(403, RoleDenied)
    else Allow
  }

  /** Every required permission is among the held ones (the `every … includes` test). */
  predicate HoldsAll(required: seq<string>, held: seq<string>)
  {
    forall i :: 0 <= i < |required| ==> required[i] in held
  }

  /** `requirePermission(...permissions)`: an admin passes; anyone else needs all of them. */
  function RequirePermission(required: seq<string>, user: Option<User>): (d: Decision)
    ensures user.None? ==> d == Deny(401, NotAuthenticated)
    ensures user.Some? && user.value.role == Admin ==> d == Allow
    ensures user.Some? && user.value.role != Admin ==> (d.Allow? <==> HoldsAll(required, user.value.permissions))
    ensures user.Some? && d.Deny? ==> d == Deny(403, PermissionDenied)
  {
    if user.None? then Deny(401, NotAuthenticated)
    else if user.value.role == Admin then Allow
    else if !HoldsAll(required, user.value.permissions) then Deny(403, PermissionDenied)
    else Allow
  }

  /** An empty requirement admits every authenticated user. */
  lemma EmptyRequirementAdmits(u: User)
    ensures RequirePermission([], Some(u)) == Allow
  {
  }

  /**
   * The permission guard is monotone: a user holding more permissions, or
   * facing a requirement that is a subset, is never refused where the
   * original was admitted.
   */
  lemma PermissionMonotone(required: seq<string>, fewer: seq<string>, u: User, more: seq<string>)
    requires forall i :: 0 <= i < |fewer| ==> fewer[i] in required
    requires forall i :: 0 <= i < |u.permissions| ==> u.permissions[i] in more
    requires RequirePermission(required, Some(u)) == Allow
    ensures RequirePermission(fewer, Some(u.(permissions := more))) == Allow
  {
    if u.role != Admin {
      forall i | 0 <= i < |fewer|
        ensures fewer[i] in more
      {
        var w :| 0 <= w < |required| && required[w] == fewer[i];
        var v :| 0 <= v < |u.permissions| && u.permissions[v] == required[w];
      }
    }
  }

  /** Only the set of held permissions matters, not their order or repetition. */
  lemma PermissionDependsOnSet(required: seq<string>, u: User, v: User)
    requires u.role == v.role
    requires forall p :: p in u.permissions <==> p in v.permissions
    ensures RequirePermission(required, Some(u)) == RequirePermission(required, Some(v))
  {
  }

  /** Being admitted by role says nothing about permissions: a listed non-admin role without the permission is admitted by one guard and refused by the other. */
  lemma GuardsIndependent()
    ensures RequireRole(["staff"], Some(User("staff", []))) == Allow
    ensures RequirePermission(["write"], Some(User("staff", []))) == Deny(403, PermissionDenied)
    ensures RequireRole(["staff"], Some(User(Admin, []))) == Deny(403, RoleDenied)
  {
    assert !HoldsAll(["write"], []) by {
      assert ["write"][0] !in [];
    }
  }
}

=== FILE: shipment_service.dfy ===
/**
 * The shipment workflow as the service layer runs it against the stock
 * ledger. Adding lines checks each SKU against the ledger's active records
 * but reserves nothing; finalizing deducts every line's units from
 * `availableQty` with an unchecked increment, before the shipment's own
 * status checks run; cancelling a ready shipment adds the same units back.
 */
module ShipmentService {
  import opened Common
  import opened Shipments
  import Inventory
  import Ids

  type Ledger = Inventory.Ledger

  const CannotCancel := "Cannot cancel a shipped or delivered shipment"
  const DraftOnlyDelete := "Can only delete draft shipments"
  const FrozenBoxes := "Cannot modify boxes of a non-draft shipment"

  // ---------------------------------------------------------------------------
  // Inventory checks on incoming lines
  // ---------------------------------------------------------------------------

  /** The ledger has an active record for the line's SKU with at least `qty` units available. */
  predicate Stocked(l: Ledger, it: Item)
  {
    Key(it) in l && l[Key(it)].isActive && l[Key(it)].availableQty >= it.qty
  }

  /** Why a line fails the inventory check, if it does. */
  function LineProblem(l: Ledger, it: Item): (r: Option<Error>)
    ensures r.None? <==> Stocked(l, it)
    ensures (Key(it) !in l || !l[Key(it)].isActive) ==> r == Some(UnknownSku(it.sku))
    ensures Key(it) in l && l[Key(it)].isActive && l[Key(it)].availableQty < it.qty ==>
      r == Some(InsufficientStock(it.sku, l[Key(it)].availableQty, it.qty))
  {
    var k := Upper(it.sku);
    if k !in l || !l[k].isActive then Some(UnknownSku(it.sku))
    else if l[k].availableQty < it.qty then Some(InsufficientStock(it.sku, l[k].availableQty, it.qty))
    else None
  }

  /**
   * The check `addBox` and `addItemToBox` run on a line; a line that passes
   * takes the record's name and unit weight where its own are empty or 0.
   */
  function CheckLine(l: Ledger, it: Item): (r: Result<Item>)
    ensures r.Ok? <==> Stocked(l, it)
    ensures r.Err? ==> Some(r.error) == LineProblem(l, it)
    ensures r.Ok? ==> r.value.sku == it.sku && r.value.qty == it.qty
    ensures r.Ok? ==> r.value.productName == (if it.productName != "" then it.productName else l[Key(it)].name)
    ensures r.Ok? ==> r.value.unitWeight == (if it.unitWeight != 0.0 then it.unitWeight else l[Key(it)].unitWeight)
    ensures r.Ok? ==> r.value.(productName := it.productName, unitWeight := it.unitWeight) == it
  {
    match LineProblem(l, it)
    case Some(e) => Err(e)
    case None =>
      var u := l[Key(it)];
      Ok(it.(productName := OrString(it.productName, u.name), unitWeight := OrReal(it.unitWeight, u.unitWeight)))
  }

  /** The loop of `addBox`: lines are checked in order and the first failure is reported. */
  function CheckLines(l: Ledger, items: seq<Item>): (r: Result<seq<Item>>)
    ensures r.Ok? <==> forall j :: 0 <= j < |items| ==> Stocked(l, items[j])
    ensures r.Ok? ==> |r.value| == |items| && forall j :: 0 <= j < |items| ==> r.value[j] == CheckLine(l, items[j]).value
    ensures r.Err? ==> exists j :: 0 <= j < |items| && Some(r.error) == LineProblem(l, items[j]) && forall i :: 0 <= i < j ==> Stocked(l, items[i])
    decreases |items|
  {
    if |items| == 0 then Ok([])
    else
      var n := |items| - 1;
      assert forall j :: 0 <= j < n ==> items[..n][j] == items[j];
      var front :- CheckLines(l, items[..n]);
      var last :- CheckLine(l, items[n]);
      Ok(front + [last])
  }

  /** The validation-only loop of `duplicateBox`: nothing is filled in. */
  function CheckCopies(l: Ledger, items: seq<Item>): (r: Outcome)
    ensures r.Pass? <==> forall j :: 0 <= j < |items| ==> Stocked(l, items[j])
    ensures r.Fail? ==> exists j :: 0 <= j < |items| && Some(r.error) == LineProblem(l, items[j]) && forall i :: 0 <= i < j ==> Stocked(l, items[i])
    decreases |items|
  {
    if |items| == 0 then Pass
    else
      var n := |items| - 1;
      var front := CheckCopies(l, items[..n]);
      if front.Fail? then front
      else match LineProblem(l, items[n])
        case Some(e) => Fail(e)
        case None => Pass
  }

  /** Filling in names and weights leaves every line's SKU and quantity as it was. */
  lemma CheckedLinesKeepCounts(l: Ledger, items: seq<Item>)
    requires CheckLines(l, items).Ok?
    ensures SameCounts(items, CheckLines(l, items).value)
    ensures forall k :: QtyIn(CheckLines(l, items).value, k) == QtyIn(items, k)
    ensures Qty(CheckLines(l, items).value) == Qty(items)
  {
    SameCountsQty(items, CheckLines(l, items).value);
  }

  /**
   * A line valid in every respect the ledger cannot fill in: the name may
   * be empty and the unit weight 0, since a passing check takes both from
   * the record.
   */
  predicate LineFillable(it: Item)
  {
    it.sku != "" && it.qty >= 1 && it.unitWeight >= 0.0 && MetaValid(it.meta)
  }

  /** A box valid apart from its lines. */
  predicate HeaderValid(b: Box)
  {
    b.boxNo != "" && b.boxWeight >= 0.0 && DimensionsValid(b.dimensions)
  }

  /** Against a valid ledger a checked line is valid exactly when the incoming line is fillable. */
  lemma CheckLineValid(l: Ledger, it: Item, line: Item)
    requires Inventory.LedgerValid(l) && CheckLine(l, it) == Ok(line)
    ensures ItemValid(line) <==> LineFillable(it)
  {
    assert Inventory.Persistable(l[Key(it)]);
  }

  lemma CheckLinesValid(l: Ledger, items: seq<Item>, lines: seq<Item>)
    requires Inventory.LedgerValid(l) && CheckLines(l, items) == Ok(lines)
    ensures (forall j :: 0 <= j < |lines| ==> ItemValid(lines[j])) <==> (forall j :: 0 <= j < |items| ==> LineFillable(items[j]))
  {
    forall j | 0 <= j < |items|
      ensures ItemValid(lines[j]) <==> LineFillable(items[j])
    {
      CheckLineValid(l, items[j], lines[j]);
    }
  }

  // ---------------------------------------------------------------------------
  // Ledger movements
  // ---------------------------------------------------------------------------

  /** Which way a ledger movement goes: finalize deducts, cancel restores. */
  datatype Direction = Deduct | Restore

  function Signed(d: Direction, q: int): int
  {
    if d == Deduct then -q else q
  }

  /** A record with `availableQty` moved by `delta` and nothing else touched. */
  function Moved(u: Inventory.StockUnit, delta: int): Inventory.StockUnit
  {
    u.(availableQty := u.availableQty + delta)
  }

  /** One `$inc` on the record of a line's SKU, skipped when there is none. */
  function ShiftLine(m: Ledger, it: Item, d: Direction): Ledger
  {
    var k := Key(it);
    if k in m then m[k := Moved(m[k], Signed(d, it.qty))] else m
  }

  /** Moving the ledger for some lines and then for one more line moves it for all of them. */
  lemma ShiftLineExtends(l: Ledger, m: Ledger, pre: seq<Item>, x: Item, d: Direction)
    requires m.Keys == l.Keys
    requires forall k :: k in l ==> m[k] == Moved(l[k], Signed(d, QtyIn(pre, k)))
    ensures var r := ShiftLine(m, x, d);
      && r.Keys == l.Keys
      && forall k :: k in l ==> r[k] == Moved(l[k], Signed(d, QtyIn(pre + [x], k)))
  {
    var r := ShiftLine(m, x, d);
    QtyInSnoc(pre, x);
    forall k | k in l
      ensures r[k] == Moved(l[k], Signed(d, QtyIn(pre + [x], k)))
    {
      if k == Key(x) {
        MovedAdds(l[k], m[k], r[k], QtyIn(pre, k), x.qty, d);
      } else {
        MovedAdds(l[k], m[k], r[k], QtyIn(pre, k), 0, d);
      }
    }
  }

  lemma QtyInSnoc(pre: seq<Item>, x: Item)
    ensures forall k :: QtyIn(pre + [x], k) == QtyIn(pre, k) + (if k == Key(x) then x.qty else 0)
  {
    forall k
      ensures QtyIn(pre + [x], k) == QtyIn(pre, k) + (if k == Key(x) then x.qty else 0)
    {
      QtyInConcat(pre, [x], k);
      QtyInSingle(x);
    }
  }

  /** Two movements in one direction add up. */
  lemma MovedAdds(u: Inventory.StockUnit, u1: Inventory.StockUnit, u2: Inventory.StockUnit, a: int, b: int, d: Direction)
    requires u1 == Moved(u, Signed(d, a)) && u2 == Moved(u1, Signed(d, b))
    ensures u2 == Moved(u, Signed(d, a + b))
  {
  }

  /**
   * `findOneAndUpdate({sku}, {$inc: {availableQty: ±qty}})` for each line in
   * order: no validator runs and a SKU without a record is skipped.
   */
  function ShiftItems(l: Ledger, items: seq<Item>, d: Direction): (r: Ledger)
    ensures r.Keys == l.Keys
    ensures forall k :: k in l ==> r[k] == Moved(l[k], Signed(d, QtyIn(items, k)))
    decreases |items|
  {
    if |items| == 0 then l
    else
      var n := |items| - 1;
      var m := ShiftItems(l, items[..n], d);
      ShiftLineExtends(l, m, items[..n], items[n], d);
      assert items[..n] + [items[n]] == items;
      ShiftLine(m, items[n], d)
  }

  /** The nested box/line loop of finalize and cancel. */
  function Shift(l: Ledger, boxes: seq<Box>, d: Direction): (r: Ledger)
    ensures r.Keys == l.Keys
    ensures forall k :: k in l ==> r[k] == Moved(l[k], Signed(d, QtyOf(boxes, k)))
    decreases |boxes|
  {
    if |boxes| == 0 then l
    else
      var n := |boxes| - 1;
      var m := Shift(l, boxes[..n], d);
      ShiftBoxExtends(l, m, boxes, d);
      ShiftItems(m, boxes[n].items, d)
  }

  /** Moving the ledger for all boxes but the last and then for the last box's lines moves it for all boxes. */
  lemma ShiftBoxExtends(l: Ledger, m: Ledger, boxes: seq<Box>, d: Direction)
    requires |boxes| > 0 && m.Keys == l.Keys
    requires forall k :: k in l ==> m[k] == Moved(l[k], Signed(d, QtyOf(boxes[..|boxes| - 1], k)))
    ensures var r := ShiftItems(m, boxes[|boxes| - 1].items, d);
      forall k :: k in l ==> r[k] == Moved(l[k], Signed(d, QtyOf(boxes, k)))
  {
    var n := |boxes| - 1;
    var r := ShiftItems(m, boxes[n].items, d);
    forall k | k in l
      ensures r[k] == Moved(l[k], Signed(d, QtyOf(boxes, k)))
    {
      MovedAdds(l[k], m[k], r[k], QtyOf(boxes[..n], k), QtyIn(boxes[n].items, k), d);
    }
  }

  /** Box lists with the same per-SKU units move the ledger the same way. */
  lemma ShiftDependsOnCounts(l: Ledger, a: seq<Box>, b: seq<Box>, d: Direction)
    requires forall k :: QtyOf(a, k) == QtyOf(b, k)
    ensures Shift(l, a, d) == Shift(l, b, d)
  {
    var x, y := Shift(l, a, d), Shift(l, b, d);
    assert forall k :: k in l ==> x[k] == y[k];
  }

  // ---------------------------------------------------------------------------
  // Service operations
  // ---------------------------------------------------------------------------

  /** `save()` on an aggregate that a save already produced changes nothing. */
  lemma SaveTwice(x: Shipment)
    requires Save(x).Ok?
    ensures Save(Save(x).value) == Save(x)
  {
    SaveKeepsValid(x);
  }

  /** What a successful save keeps: per-SKU units, unit total, status, and the box count. */
  lemma SavedCounts(x: Shipment)
    requires Save(x).Ok?
    ensures var r := Save(x).value;
      && r.status == x.status
      && |r.boxes| == |x.boxes| == r.totalBoxes
      && r.totalItems == TotalQty(x.boxes) == TotalQty(r.boxes)
      && (forall k :: QtyOf(r.boxes, k) == QtyOf(x.boxes, k))
  {
    RecomputedBoxesCounts(x.boxes);
  }

  /** The lines of a box appended with the setters and the hook applied, when the source lines are stored ones. */
  lemma AppendedLines(items: seq<Item>)
    ensures ItemsNormalized(items) && RecomputeItems(items) == items ==> RecomputeItems(NormalizeItems(items)) == items
  {
    if ItemsNormalized(items) {
      assert NormalizeItems(items) == items;
    }
  }

  /**
   * `addBox`: every line is checked against the ledger first, then the
   * shipment must be a draft; the box is appended and the totals grow by
   * exactly its units. The ledger is only read.
   */
  function AddBox(l: Ledger, s: Shipment, b: Box): (r: Result<Shipment>)
    ensures CheckLines(l, b.items).Err? ==> r == Err(CheckLines(l, b.items).error)
    ensures CheckLines(l, b.items).Ok? && s.status != Draft ==> r == Err(IllegalTransition(NotDraftBoxes))
    ensures r.Ok? ==> s.status == Draft && r.value.status == Draft
    ensures r.Ok? ==> forall j :: 0 <= j < |b.items| ==> Stocked(l, b.items[j])
    ensures r.Ok? ==> |r.value.boxes| == |s.boxes| + 1 == r.value.totalBoxes
    ensures r.Ok? ==> r.value.totalItems == TotalQty(s.boxes) + Qty(b.items)
    ensures r.Ok? ==> forall k :: QtyOf(r.value.boxes, k) == QtyOf(s.boxes, k) + QtyIn(b.items, k)
    ensures r.Ok? ==> r.value.boxes[..|s.boxes|] == RecomputeBoxes(s.boxes)
    ensures r.Ok? && Persisted(s) ==> r.value.boxes[..|s.boxes|] == s.boxes
    ensures r.Ok? ==> var last := r.value.boxes[|s.boxes|];
      && last.boxNo == b.boxNo && last.boxName == b.boxName && last.dimensions == b.dimensions
      && |last.items| == |b.items|
      && forall j :: 0 <= j < |b.items| ==>
           && last.items[j].sku == Upper(b.items[j].sku) && last.items[j].qty == b.items[j].qty
           && last.items[j].productName == CheckLine(l, b.items[j]).value.productName
           && last.items[j].unitWeight == CheckLine(l, b.items[j]).value.unitWeight
    ensures s.status == Draft && Inventory.LedgerValid(l) ==>
      (r.Ok? <==> && ShipmentValid(s) && HeaderValid(b)
                  && (forall j :: 0 <= j < |b.items| ==> Stocked(l, b.items[j]))
                  && (forall j :: 0 <= j < |b.items| ==> LineFillable(b.items[j])))
  {
    var items :- CheckLines(l, b.items);
    CheckedBoxAccepted(l, s, b, items);
    var s1 :- AddBoxTo(s, b.(items := items));
    CheckedBoxAdded(l, s, b, items, s1);
    CheckedBoxShape(l, s, b, items, s1);
    Save(s1)
  }

  /** What appending the checked box yields: the draft grown by exactly that box's units, already a saved aggregate. */
  lemma CheckedBoxAdded(l: Ledger, s: Shipment, b: Box, items: seq<Item>, s1: Shipment)
    requires CheckLines(l, b.items) == Ok(items) && AddBoxTo(s, b.(items := items)) == Ok(s1)
    ensures Save(s1) == Ok(s1) && s.status == Draft && s1.status == Draft
    ensures |s1.boxes| == |s.boxes| + 1 == s1.totalBoxes
    ensures s1.totalItems == TotalQty(s.boxes) + Qty(b.items)
    ensures forall k :: QtyOf(s1.boxes, k) == QtyOf(s.boxes, k) + QtyIn(b.items, k)
  {
    CheckedLinesKeepCounts(l, b.items);
    AppendBoxCounts(s.boxes, b.(items := items));
    SavedCounts(s1);
  }

  /** The appended checked box: its header as given and its lines as the check and the setters leave them. */
  lemma CheckedBoxShape(l: Ledger, s: Shipment, b: Box, items: seq<Item>, s1: Shipment)
    requires CheckLines(l, b.items) == Ok(items) && AddBoxTo(s, b.(items := items)) == Ok(s1)
    ensures s1.boxes[..|s.boxes|] == RecomputeBoxes(s.boxes)
    ensures Persisted(s) ==> s1.boxes[..|s.boxes|] == s.boxes
    ensures var last := s1.boxes[|s.boxes|];
      && last.boxNo == b.boxNo && last.boxName == b.boxName && last.dimensions == b.dimensions
      && |last.items| == |b.items|
      && forall j :: 0 <= j < |b.items| ==>
           && last.items[j].sku == Upper(b.items[j].sku) && last.items[j].qty == b.items[j].qty
           && last.items[j].productName == CheckLine(l, b.items[j]).value.productName
           && last.items[j].unitWeight == CheckLine(l, b.items[j]).value.unitWeight
  {
  }

  /** After the ledger check, appending the checked box succeeds exactly for a valid draft, header and fillable lines. */
  lemma CheckedBoxAccepted(l: Ledger, s: Shipment, b: Box, items: seq<Item>)
    requires CheckLines(l, b.items) == Ok(items)
    ensures s.status == Draft && Inventory.LedgerValid(l) ==>
      (AddBoxTo(s, b.(items := items)).Ok? <==>
         ShipmentValid(s) && HeaderValid(b) && forall j :: 0 <= j < |b.items| ==> LineFillable(b.items[j]))
  {
    if s.status == Draft && Inventory.LedgerValid(l) {
      CheckLinesValid(l, b.items, items);
      assert BoxValid(b.(items := items)) <==> HeaderValid(b) && forall j :: 0 <= j < |items| ==> ItemValid(items[j]);
    }
  }

  /**
   * `addItemToBox`: the ledger check on the line comes before the status
   * and index checks; on success only the chosen box changes and only the
   * line's SKU gains units, by exactly its quantity.
   */
  function AddItemToBox(l: Ledger, s: Shipment, boxIndex: int, it: Item): (r: Result<Shipment>)
    ensures CheckLine(l, it).Err? ==> r == Err(CheckLine(l, it).error)
    ensures CheckLine(l, it).Ok? && s.status != Draft ==> r == Err(IllegalTransition(NotDraftItems))
    ensures CheckLine(l, it).Ok? && s.status == Draft && !(0 <= boxIndex < |s.boxes|) ==> r == Err(InvalidBoxIndex)
    ensures r.Ok? ==> s.status == Draft && Stocked(l, it) && 0 <= boxIndex < |s.boxes|
    ensures r.Ok? ==> |r.value.boxes| == |s.boxes| && r.value.totalItems == TotalQty(s.boxes) + it.qty
    ensures r.Ok? ==> QtyOf(r.value.boxes, Key(it)) == QtyOf(s.boxes, Key(it)) + it.qty
    ensures r.Ok? ==> forall k :: k != Key(it) ==> QtyOf(r.value.boxes, k) == QtyOf(s.boxes, k)
    ensures r.Ok? ==> forall j :: 0 <= j < |s.boxes| && j != boxIndex ==> r.value.boxes[j] == RecomputeBox(s.boxes[j])
    ensures r.Ok? && Persisted(s) ==> forall j :: 0 <= j < |s.boxes| && j != boxIndex ==> r.value.boxes[j] == s.boxes[j]
    ensures s.status == Draft && 0 <= boxIndex < |s.boxes| && ShipmentValid(s) && Inventory.LedgerValid(l) && Stocked(l, it) ==>
      (r.Ok? <==> LineAccepted(s.boxes[boxIndex].items, it))
  {
    var line :- CheckLine(l, it);
    assert Inventory.LedgerValid(l) ==> (ItemValid(line) <==> LineFillable(it)) by {
      if Inventory.LedgerValid(l) {
        CheckLineValid(l, it, line);
      }
    }
    var s1 :- AddItemTo(s, boxIndex, line);
    MergedShipmentCounts(s, boxIndex, line);
    Save(s1)
  }

  /**
   * Whether adding `it` to a valid box is accepted once the ledger has filled
   * it in: a merge needs the summed quantity to stay at least 1, an appended
   * line must be fillable.
   */
  predicate LineAccepted(items: seq<Item>, it: Item)
  {
    var j := FindKey(items, Upper(it.sku));
    if j >= 0 then items[j].qty + it.qty >= 1 else LineFillable(it)
  }

  /** The saved result of merging `line` into box `i`: one SKU gains `line.qty` units. */
  lemma MergedShipmentCounts(s: Shipment, i: int, line: Item)
    requires AddItemTo(s, i, line).Ok?
    ensures var r := Save(AddItemTo(s, i, line).value);
      && r.Ok?
      && r.value.status == s.status
      && |r.value.boxes| == |s.boxes| && r.value.totalItems == TotalQty(s.boxes) + line.qty
      && QtyOf(r.value.boxes, Key(line)) == QtyOf(s.boxes, Key(line)) + line.qty
      && forall k :: k != Key(line) ==> QtyOf(r.value.boxes, k) == QtyOf(s.boxes, k)
  {
    var box := s.boxes[i];
    var merged := box.(items := MergeItem(box.items, line));
    var x := s.(boxes := s.boxes[i := merged]);
    assert AddItemTo(s, i, line) == Save(x);
    SaveTwice(x);
    SavedCounts(x);
    MergeItemEffect(box.items, line);
    ReplaceBoxCounts(s.boxes, i, merged);
  }

  /** Replacing one box changes the per-SKU and total units only through that box. */
  lemma ReplaceBoxCounts(boxes: seq<Box>, i: nat, b: Box)
    requires i < |boxes|
    ensures forall k :: QtyOf(boxes[i := b], k) == QtyOf(boxes, k) - QtyIn(boxes[i].items, k) + QtyIn(b.items, k)
    ensures TotalQty(boxes[i := b]) == TotalQty(boxes) - Qty(boxes[i].items) + Qty(b.items)
  {
    var m := boxes[i := b];
    assert boxes == boxes[..i] + [boxes[i]] + boxes[i + 1..];
    assert m == boxes[..i] + [b] + boxes[i + 1..];
    forall k ensures QtyOf(m, k) == QtyOf(boxes, k) - QtyIn(boxes[i].items, k) + QtyIn(b.items, k) {
      QtyOfConcat(boxes[..i] + [boxes[i]], boxes[i + 1..], k);
      QtyOfConcat(boxes[..i] + [b], boxes[i + 1..], k);
      assert (boxes[..i] + [boxes[i]])[..i] == boxes[..i];
      assert (boxes[..i] + [b])[..i] == boxes[..i];
    }
    TotalQtyConcat(boxes[..i] + [boxes[i]], boxes[i + 1..]);
    TotalQtyConcat(boxes[..i] + [b], boxes[i + 1..]);
    assert (boxes[..i] + [boxes[i]])[..i] == boxes[..i];
    assert (boxes[..i] + [b])[..i] == boxes[..i];
  }

  lemma {:induction false} QtyOfConcat(a: seq<Box>, b: seq<Box>, k: string)
    ensures QtyOf(a + b, k) == QtyOf(a, k) + QtyOf(b, k)
    decreases |b|
  {
    if |b| == 0 {
      assert a + b == a;
    } else {
      assert (a + b)[..|a + b| - 1] == a + b[..|b| - 1];
      QtyOfConcat(a, b[..|b| - 1], k);
    }
  }

  lemma {:induction false} TotalQtyConcat(a: seq<Box>, b: seq<Box>)
    ensures TotalQty(a + b) == TotalQty(a) + TotalQty(b)
    decreases |b|
  {
    if |b| == 0 {
      assert a + b == a;
    } else {
      assert (a + b)[..|a + b| - 1] == a + b[..|b| - 1];
      TotalQtyConcat(a, b[..|b| - 1]);
    }
  }

  /**
   * `finalizeShipment`: every line's units leave `availableQty` first, with
   * no check and no floor; then the shipment must be a non-empty draft to
   * become ready. The deduction stands even when that check fails.
   */
  function FinalizeShipment(l: Ledger, s: Shipment): (r: (Ledger, Result<Shipment>))
    ensures r.0.Keys == l.Keys
    ensures forall k :: k in l ==> r.0[k] == Moved(l[k], -QtyOf(s.boxes, k))
    ensures s.status != Draft ==> r.1 == Err(IllegalTransition(AlreadyFinalized))
    ensures s.status == Draft && |s.boxes| == 0 ==> r.1 == Err(EmptyShipment)
    ensures s.status == Draft && |s.boxes| > 0 && ShipmentValid(s) ==> r.1.Ok?
    ensures r.1.Ok? ==> s.status == Draft && r.1.value.status == Ready
    ensures r.1.Ok? ==> forall k :: QtyOf(r.1.value.boxes, k) == QtyOf(s.boxes, k)
  {
    var deducted := Shift(l, s.boxes, Deduct);
    var f := Finalize(s);
    if f.Ok? then
      FinalizedSaves(s);
      (deducted, Save(f.value))
    else (deducted, f)
  }

  /** The service's save after `finalize` accepts the finalized aggregate unchanged. */
  lemma FinalizedSaves(s: Shipment)
    requires Finalize(s).Ok?
    ensures Save(Finalize(s).value) == Finalize(s)
    ensures forall k :: QtyOf(Finalize(s).value.boxes, k) == QtyOf(s.boxes, k)
  {
    var x := s.(status := Ready);
    SaveTwice(x);
    SavedCounts(x);
  }

  /**
   * `markAsShipped` followed by the service's own save: only a ready
   * shipment ships, and its boxes are kept.
   */
  function ShipShipment(s: Shipment, date: Option<nat>, now: nat, tracking: string, carrier: string): (r: Result<Shipment>)
    ensures s.status != Ready ==> r == Err(IllegalTransition(NotReadyToShip))
    ensures s.status == Ready && ShipmentValid(s) ==> r.Ok?
    ensures r.Ok? ==> s.status == Ready && r.value.status == Shipped
    ensures r.Ok? ==> r.value.shipmentDate == Some(if date.Some? then date.value else now)
    ensures r.Ok? ==> forall k :: QtyOf(r.value.boxes, k) == QtyOf(s.boxes, k)
  {
    var m :- MarkAsShipped(s, date, now, tracking, carrier);
    var x := s.(status := Shipped, shipmentDate := Some(if date.Some? then date.value else now),
                trackingNumber := OrString(tracking, s.trackingNumber), carrier := OrString(carrier, s.carrier));
    SaveTwice(x);
    SavedCounts(x);
    Save(m)
  }

  /**
   * `cancelShipment`: shipped and delivered shipments refuse; a ready one
   * first gives its units back to `availableQty`; every other status is
   * cancelled with the ledger untouched.
   */
  function CancelShipment(l: Ledger, s: Shipment): (r: (Ledger, Result<Shipment>))
    ensures s.status == Shipped || s.status == Delivered ==> r == (l, Err(IllegalTransition(CannotCancel)))
    ensures s.status == Draft || s.status == Cancelled ==> r.0 == l
    ensures s.status == Ready ==> r.0.Keys == l.Keys
    ensures s.status == Ready ==> forall k :: k in l ==> r.0[k] == Moved(l[k], QtyOf(s.boxes, k))
    ensures s.status != Shipped && s.status != Delivered && ShipmentValid(s) ==> r.1.Ok?
    ensures r.1.Ok? ==> r.1.value.status == Cancelled
    ensures r.1.Ok? ==> forall k :: QtyOf(r.1.value.boxes, k) == QtyOf(s.boxes, k)
  {
    if s.status == Shipped || s.status == Delivered then (l, Err(IllegalTransition(CannotCancel)))
    else
      var restored := if s.status == Ready then Shift(l, s.boxes, Restore) else l;
      var x := s.(status := Cancelled);
      if Save(x).Ok? then
        SavedCounts(x);
        (restored, Save(x))
      else (restored, Save(x))
  }

  /** The caller-supplied overrides of `duplicateBox`; `None` stands for an absent field. */
  datatype BoxOverrides = BoxOverrides(
    boxNo: string,
    boxName: string,
    boxWeight: Option<real>,
    dimensions: Option<Dimensions>,
    notes: string)

  /** The box `duplicateBox` builds from box `i`: same lines, overrides where given. */
  function CopyOf(s: Shipment, i: nat, o: BoxOverrides): (r: Box)
    requires i < |s.boxes|
    ensures r.items == s.boxes[i].items
    ensures r.boxNo == (if o.boxNo != "" then o.boxNo else "BOX" + Ids.Decimal(|s.boxes| + 1))
    ensures r.boxWeight == (if o.boxWeight.Some? then o.boxWeight.value else s.boxes[i].boxWeight)
    ensures r.boxName == (if o.boxName != "" then o.boxName else s.boxes[i].boxName)
    ensures r.dimensions == (if o.dimensions.Some? then o.dimensions else s.boxes[i].dimensions)
    ensures r.notes == (if o.notes != "" then o.notes else s.boxes[i].notes)
  {
    var src := s.boxes[i];
    Box(
      OrString(o.boxNo, "BOX" + Ids.Decimal(|s.boxes| + 1)),
      OrString(o.boxName, src.boxName),
      src.items,
      if o.boxWeight.Some? then o.boxWeight.value else src.boxWeight,
      if o.dimensions.Some? then o.dimensions else src.dimensions,
      OrString(o.notes, src.notes))
  }

  /**
   * `duplicateBox`: draft only, a valid index, and every copied line must
   * still pass the ledger check; the copy goes at the end and the source
   * box's units are counted once more.
   */
  function DuplicateBox(l: Ledger, s: Shipment, boxIndex: int, o: BoxOverrides): (r: Result<Shipment>)
    ensures s.status != Draft ==> r == Err(IllegalTransition(NotDraftBoxes))
    ensures s.status == Draft && !(0 <= boxIndex < |s.boxes|) ==> r == Err(InvalidBoxIndex)
    ensures s.status == Draft && 0 <= boxIndex < |s.boxes| && CheckCopies(l, s.boxes[boxIndex].items).Fail? ==>
      r == Err(CheckCopies(l, s.boxes[boxIndex].items).error)
    ensures r.Ok? ==> 0 <= boxIndex < |s.boxes| && |r.value.boxes| == |s.boxes| + 1
    ensures r.Ok? ==> forall k :: QtyOf(r.value.boxes, k) == QtyOf(s.boxes, k) + QtyIn(s.boxes[boxIndex].items, k)
    ensures r.Ok? ==> r.value.totalItems == TotalQty(s.boxes) + Qty(s.boxes[boxIndex].items)
    ensures r.Ok? ==> r.value.boxes[..|s.boxes|] == RecomputeBoxes(s.boxes)
    ensures r.Ok? && Persisted(s) ==> r.value.boxes[..|s.boxes|] == s.boxes
    ensures r.Ok? ==> var c := CopyOf(s, boxIndex, o); var last := r.value.boxes[|s.boxes|];
      && last.boxNo == c.boxNo && last.boxName == c.boxName && last.dimensions == c.dimensions && last.notes == c.notes
      && (c.boxWeight != 0.0 ==> last.boxWeight == c.boxWeight)
      && |last.items| == |c.items|
      && forall j :: 0 <= j < |c.items| ==> last.items[j].sku == Upper(c.items[j].sku) && last.items[j].qty == c.items[j].qty
    ensures r.Ok? && Persisted(s) && ItemsNormalized(s.boxes[boxIndex].items) ==>
      r.value.boxes[|s.boxes|].items == s.boxes[boxIndex].items
    ensures s.status == Draft && 0 <= boxIndex < |s.boxes| && ShipmentValid(s) && CheckCopies(l, s.boxes[boxIndex].items).Pass? ==>
      (r.Ok? <==> (o.boxWeight.Some? ==> o.boxWeight.value >= 0.0) && DimensionsValid(o.dimensions))
  {
    if s.status != Draft then Err(IllegalTransition(NotDraftBoxes))
    else if boxIndex < 0 || boxIndex >= |s.boxes| then Err(InvalidBoxIndex)
    else
      var copy := CopyOf(s, boxIndex, o);
      assert copy.boxNo != "" by {
        assert |"BOX" + Ids.Decimal(|s.boxes| + 1)| >= 3;
      }
      assert ShipmentValid(s) ==> (BoxValid(copy) <==> (o.boxWeight.Some? ==> o.boxWeight.value >= 0.0) && DimensionsValid(o.dimensions)) by {
        if ShipmentValid(s) {
          assert BoxValid(s.boxes[boxIndex]);
        }
      }
      var ok := CheckCopies(l, copy.items);
      if ok.Fail? then Err(ok.error)
      else
        var r := AddBoxTo(s, copy);
        if r.Ok? then
          AppendBoxCounts(s.boxes, copy);
          SavedCounts(s.(boxes := s.boxes + [NormalizeBox(copy)]));
          CopiedBox(s, boxIndex, o);
          r
        else r
  }

  /** The appended copy as the setters and the hook leave it. */
  lemma CopiedBox(s: Shipment, boxIndex: int, o: BoxOverrides)
    requires 0 <= boxIndex < |s.boxes|
    ensures var c := CopyOf(s, boxIndex, o); var last := RecomputeBox(NormalizeBox(c));
      && last.boxNo == c.boxNo && last.boxName == c.boxName && last.dimensions == c.dimensions && last.notes == c.notes
      && (c.boxWeight != 0.0 ==> last.boxWeight == c.boxWeight)
      && |last.items| == |c.items|
      && (forall j :: 0 <= j < |c.items| ==> last.items[j].sku == Upper(c.items[j].sku) && last.items[j].qty == c.items[j].qty)
      && (Persisted(s) && ItemsNormalized(s.boxes[boxIndex].items) ==> last.items == s.boxes[boxIndex].items)
  {
    PersistedBoxes(s);
    AppendedLines(s.boxes[boxIndex].items);
  }

  /** The fields an update request may carry; `None` is an absent field. */
  datatype Patch = Patch(
    destination: Option<string>,
    packGroup: Option<string>,
    fbaShipmentId: Option<string>,
    status: Option<Status>,
    boxes: Option<seq<Box>>,
    carrier: Option<string>,
    trackingNumber: Option<string>)

  function Patched<T>(o: Option<T>, current: T): T
  {
    if o.Some? then o.value else current
  }

  function NormalizeBoxes(boxes: seq<Box>): seq<Box>
  {
    seq(|boxes|, i requires 0 <= i < |boxes| => NormalizeBox(boxes[i]))
  }

  /** `Object.assign(shipment, updateData)`; box lines pass through the SKU setter. */
  function ApplyPatch(s: Shipment, p: Patch): Shipment
  {
    s.(destination := Patched(p.destination, s.destination),
       packGroup := Patched(p.packGroup, s.packGroup),
       fbaShipmentId := Patched(p.fbaShipmentId, s.fbaShipmentId),
       status := Patched(p.status, s.status),
       boxes := if p.boxes.Some? then NormalizeBoxes(p.boxes.value) else s.boxes,
       carrier := Patched(p.carrier, s.carrier),
       trackingNumber := Patched(p.trackingNumber, s.trackingNumber))
  }

  /**
   * `updateShipment`: the service's only guard is that a non-draft shipment
   * may not receive a box list; every other field, the status included, is
   * copied in as given and the result saved, so the save's validation
   * decides the rest.
   */
  function UpdateShipment(s: Shipment, p: Patch): (r: Result<Shipment>)
    ensures s.status != Draft && p.boxes.Some? ==> r == Err(IllegalTransition(FrozenBoxes))
    ensures r.Ok? ==> r.value.status == (if p.status.Some? then p.status.value else s.status)
    ensures r.Ok? && p.boxes.None? ==> forall k :: QtyOf(r.value.boxes, k) == QtyOf(s.boxes, k)
    ensures r.Ok? ==> s.status == Draft || p.boxes.None?
    ensures s.status == Draft || p.boxes.None? ==>
      var boxes := Patched(p.boxes, s.boxes);
      (r.Ok? <==> Patched(p.destination, s.destination) != "" && forall i :: 0 <= i < |boxes| ==> BoxValid(boxes[i]))
  {
    if s.status != Draft && p.boxes.Some? then Err(IllegalTransition(FrozenBoxes))
    else
      var x := ApplyPatch(s, p);
      PatchedValid(s, p);
      if Save(x).Ok? then
        SavedCounts(x);
        Save(x)
      else Save(x)
  }

  /** The setters on a patched box list never change which boxes are valid. */
  lemma PatchedValid(s: Shipment, p: Patch)
    ensures var boxes := Patched(p.boxes, s.boxes);
      ShipmentValid(ApplyPatch(s, p)) <==>
        Patched(p.destination, s.destination) != "" && forall i :: 0 <= i < |boxes| ==> BoxValid(boxes[i])
  {
    var x := ApplyPatch(s, p);
    assert x.destination == Patched(p.destination, s.destination);
    if p.boxes.Some? {
      var bs := p.boxes.value;
      assert x.boxes == NormalizeBoxes(bs);
      forall i | 0 <= i < |bs|
        ensures BoxValid(x.boxes[i]) <==> BoxValid(bs[i])
      {
        assert x.boxes[i] == NormalizeBox(bs[i]);
        NormalizeBoxValid(bs[i]);
      }
      assert |x.boxes| == |bs| && Patched(p.boxes, s.boxes) == bs;
      assert (forall i :: 0 <= i < |x.boxes| ==> BoxValid(x.boxes[i])) <==> (forall i :: 0 <= i < |bs| ==> BoxValid(bs[i]));
    } else {
      assert x.boxes == s.boxes == Patched(p.boxes, s.boxes);
    }
  }

  /** Stored shipments by document id. */
  type Store = map<nat, Shipment>

  /** `deleteShipment`: an unknown id and a non-draft shipment are refused. */
  function DeleteShipment(store: Store, id: nat): (r: Result<(Store, Shipment)>)
    ensures id !in store ==> r == Err(NotFound("Shipment"))
    ensures id in store && store[id].status != Draft ==> r == Err(IllegalTransition(DraftOnlyDelete))
    ensures r.Ok? <==> id in store && store[id].status == Draft
    ensures r.Ok? ==> r.value.1 == store[id] && r.value.0.Keys == store.Keys - {id}
    ensures r.Ok? ==> forall j :: j in r.value.0 ==> r.value.0[j] == store[j]
  {
    if id !in store then Err(NotFound("Shipment"))
    else if store[id].status != Draft then Err(IllegalTransition(DraftOnlyDelete))
    else Ok((store - {id}, store[id]))
  }

  // ---------------------------------------------------------------------------
  // Properties of the workflow
  // ---------------------------------------------------------------------------

  /** The status moves the dedicated operations make. */
  predicate WorkflowStep(from: Status, to: Status)
  {
    || (from == Draft && to == Ready)
    || (from == Ready && to == Shipped)
    || (to == Cancelled && from != Shipped && from != Delivered)
  }

  /** Finalize, ship and cancel move the status only along the workflow. */
  lemma WorkflowRespected(l: Ledger, s: Shipment, date: Option<nat>, now: nat, tracking: string, carrier: string)
    ensures FinalizeShipment(l, s).1.Ok? ==> WorkflowStep(s.status, FinalizeShipment(l, s).1.value.status)
    ensures ShipShipment(s, date, now, tracking, carrier).Ok? ==>
      WorkflowStep(s.status, ShipShipment(s, date, now, tracking, carrier).value.status)
    ensures CancelShipment(l, s).1.Ok? ==> WorkflowStep(s.status, CancelShipment(l, s).1.value.status)
  {
  }

  /** The box edits happen only in draft and leave the shipment in draft. */
  lemma EditsStayDraft(l: Ledger, s: Shipment, b: Box, i: int, it: Item, o: BoxOverrides)
    ensures AddBox(l, s, b).Ok? ==> s.status == Draft == AddBox(l, s, b).value.status
    ensures AddItemToBox(l, s, i, it).Ok? ==> s.status == Draft == AddItemToBox(l, s, i, it).value.status
    ensures DuplicateBox(l, s, i, o).Ok? ==> s.status == Draft == DuplicateBox(l, s, i, o).value.status
  {
    if AddItemToBox(l, s, i, it).Ok? {
      var box := s.boxes[i];
      SavedCounts(s.(boxes := s.boxes[i := box.(items := MergeItem(box.items, CheckLine(l, it).value))]));
    }
    if DuplicateBox(l, s, i, o).Ok? {
      SavedCounts(s.(boxes := s.boxes + [NormalizeBox(CopyOf(s, i, o))]));
    }
  }

  /** The update path is not held to the workflow: a draft can be set to delivered directly. */
  lemma UpdateSkipsWorkflow(s: Shipment)
    requires s.status == Draft && ShipmentValid(s)
    ensures var p := Patch(None, None, None, Some(Delivered), None, None, None);
      && UpdateShipment(s, p).Ok?
      && UpdateShipment(s, p).value.status == Delivered
      && !WorkflowStep(Draft, Delivered)
  {
    var p := Patch(None, None, None, Some(Delivered), None, None, None);
    assert ApplyPatch(s, p) == s.(status := Delivered);
  }

  /** Outside draft no operation adds, changes or removes boxes, and the shipment cannot be deleted. */
  lemma FrozenOutsideDraft(l: Ledger, store: Store, id: nat, b: Box, i: int, it: Item, o: BoxOverrides, boxes: seq<Box>, p: Patch)
    requires id in store && store[id].status != Draft
    ensures var s := store[id];
      && AddBox(l, s, b).Err?
      && AddItemToBox(l, s, i, it).Err?
      && DuplicateBox(l, s, i, o).Err?
      && UpdateShipment(s, p.(boxes := Some(boxes))).Err?
      && DeleteShipment(store, id).Err?
  {
  }

  /**
   * The headline round trip: cancelling a shipment that finalize made
   * ready gives back exactly the units finalize took, record by record.
   */
  lemma FinalizeThenCancelRestores(l: Ledger, s: Shipment)
    requires FinalizeShipment(l, s).1.Ok?
    ensures CancelShipment(FinalizeShipment(l, s).0, FinalizeShipment(l, s).1.value).0 == l
  {
    var f := FinalizeShipment(l, s);
    FinalizedIsReady(l, s);
    CancelReadyRestores(f.0, f.1.value);
    ShiftRoundTrip(l, s.boxes, f.1.value.boxes);
  }

  lemma FinalizedIsReady(l: Ledger, s: Shipment)
    requires FinalizeShipment(l, s).1.Ok?
    ensures FinalizeShipment(l, s).0 == Shift(l, s.boxes, Deduct)
    ensures FinalizeShipment(l, s).1.value.status == Ready
    ensures forall k :: QtyOf(FinalizeShipment(l, s).1.value.boxes, k) == QtyOf(s.boxes, k)
  {
  }

  lemma CancelReadyRestores(l: Ledger, s: Shipment)
    requires s.status == Ready
    ensures CancelShipment(l, s).0 == Shift(l, s.boxes, Restore)
  {
  }

  /** Deducting one box list and restoring another with the same per-SKU units is the identity. */
  lemma ShiftRoundTrip(l: Ledger, a: seq<Box>, b: seq<Box>)
    requires forall k :: QtyOf(b, k) == QtyOf(a, k)
    ensures Shift(Shift(l, a, Deduct), b, Restore) == l
  {
    var l1 := Shift(l, a, Deduct);
    var l2 := Shift(l1, b, Restore);
    forall k | k in l
      ensures l2[k] == l[k]
    {
      ShiftAt(l, a, Deduct, k);
      ShiftAt(l1, b, Restore, k);
      MovedBack(l[k], l1[k], l2[k], QtyOf(a, k));
    }
  }

  /** Taking `q` units out of a record and putting `q` back gives the record back. */
  lemma MovedBack(u: Inventory.StockUnit, u1: Inventory.StockUnit, u2: Inventory.StockUnit, q: int)
    requires u1 == Moved(u, Signed(Deduct, q)) && u2 == Moved(u1, Signed(Restore, q))
    ensures u2 == u
  {
  }

  /** The record of one SKU after a movement. */
  lemma ShiftAt(l: Ledger, boxes: seq<Box>, d: Direction, k: string)
    requires k in l
    ensures k in Shift(l, boxes, d) && Shift(l, boxes, d)[k] == Moved(l[k], Signed(d, QtyOf(boxes, k)))
  {
  }

  /** When every record covers the shipment's units, finalize leaves no record negative. */
  lemma FinalizeKeepsNonNegative(l: Ledger, s: Shipment)
    requires forall k :: k in l ==> l[k].availableQty >= QtyOf(s.boxes, k)
    ensures forall k :: k in l ==> FinalizeShipment(l, s).0[k].availableQty >= 0
  {
  }

  /**
   * The deduction happens even when finalize refuses: finalizing a ready
   * shipment again takes its units a second time and reports an error.
   */
  lemma RefinalizeDeductsAgain(l: Ledger, s: Shipment)
    requires FinalizeShipment(l, s).1.Ok?
    ensures var (l1, r) := FinalizeShipment(l, s);
      var (l2, r2) := FinalizeShipment(l1, r.value);
      && r2 == Err(IllegalTransition(AlreadyFinalized))
      && l2.Keys == l.Keys
      && forall k :: k in l ==> l2[k].availableQty == l[k].availableQty - 2 * QtyOf(s.boxes, k)
  {
  }

  function Record(sku: string, available: int): Inventory.StockUnit
  {
    Inventory.StockUnit(sku, sku, "", "", "", "NewItem", "NONE", available, 0, 0.0, 0.0, 0.0, "", 10, true, None)
  }

  function Line(sku: string, qty: int): Item
  {
    Item(sku, sku, ItemMeta("", "", "", "NewItem", "NONE"), qty, 0, 0.0, 0.0)
  }

  function DraftWith(lines: seq<Item>): Shipment
  {
    Shipment("", "1", "", "FBA", Draft, [Box("BOX1", "", lines, 0.0, None, "")], 0, 0, 0, 0.0, "", "", None)
  }

  /**
   * Lines are checked against `availableQty` alone, not against what other
   * drafts already hold: two drafts of 5 and 8 units both pass against 10
   * available, and finalizing both leaves the record at −3.
   */
  lemma DraftsCanOvercommit()
    ensures CheckLines(TenOfA(), [Line("A", 5)]).Ok? && CheckLines(TenOfA(), [Line("A", 8)]).Ok?
    ensures FinalizeShipment(TenOfA(), DraftWith([Line("A", 5)])).1.Ok?
    ensures var l1 := FinalizeShipment(TenOfA(), DraftWith([Line("A", 5)])).0;
      && FinalizeShipment(l1, DraftWith([Line("A", 8)])).1.Ok?
      && FinalizeShipment(l1, DraftWith([Line("A", 8)])).0["A"].availableQty == -3
  {
    var l := TenOfA();
    CheckOneLine(l, "A", 5);
    CheckOneLine(l, "A", 8);
    FinalizeOneLine(l, "A", 5);
    var l1 := FinalizeShipment(l, DraftWith([Line("A", 5)])).0;
    FinalizeOneLine(l1, "A", 8);
  }

  function TenOfA(): Ledger
  {
    map["A" := Record("A", 10)]
  }

  function EmptyDraft(): Shipment
  {
    Shipment("", "1", "", "FBA", Draft, [], 0, 0, 0, 0.0, "", "", None)
  }

  function BoxOf(line: Item): Box
  {
    Box("BOX1", "", [line], 0.0, None, "")
  }

  /**
   * Boxes added to one draft are checked one at a time as well: a box of 5
   * and then a box of 8 units are both accepted against 10 available, and
   * finalizing the draft succeeds and leaves the record at −3.
   */
  lemma OneDraftOverdraws()
    ensures var l := TenOfA();
      var s1 := AddBox(l, EmptyDraft(), BoxOf(Line("A", 5)));
      && s1.Ok?
      && var s2 := AddBox(l, s1.value, BoxOf(Line("A", 8)));
      && s2.Ok?
      && l["A"].availableQty == 10 && QtyOf(s2.value.boxes, "A") == 13
      && FinalizeShipment(l, s2.value).1.Ok?
      && FinalizeShipment(l, s2.value).0["A"].availableQty == -3
  {
    var l := TenOfA();
    AddLineBox(l, EmptyDraft(), "A", 5);
    var s1 := AddBox(l, EmptyDraft(), BoxOf(Line("A", 5))).value;
    AddLineBox(l, s1, "A", 8);
  }

  /** A one-line box of a stocked SKU is accepted into a valid draft and adds its units. */
  lemma AddLineBox(l: Ledger, s: Shipment, sku: string, q: int)
    requires s.status == Draft && ShipmentValid(s)
    requires q >= 1 && sku == Upper(sku) && sku != "" && sku in l
    requires l[sku].isActive && l[sku].availableQty >= q && Inventory.Persistable(l[sku])
    ensures AddBox(l, s, BoxOf(Line(sku, q))).Ok?
    ensures var r := AddBox(l, s, BoxOf(Line(sku, q))).value;
      && r.status == Draft && ShipmentValid(r) && |r.boxes| > 0
      && QtyOf(r.boxes, sku) == QtyOf(s.boxes, sku) + q
  {
    var b := BoxOf(Line(sku, q));
    CheckOneLine(l, sku, q);
    var items := CheckLines(l, b.items).value;
    assert items[0] == CheckLine(l, b.items[0]).value;
    var x := s.(boxes := s.boxes + [NormalizeBox(b.(items := items))]);
    assert ShipmentValid(x) by {
      var nb := NormalizeBox(b.(items := items));
      assert BoxValid(nb) by {
        assert ItemValid(nb.items[0]);
      }
      assert forall i :: 0 <= i < |x.boxes| ==> x.boxes[i] == if i < |s.boxes| then s.boxes[i] else nb;
    }
    SaveKeepsValid(x);
    QtyInSingle(Line(sku, q));
  }

  lemma CheckOneLine(l: Ledger, sku: string, q: int)
    requires sku == Upper(sku) && sku in l && l[sku].isActive && l[sku].availableQty >= q
    ensures CheckLines(l, [Line(sku, q)]).Ok?
  {
    assert Stocked(l, [Line(sku, q)][0]);
  }

  /** Finalizing a one-line draft of `q` units of `sku` takes exactly `q` from its record. */
  lemma FinalizeOneLine(l: Ledger, sku: string, q: int)
    requires q >= 1 && sku == Upper(sku) && sku != "" && sku in l
    ensures var f := FinalizeShipment(l, DraftWith([Line(sku, q)]));
      && f.1.Ok?
      && sku in f.0 && f.0[sku].availableQty == l[sku].availableQty - q
  {
    OneLineBox(sku, q);
  }

  lemma OneLineBox(sku: string, q: int)
    requires q >= 1 && sku == Upper(sku) && sku != ""
    ensures QtyOf(DraftWith([Line(sku, q)]).boxes, sku) == q
    ensures ShipmentValid(DraftWith([Line(sku, q)]))
  {
    var b := DraftWith([Line(sku, q)]).boxes;
    assert b[..0] == [];
    QtyInSingle(Line(sku, q));
    assert QtyOf(b, sku) == QtyOf([], sku) + QtyIn(b[0].items, sku);
  }
}

=== FILE: shipments.dfy ===
/**
 * The shipment aggregate: an ordered list of boxes holding item lines, a
 * status, and cached totals that every save recomputes from the box list.
 * The schema's own methods (add a box, add an item to a box, finalize,
 * mark as shipped) and the identifier hook live here; the ledger-aware
 * orchestration is in ShipmentService.
 */
module Shipments {
  import opened Common
  import Ids

  datatype Status = Draft | Ready | Shipped | Delivered | Cancelled

  /** Catalogue fields an item line carries along without interpreting them. */
  datatype ItemMeta = ItemMeta(productId: string, asin: string, fnsku: string, condition: string, prepType: string)

  datatype Item = Item(
    sku: string,
    productName: string,
    meta: ItemMeta,
    qty: int,
    expectedQty: int,
    unitWeight: real,
    totalWeight: real)

  datatype Dimensions = Dimensions(length: real, width: real, height: real)

  datatype Box = Box(
    boxNo: string,
    boxName: string,
    items: seq<Item>,
    boxWeight: real,
    dimensions: Option<Dimensions>,
    notes: string)

  datatype Shipment = Shipment(
    shipmentId: string,
    packGroup: string,
    fbaShipmentId: string,
    destination: string,
    status: Status,
    boxes: seq<Box>,
    totalSKUs: int,
    totalBoxes: int,
    totalItems: int,
    totalWeight: real,
    carrier: string,
    trackingNumber: string,
    shipmentDate: Option<nat>)

  /** Lines are matched by SKU without regard to case. */
  function Key(it: Item): string
  {
    Upper(it.sku)
  }

  // ---------------------------------------------------------------------------
  // Quantities and weights
  // ---------------------------------------------------------------------------

  /** Units on the lines of one box. */
  function Qty(items: seq<Item>): int
  {
    if |items| == 0 then 0 else Qty(items[..|items| - 1]) + items[|items| - 1].qty
  }

  /** Units of SKU `k` on the lines of one box. */
  function QtyIn(items: seq<Item>, k: string): int
  {
    if |items| == 0 then 0
    else QtyIn(items[..|items| - 1], k) + (if Key(items[|items| - 1]) == k then items[|items| - 1].qty else 0)
  }

  /** Units on every line of every box. */
  function TotalQty(boxes: seq<Box>): int
  {
    if |boxes| == 0 then 0 else TotalQty(boxes[..|boxes| - 1]) + Qty(boxes[|boxes| - 1].items)
  }

  /** Units of SKU `k` across all boxes. */
  function QtyOf(boxes: seq<Box>, k: string): int
  {
    if |boxes| == 0 then 0 else QtyOf(boxes[..|boxes| - 1], k) + QtyIn(boxes[|boxes| - 1].items, k)
  }

  /** Sum of the lines' stored `totalWeight`. */
  function ItemsWeight(items: seq<Item>): real
  {
    if |items| == 0 then 0.0 else ItemsWeight(items[..|items| - 1]) + items[|items| - 1].totalWeight
  }

  /** Sum of `qty × unitWeight` over the lines. */
  function LineWeights(items: seq<Item>): real
  {
    if |items| == 0 then 0.0
    else LineWeights(items[..|items| - 1]) + items[|items| - 1].qty as real * items[|items| - 1].unitWeight
  }

  function BoxesWeight(boxes: seq<Box>): real
  {
    if |boxes| == 0 then 0.0 else BoxesWeight(boxes[..|boxes| - 1]) + boxes[|boxes| - 1].boxWeight
  }

  /** Upper-cased SKUs of the lines of one box, accumulated as the hook's set does. */
  function ItemKeys(items: seq<Item>): set<string>
  {
    if |items| == 0 then {} else ItemKeys(items[..|items| - 1]) + {Key(items[|items| - 1])}
  }

  function SkuSet(boxes: seq<Box>): set<string>
  {
    if |boxes| == 0 then {} else SkuSet(boxes[..|boxes| - 1]) + ItemKeys(boxes[|boxes| - 1].items)
  }

  /** Every SKU that occurs on some line of some box, stated directly. */
  function AllKeys(boxes: seq<Box>): set<string>
  {
    set i, j | 0 <= i < |boxes| && 0 <= j < |boxes[i].items| :: Key(boxes[i].items[j])
  }

  // ---------------------------------------------------------------------------
  // The totals hook
  // ---------------------------------------------------------------------------

  function RecomputeItem(it: Item): Item
  {
    it.(totalWeight := it.qty as real * it.unitWeight)
  }

  function RecomputeItems(items: seq<Item>): seq<Item>
  {
    seq(|items|, j requires 0 <= j < |items| => RecomputeItem(items[j]))
  }

  /** Each line's weight is refreshed; a box weight of 0 is replaced by its lines' weight. */
  function RecomputeBox(b: Box): Box
  {
    var items := RecomputeItems(b.items);
    b.(items := items, boxWeight := if b.boxWeight == 0.0 then ItemsWeight(items) else b.boxWeight)
  }

  function RecomputeBoxes(boxes: seq<Box>): seq<Box>
  {
    seq(|boxes|, i requires 0 <= i < |boxes| => RecomputeBox(boxes[i]))
  }

  /**
   * The pre-save totals hook, as a pure function of the box list: one box
   * count per box, every box recomputed in place, and the per-SKU units, the
   * unit total and the SKU set of the boxes kept.
   */
  function Recompute(s: Shipment): (r: Shipment)
    ensures r.totalBoxes == |r.boxes| == |s.boxes|
    ensures r.totalItems == TotalQty(s.boxes) == TotalQty(r.boxes)
    ensures forall k :: QtyOf(r.boxes, k) == QtyOf(s.boxes, k)
    ensures forall i :: 0 <= i < |s.boxes| ==> r.boxes[i] == RecomputeBox(s.boxes[i])
    ensures r.status == s.status && r.shipmentId == s.shipmentId
  {
    RecomputedBoxesCounts(s.boxes);
    var boxes := RecomputeBoxes(s.boxes);
    s.(boxes := boxes,
       totalBoxes := |s.boxes|,
       totalItems := TotalQty(s.boxes),
       totalWeight := BoxesWeight(boxes),
       totalSKUs := |SkuSet(s.boxes)|)
  }

  /** A stored aggregate: the totals hook has nothing left to change. */
  predicate Persisted(s: Shipment)
  {
    Recompute(s) == s
  }

  // ---------------------------------------------------------------------------
  // Facts about the sums
  // ---------------------------------------------------------------------------

  lemma {:induction false} QtyInConcat(a: seq<Item>, b: seq<Item>, k: string)
    ensures QtyIn(a + b, k) == QtyIn(a, k) + QtyIn(b, k)
    decreases |b|
  {
    if |b| == 0 {
      assert a + b == a;
    } else {
      assert (a + b)[..|a + b| - 1] == a + b[..|b| - 1];
      QtyInConcat(a, b[..|b| - 1], k);
    }
  }

  lemma QtyInSingle(x: Item)
    ensures forall k :: QtyIn([x], k) == if Key(x) == k then x.qty else 0
  {
    assert [x][..0] == [];
  }

  lemma {:induction false} QtyConcat(a: seq<Item>, b: seq<Item>)
    ensures Qty(a + b) == Qty(a) + Qty(b)
    decreases |b|
  {
    if |b| == 0 {
      assert a + b == a;
    } else {
      assert (a + b)[..|a + b| - 1] == a + b[..|b| - 1];
      QtyConcat(a, b[..|b| - 1]);
    }
  }

  lemma {:induction false} QtyInAbsent(items: seq<Item>, k: string)
    requires forall j :: 0 <= j < |items| ==> Key(items[j]) != k
    ensures QtyIn(items, k) == 0
    decreases |items|
  {
    if |items| > 0 {
      QtyInAbsent(items[..|items| - 1], k);
    }
  }

  lemma {:induction false} QtyInNonNegative(items: seq<Item>, k: string)
    requires forall j :: 0 <= j < |items| ==> items[j].qty >= 1
    ensures QtyIn(items, k) >= 0
    decreases |items|
  {
    if |items| > 0 {
      QtyInNonNegative(items[..|items| - 1], k);
    }
  }

  /** Lines that agree on SKU and quantity carry the same per-SKU units. */
  predicate SameCounts(a: seq<Item>, b: seq<Item>)
  {
    |a| == |b| && forall j :: 0 <= j < |a| ==> a[j].sku == b[j].sku && a[j].qty == b[j].qty
  }

  lemma {:induction false} SameCountsQty(a: seq<Item>, b: seq<Item>)
    requires SameCounts(a, b)
    ensures forall k :: QtyIn(a, k) == QtyIn(b, k)
    ensures Qty(a) == Qty(b)
    ensures ItemKeys(a) == ItemKeys(b)
    decreases |a|
  {
    if |a| > 0 {
      SameCountsQty(a[..|a| - 1], b[..|b| - 1]);
    }
  }

  lemma {:induction false} RecomputedBoxesCounts(boxes: seq<Box>)
    ensures forall k :: QtyOf(RecomputeBoxes(boxes), k) == QtyOf(boxes, k)
    ensures TotalQty(RecomputeBoxes(boxes)) == TotalQty(boxes)
    ensures SkuSet(RecomputeBoxes(boxes)) == SkuSet(boxes)
    decreases |boxes|
  {
    if |boxes| > 0 {
      var n := |boxes| - 1;
      assert RecomputeBoxes(boxes)[..n] == RecomputeBoxes(boxes[..n]);
      RecomputedBoxesCounts(boxes[..n]);
      SameCountsQty(boxes[n].items, RecomputeBoxes(boxes)[n].items);
    }
  }

  lemma {:induction false} ItemsWeightRecomputed(items: seq<Item>)
    ensures ItemsWeight(RecomputeItems(items)) == LineWeights(items)
    decreases |items|
  {
    if |items| > 0 {
      var n := |items| - 1;
      assert RecomputeItems(items)[..n] == RecomputeItems(items[..n]);
      ItemsWeightRecomputed(items[..n]);
    }
  }

  lemma {:induction false} ItemKeysMembers(items: seq<Item>)
    ensures ItemKeys(items) == set j | 0 <= j < |items| :: Key(items[j])
    decreases |items|
  {
    if |items| > 0 {
      ItemKeysMembers(items[..|items| - 1]);
    }
  }

  lemma {:induction false} SkuSetIsAllKeys(boxes: seq<Box>)
    ensures SkuSet(boxes) == AllKeys(boxes)
    decreases |boxes|
  {
    if |boxes| > 0 {
      var n := |boxes| - 1;
      SkuSetIsAllKeys(boxes[..n]);
      ItemKeysMembers(boxes[n].items);
      AllKeysSnoc(boxes);
    }
  }

  /** The keys of a box list are those of all boxes but the last, plus the last box's. */
  lemma AllKeysSnoc(boxes: seq<Box>)
    requires |boxes| > 0
    ensures var n := |boxes| - 1;
      AllKeys(boxes) == AllKeys(boxes[..n]) + set j | 0 <= j < |boxes[n].items| :: Key(boxes[n].items[j])
  {
    var n := |boxes| - 1;
    var pre := boxes[..n];
    var last := set j | 0 <= j < |boxes[n].items| :: Key(boxes[n].items[j]);
    forall k | k in AllKeys(boxes)
      ensures k in AllKeys(pre) + last
    {
      var i, j :| 0 <= i < |boxes| && 0 <= j < |boxes[i].items| && Key(boxes[i].items[j]) == k;
      if i < n {
        assert pre[i] == boxes[i];
        assert Key(pre[i].items[j]) in AllKeys(pre);
      } else {
        assert Key(boxes[n].items[j]) in last;
      }
    }
    forall k | k in AllKeys(pre) + last
      ensures k in AllKeys(boxes)
    {
      if k in AllKeys(pre) {
        var i, j :| 0 <= i < n && 0 <= j < |pre[i].items| && Key(pre[i].items[j]) == k;
        assert pre[i] == boxes[i];
        assert Key(boxes[i].items[j]) in AllKeys(boxes);
      } else {
        var j :| 0 <= j < |boxes[n].items| && Key(boxes[n].items[j]) == k;
        assert Key(boxes[n].items[j]) in AllKeys(boxes);
      }
    }
  }

  /** One box after the hook: same lines by SKU and quantity, refreshed line weights, a derived box weight only where it was 0. */
  predicate BoxRecomputed(b: Box, r: Box)
  {
    && SameCounts(b.items, r.items)
    && (forall j :: 0 <= j < |b.items| ==> r.items[j].totalWeight == b.items[j].qty as real * b.items[j].unitWeight)
    && r.boxWeight == (if b.boxWeight == 0.0 then LineWeights(b.items) else b.boxWeight)
  }

  lemma RecomputeBoxFacts(b: Box)
    ensures BoxRecomputed(b, RecomputeBox(b))
  {
    ItemsWeightRecomputed(b.items);
  }

  /**
   * What a save leaves in the aggregate: one count per box, the units of
   * every line, the number of distinct upper-cased SKUs, refreshed line
   * weights, box weights derived only where they were 0, and the total
   * weight as the sum of box weights. Lines keep their SKU and quantity.
   */
  lemma RecomputeTotals(s: Shipment)
    ensures var r := Recompute(s);
      && r.totalBoxes == |s.boxes| == |r.boxes|
      && r.totalItems == TotalQty(s.boxes)
      && r.totalSKUs == |AllKeys(s.boxes)|
      && r.totalWeight == BoxesWeight(r.boxes)
      && (forall i :: 0 <= i < |s.boxes| ==> BoxRecomputed(s.boxes[i], r.boxes[i]))
      && r.(boxes := s.boxes, totalBoxes := s.totalBoxes, totalItems := s.totalItems,
            totalWeight := s.totalWeight, totalSKUs := s.totalSKUs) == s
  {
    SkuSetIsAllKeys(s.boxes);
    var r := Recompute(s);
    forall i | 0 <= i < |s.boxes|
      ensures BoxRecomputed(s.boxes[i], r.boxes[i])
    {
      RecomputeBoxFacts(s.boxes[i]);
    }
  }

  lemma RecomputeBoxIdempotent(b: Box)
    ensures RecomputeBox(RecomputeBox(b)) == RecomputeBox(b)
  {
    var items := RecomputeItems(b.items);
    assert forall j :: 0 <= j < |items| ==> RecomputeItem(items[j]) == items[j];
    assert RecomputeItems(items) == items;
  }

  /** Recomputing totals twice gives the same aggregate as recomputing once. */
  lemma RecomputeIdempotent(s: Shipment)
    ensures Persisted(Recompute(s))
  {
    var r := Recompute(s);
    forall i | 0 <= i < |s.boxes|
      ensures RecomputeBox(r.boxes[i]) == r.boxes[i]
    {
      RecomputeBoxIdempotent(s.boxes[i]);
    }
    assert RecomputeBoxes(r.boxes) == r.boxes;
    RecomputedBoxesCounts(s.boxes);
  }

  // ---------------------------------------------------------------------------
  // Schema validation and save
  // ---------------------------------------------------------------------------

  /** The two enumerated catalogue fields hold listed values (or are absent). */
  predicate MetaValid(m: ItemMeta)
  {
    ConditionOk(m.condition) && PrepTypeOk(m.prepType)
  }

  predicate ItemValid(it: Item)
  {
    it.sku != "" && it.productName != "" && it.qty >= 1 && it.unitWeight >= 0.0 && MetaValid(it.meta)
  }

  predicate DimensionsValid(d: Option<Dimensions>)
  {
    d.Some? ==> d.value.length >= 0.0 && d.value.width >= 0.0 && d.value.height >= 0.0
  }

  predicate BoxValid(b: Box)
  {
    && b.boxNo != ""
    && b.boxWeight >= 0.0
    && DimensionsValid(b.dimensions)
    && forall j :: 0 <= j < |b.items| ==> ItemValid(b.items[j])
  }

  predicate ShipmentValid(s: Shipment)
  {
    s.destination != "" && forall i :: 0 <= i < |s.boxes| ==> BoxValid(s.boxes[i])
  }

  /**
   * `save()`: schema validation first, then the totals hook. Validation is
   * the only way to fail, and what is stored passes validation again and is
   * left unchanged by a second hook run.
   */
  function Save(s: Shipment): (r: Result<Shipment>)
    ensures r.Ok? <==> ShipmentValid(s)
    ensures r.Err? ==> r.error == Validation("shipment")
    ensures r.Ok? ==> ShipmentValid(r.value) && Persisted(r.value)
    ensures r.Ok? ==> r.value.status == s.status && |r.value.boxes| == |s.boxes|
  {
    if ShipmentValid(s) then
      RecomputeKeepsValid(s);
      Ok(Recompute(s))
    else Err(Validation("shipment"))
  }

  lemma {:induction false} LineWeightsNonNegative(items: seq<Item>)
    requires forall j :: 0 <= j < |items| ==> ItemValid(items[j])
    ensures LineWeights(items) >= 0.0
    decreases |items|
  {
    if |items| > 0 {
      LineWeightsNonNegative(items[..|items| - 1]);
    }
  }

  /** A saved aggregate passes validation again and is a fixed point of the hook. */
  lemma SaveKeepsValid(s: Shipment)
    requires Save(s).Ok?
    ensures ShipmentValid(Save(s).value) && Persisted(Save(s).value)
  {
    RecomputeKeepsValid(s);
  }

  /** The hook keeps a valid aggregate valid: derived weights never break the `min: 0` bounds. */
  lemma RecomputeKeepsValid(s: Shipment)
    requires ShipmentValid(s)
    ensures ShipmentValid(Recompute(s)) && Persisted(Recompute(s))
  {
    RecomputeIdempotent(s);
    RecomputeTotals(s);
    var r := Recompute(s);
    forall i | 0 <= i < |r.boxes|
      ensures BoxValid(r.boxes[i])
    {
      LineWeightsNonNegative(s.boxes[i].items);
    }
  }

  // ---------------------------------------------------------------------------
  // Schema methods (models/Shipment.js)
  // ---------------------------------------------------------------------------

  const NotDraftBoxes := "Cannot add boxes to a non-draft shipment"
  const NotDraftItems := "Cannot add items to a non-draft shipment"
  const AlreadyFinalized := "Shipment is already finalized"
  const NotReadyToShip := "Shipment must be ready before shipping"

  /** The `uppercase` setters on a line's SKU, ASIN and FNSKU. */
  function NormalizeItem(it: Item): Item
  {
    it.(sku := Upper(it.sku), meta := it.meta.(asin := Upper(it.meta.asin), fnsku := Upper(it.meta.fnsku)))
  }

  function NormalizeItems(items: seq<Item>): seq<Item>
  {
    seq(|items|, j requires 0 <= j < |items| => NormalizeItem(items[j]))
  }

  function NormalizeBox(b: Box): Box
  {
    b.(items := NormalizeItems(b.items))
  }

  /** Lines the setters leave as they are: SKU, ASIN and FNSKU already upper-case. */
  predicate ItemsNormalized(items: seq<Item>)
  {
    forall j :: 0 <= j < |items| ==> NormalizeItem(items[j]) == items[j]
  }

  /** The SKU setter changes no per-SKU or total units. */
  lemma {:induction false} NormalizedCounts(items: seq<Item>)
    ensures forall k :: QtyIn(NormalizeItems(items), k) == QtyIn(items, k)
    ensures Qty(NormalizeItems(items)) == Qty(items)
    decreases |items|
  {
    var m := NormalizeItems(items);
    if |items| > 0 {
      var n := |items| - 1;
      assert m[..n] == NormalizeItems(items[..n]);
      NormalizedCounts(items[..n]);
      UpperIdempotent(items[n].sku);
    }
  }

  /** Schema method `addBox(boxData)`. */
  function AddBoxTo(s: Shipment, b: Box): (r: Result<Shipment>)
    ensures s.status != Draft ==> r == Err(IllegalTransition(NotDraftBoxes))
    ensures s.status == Draft && r.Err? ==> r.error == Validation("shipment")
    ensures r.Ok? ==> r.value.status == Draft && |r.value.boxes| == |s.boxes| + 1
    ensures r.Ok? ==> r.value.boxes[..|s.boxes|] == RecomputeBoxes(s.boxes)
    ensures r.Ok? && Persisted(s) ==> r.value.boxes[..|s.boxes|] == s.boxes
    ensures r.Ok? ==> r.value.boxes[|s.boxes|] == RecomputeBox(NormalizeBox(b))
    ensures r.Ok? ==> forall k :: QtyOf(r.value.boxes, k) == QtyOf(s.boxes, k) + QtyIn(b.items, k)
    ensures r.Ok? ==> Save(r.value) == r
    ensures s.status == Draft ==> (r.Ok? <==> ShipmentValid(s) && BoxValid(b))
  {
    AppendValid(s, NormalizeBox(b));
    NormalizeBoxValid(b);
    if s.status != Draft then Err(IllegalTransition(NotDraftBoxes))
    else
      var r := Save(s.(boxes := s.boxes + [NormalizeBox(b)]));
      if r.Ok? then
        SavedAppend(s, NormalizeBox(b));
        AppendBoxCounts(s.boxes, b);
        r
      else r
  }

  /** Appending a box keeps the aggregate valid exactly when the box itself is valid. */
  lemma AppendValid(s: Shipment, nb: Box)
    ensures ShipmentValid(s.(boxes := s.boxes + [nb])) <==> ShipmentValid(s) && BoxValid(nb)
  {
    var m := s.boxes + [nb];
    assert m[|s.boxes|] == nb;
    assert forall i :: 0 <= i < |s.boxes| ==> m[i] == s.boxes[i];
  }

  /** The setters never make a line valid or invalid: a SKU is empty exactly when its upper-cased form is. */
  lemma NormalizeItemValid(it: Item)
    ensures ItemValid(NormalizeItem(it)) <==> ItemValid(it)
  {
    UpperEmpty(it.sku);
  }

  lemma NormalizeBoxValid(b: Box)
    ensures BoxValid(NormalizeBox(b)) <==> BoxValid(b)
  {
    forall j | 0 <= j < |b.items|
      ensures ItemValid(NormalizeBox(b).items[j]) <==> ItemValid(b.items[j])
    {
      NormalizeItemValid(b.items[j]);
    }
  }

  /** A stored aggregate's boxes are fixed points of the hook. */
  lemma PersistedBoxes(s: Shipment)
    ensures Persisted(s) ==> RecomputeBoxes(s.boxes) == s.boxes
    ensures Persisted(s) ==> forall i :: 0 <= i < |s.boxes| ==> RecomputeBox(s.boxes[i]) == s.boxes[i]
  {
    if Persisted(s) {
      assert Recompute(s).boxes == s.boxes;
    }
  }

  /** Saving with one more box: the earlier boxes as the hook leaves them, then the new one. */
  lemma SavedAppend(s: Shipment, nb: Box)
    requires ShipmentValid(s.(boxes := s.boxes + [nb]))
    ensures var r := Recompute(s.(boxes := s.boxes + [nb]));
      && r.boxes == RecomputeBoxes(s.boxes) + [RecomputeBox(nb)]
      && (Persisted(s) ==> r.boxes[..|s.boxes|] == s.boxes)
  {
    assert RecomputeBoxes(s.boxes + [nb]) == RecomputeBoxes(s.boxes) + [RecomputeBox(nb)];
    PersistedBoxes(s);
  }

  lemma AppendBoxCounts(boxes: seq<Box>, b: Box)
    ensures forall k :: QtyOf(boxes + [NormalizeBox(b)], k) == QtyOf(boxes, k) + QtyIn(b.items, k)
    ensures TotalQty(boxes + [NormalizeBox(b)]) == TotalQty(boxes) + Qty(b.items)
  {
    var nb := NormalizeBox(b);
    var m := boxes + [nb];
    assert m[..|boxes|] == boxes;
    assert m[|m| - 1] == nb;
    NormalizedCounts(b.items);
    forall k ensures QtyOf(m, k) == QtyOf(boxes, k) + QtyIn(b.items, k) {
      assert QtyOf(m, k) == QtyOf(boxes, k) + QtyIn(nb.items, k);
    }
    assert TotalQty(m) == TotalQty(boxes) + Qty(nb.items);
  }

  /** `findIndex` of the first line whose SKU matches `k` case-insensitively, or -1. */
  function FindKey(items: seq<Item>, k: string): (r: int)
    ensures -1 <= r < |items|
    ensures r >= 0 ==> Key(items[r]) == k && forall j :: 0 <= j < r ==> Key(items[j]) != k
    ensures r == -1 ==> forall j :: 0 <= j < |items| ==> Key(items[j]) != k
    decreases |items|
  {
    if |items| == 0 then -1
    else if Key(items[0]) == k then 0
    else
      var r := FindKey(items[1..], k);
      if r == -1 then -1 else r + 1
  }

  /** Lines of a box after adding `it`: merge into the matching line, or append. */
  function MergeItem(items: seq<Item>, it: Item): seq<Item>
  {
    var j := FindKey(items, Upper(it.sku));
    if j >= 0 then items[j := Bumped(items[j], it.qty)] else items + [NormalizeItem(it)]
  }

  /** A line whose quantity grew by `q`, with its weight refreshed. */
  function Bumped(line: Item, q: int): Item
  {
    var n := line.qty + q;
    line.(qty := n, totalWeight := n as real * line.unitWeight)
  }

  /** Schema method `addItemToBox(boxIndex, itemData)`. */
  function AddItemTo(s: Shipment, boxIndex: int, it: Item): (r: Result<Shipment>)
    ensures s.status != Draft ==> r == Err(IllegalTransition(NotDraftItems))
    ensures s.status == Draft && !(0 <= boxIndex < |s.boxes|) ==> r == Err(InvalidBoxIndex)
    ensures s.status == Draft && 0 <= boxIndex < |s.boxes| && r.Err? ==> r.error == Validation("shipment")
    ensures r.Ok? ==> r.value.status == Draft && |r.value.boxes| == |s.boxes|
    ensures r.Ok? ==> r.value.boxes[boxIndex].items == RecomputeItems(MergeItem(s.boxes[boxIndex].items, it))
    ensures r.Ok? ==> forall j :: 0 <= j < |s.boxes| && j != boxIndex ==> r.value.boxes[j] == RecomputeBox(s.boxes[j])
    ensures r.Ok? && Persisted(s) ==> forall j :: 0 <= j < |s.boxes| && j != boxIndex ==> r.value.boxes[j] == s.boxes[j]
    ensures r.Ok? ==> Save(r.value) == r
    ensures s.status == Draft && 0 <= boxIndex < |s.boxes| && ShipmentValid(s) ==>
      (r.Ok? <==> MergeAccepted(s.boxes[boxIndex].items, it))
  {
    if s.status != Draft then Err(IllegalTransition(NotDraftItems))
    else if boxIndex < 0 || boxIndex >= |s.boxes| then Err(InvalidBoxIndex)
    else
      var box := s.boxes[boxIndex];
      MergedSaved(s, boxIndex, it);
      ReplaceBoxValid(s, boxIndex, MergeItem(box.items, it), it);
      Save(s.(boxes := s.boxes[boxIndex := box.(items := MergeItem(box.items, it))]))
  }

  /** Saving the shipment with box `i`'s lines merged: only that box's lines change, besides the hook. */
  lemma MergedSaved(s: Shipment, i: nat, it: Item)
    requires i < |s.boxes|
    ensures var x := s.(boxes := s.boxes[i := s.boxes[i].(items := MergeItem(s.boxes[i].items, it))]);
      Save(x).Ok? ==>
        && Save(x).value.boxes[i].items == RecomputeItems(MergeItem(s.boxes[i].items, it))
        && (forall j :: 0 <= j < |s.boxes| && j != i ==> Save(x).value.boxes[j] == RecomputeBox(s.boxes[j]))
        && (Persisted(s) ==> forall j :: 0 <= j < |s.boxes| && j != i ==> Save(x).value.boxes[j] == s.boxes[j])
  {
    PersistedBoxes(s);
  }

  /**
   * Whether a valid box's lines stay valid after adding `it`: a merge needs
   * the summed quantity to stay at least 1, an appended line must be valid
   * on its own.
   */
  predicate MergeAccepted(items: seq<Item>, it: Item)
  {
    var j := FindKey(items, Upper(it.sku));
    if j >= 0 then items[j].qty + it.qty >= 1 else ItemValid(it)
  }

  /** On valid lines the merged lines are valid exactly when the merge is accepted. */
  lemma MergeValid(items: seq<Item>, it: Item)
    requires forall j :: 0 <= j < |items| ==> ItemValid(items[j])
    ensures (forall j :: 0 <= j < |MergeItem(items, it)| ==> ItemValid(MergeItem(items, it)[j])) <==> MergeAccepted(items, it)
  {
    var m := MergeItem(items, it);
    var x := FindKey(items, Upper(it.sku));
    if x >= 0 {
      assert m[x] == Bumped(items[x], it.qty);
    } else {
      NormalizeItemValid(it);
      assert m[|items|] == NormalizeItem(it);
      assert forall j :: 0 <= j < |items| ==> m[j] == items[j];
    }
  }

  /** Replacing the lines of box `i` of a valid aggregate: valid again exactly when the merge is accepted. */
  lemma ReplaceBoxValid(s: Shipment, i: nat, m: seq<Item>, it: Item)
    requires i < |s.boxes| && m == MergeItem(s.boxes[i].items, it)
    ensures ShipmentValid(s) ==>
      (ShipmentValid(s.(boxes := s.boxes[i := s.boxes[i].(items := m)])) <==> MergeAccepted(s.boxes[i].items, it))
  {
    if ShipmentValid(s) {
      assert BoxValid(s.boxes[i]);
      MergeValid(s.boxes[i].items, it);
      var x := s.(boxes := s.boxes[i := s.boxes[i].(items := m)]);
      assert x.boxes[i] == s.boxes[i].(items := m);
      assert forall b :: 0 <= b < |s.boxes| && b != i ==> x.boxes[b] == s.boxes[b];
    }
  }

  /**
   * Adding a line of SKU `k` either raises the matching line's quantity and
   * adds no line, or appends exactly one line at the end; no other line
   * changes and only SKU `k` gains units.
   */
  lemma MergeItemEffect(items: seq<Item>, it: Item)
    ensures var m := MergeItem(items, it); var k := Upper(it.sku);
      && (FindKey(items, k) >= 0 ==>
            && |m| == |items|
            && m[FindKey(items, k)].qty == items[FindKey(items, k)].qty + it.qty
            && forall j :: 0 <= j < |items| && j != FindKey(items, k) ==> m[j] == items[j])
      && (FindKey(items, k) == -1 ==>
            && |m| == |items| + 1
            && m[..|items|] == items
            && m[|items|] == NormalizeItem(it))
      && QtyIn(m, k) == QtyIn(items, k) + it.qty
      && (forall k' :: k' != k ==> QtyIn(m, k') == QtyIn(items, k'))
      && Qty(m) == Qty(items) + it.qty
  {
    var k := Upper(it.sku);
    var j := FindKey(items, k);
    UpperIdempotent(it.sku);
    if j >= 0 {
      var x := Bumped(items[j], it.qty);
      ReplaceLineQty(items, j, x);
      ReplaceLineTotal(items, j, x);
      QtyInSingle(items[j]);
      QtyInSingle(x);
      assert MergeItem(items, it) == items[j := x];
      assert Key(x) == k;
    } else {
      forall k' ensures QtyIn(items + [NormalizeItem(it)], k') == QtyIn(items, k') + QtyIn([NormalizeItem(it)], k') {
        QtyInConcat(items, [NormalizeItem(it)], k');
      }
      QtyConcat(items, [NormalizeItem(it)]);
      assert [NormalizeItem(it)][..0] == [];
    }
  }

  /** Replacing one line changes the per-SKU units only through that line. */
  lemma ReplaceLineQty(items: seq<Item>, j: nat, x: Item)
    requires j < |items|
    ensures forall k :: QtyIn(items[j := x], k) == QtyIn(items, k) - QtyIn([items[j]], k) + QtyIn([x], k)
  {
    var m := items[j := x];
    assert items == items[..j] + [items[j]] + items[j + 1..];
    assert m == items[..j] + [x] + items[j + 1..];
    forall k ensures QtyIn(m, k) == QtyIn(items, k) - QtyIn([items[j]], k) + QtyIn([x], k) {
      QtyInConcat(items[..j] + [items[j]], items[j + 1..], k);
      QtyInConcat(items[..j], [items[j]], k);
      QtyInConcat(items[..j] + [x], items[j + 1..], k);
      QtyInConcat(items[..j], [x], k);
    }
  }

  /** Replacing one line changes the box's units only through that line. */
  lemma ReplaceLineTotal(items: seq<Item>, j: nat, x: Item)
    requires j < |items|
    ensures Qty(items[j := x]) == Qty(items) - items[j].qty + x.qty
  {
    var m := items[j := x];
    assert items == items[..j] + [items[j]] + items[j + 1..];
    assert m == items[..j] + [x] + items[j + 1..];
    QtyConcat(items[..j] + [items[j]], items[j + 1..]);
    QtyConcat(items[..j], [items[j]]);
    QtyConcat(items[..j] + [x], items[j + 1..]);
    QtyConcat(items[..j], [x]);
    assert [x][..0] == [] && [items[j]][..0] == [];
  }

  /** Schema method `finalize()`: draft with at least one box becomes ready. */
  function Finalize(s: Shipment): (r: Result<Shipment>)
    ensures s.status != Draft ==> r == Err(IllegalTransition(AlreadyFinalized))
    ensures s.status == Draft && |s.boxes| == 0 ==> r == Err(EmptyShipment)
    ensures r.Ok? ==> s.status == Draft && |s.boxes| > 0 && r.value.status == Ready
    ensures r.Ok? ==> r.value == Recompute(s.(status := Ready))
  {
    if s.status != Draft then Err(IllegalTransition(AlreadyFinalized))
    else if |s.boxes| == 0 then Err(EmptyShipment)
    else Save(s.(status := Ready))
  }

  /**
   * Schema method `markAsShipped(date, trackingNumber, carrier)`: only from
   * ready; the date defaults to `now`; tracking number and carrier are
   * overwritten only by non-empty values.
   */
  function MarkAsShipped(s: Shipment, date: Option<nat>, now: nat, tracking: string, carrier: string): (r: Result<Shipment>)
    ensures s.status != Ready ==> r == Err(IllegalTransition(NotReadyToShip))
    ensures r.Ok? ==> s.status == Ready && r.value.status == Shipped
    ensures r.Ok? ==> r.value.shipmentDate == Some(if date.Some? then date.value else now)
    ensures r.Ok? ==> r.value.trackingNumber == (if tracking != "" then tracking else s.trackingNumber)
    ensures r.Ok? ==> r.value.carrier == (if carrier != "" then carrier else s.carrier)
    ensures r.Ok? ==> r.value.boxes == RecomputeBoxes(s.boxes)
    ensures s.status == Ready && ShipmentValid(s) ==> r.Ok?
  {
    if s.status != Ready then Err(IllegalTransition(NotReadyToShip))
    else
      Save(s.(status := Shipped,
              shipmentDate := Some(if date.Some? then date.value else now),
              trackingNumber := OrString(tracking, s.trackingNumber),
              carrier := OrString(carrier, s.carrier)))
  }

  /** The identifier hook: `SHP{year}-{count + 1, zero-padded to 4}`, only when absent. */
  function AssignShipmentId(s: Shipment, year: nat, count: nat): (r: Shipment)
    ensures s.shipmentId != "" ==> r == s
    ensures r.(shipmentId := s.shipmentId) == s
    ensures s.shipmentId == "" ==> |r.shipmentId| > 3 && r.shipmentId[..3] == "SHP"
  {
    if s.shipmentId == "" then
      Ids.FormatIdParts("SHP", year, count);
      s.(shipmentId := Ids.FormatId("SHP", year, count))
    else s
  }
}
